=== FILE: README.md ===
# Film Vault — a Dafny model of its list, store and page logic

Film Vault is a React client for browsing movies and series from TMDB. It
keeps per-user watchlists, star ratings, reviews and review likes. Some of
this data lives in the browser's `localStorage`; the watchlist and review
collections live in Firestore. Behind the pages sits a good deal of plain,
deterministic list logic:

- the recommendation shelves of the home page;
- the key/value store and the two Firestore collections;
- the aggregates of the profile page and its tabs;
- the merged, filtered and sorted watchlist page;
- the choice of trailer, backdrop, director and writers on the detail pages;
- the review modal and the like button;
- small UI state rules: the carousel index, the star widget, shelf
  truncation, the header's hide-on-scroll and search box, and the user-name
  fallbacks.

This project restates that logic as pure Dafny functions over immutable
values and proves what the code promises about it. Each store is a value:
`localStorage` is a `map` from keys to stored lists, each key standing
for the string the code builds (`KeyText`, proved injective), and a
Firestore collection is a sequence of documents. Every write is a function
from the old value to the new one.

Layout, one module per file:

| file | module | models |
|---|---|---|
| base.dfy | Base | `Option`, filtering, truncation, de-duplication by key, indexing by key, `find` |
| sorting.dfy | Sorting | the stable descending sort that `Array.prototype.sort` performs, top-N selection |
| tally.dfy | Counting | counts per key in first-seen order (`Map`/`Record` counting loops) |
| text.dfy | Text | `trim`, truthiness of strings, `parseInt`, number-to-string, `join`, `split("@")[0]` |
| catalog.dfy | Catalog | TMDB records, genre labels, poster URLs, `Promise.allSettled` filtering |
| storage.dfy | Storage | `src/lib/storage.ts` |
| watchlist_docs.dfy | WatchlistDocs | `src/lib/watchlist.ts` |
| review_docs.dfy | ReviewDocs | `src/lib/reviews.ts` |
| home.dfy | Home | `src/pages/Home.tsx` |
| profile.dfy | Profile | `src/pages/Profile.tsx` |
| profile_stats.dfy, profile_reviews.dfy, profile_summary.dfy | ProfileStats, ProfileReviews, ProfileSummary | the three profile tabs |
| watchlist_page.dfy | WatchlistPage | `src/pages/Watchlist.tsx` |
| details.dfy | Details | what the movie and series detail pages share |
| movie_page.dfy | MoviePage | `src/pages/Movie.tsx` |
| tv_page.dfy | TvPage | `src/pages/Tv.tsx` |
| series_page.dfy | SeriesPage | `src/pages/Series.tsx` |
| shelf.dfy | Shelf | `Shelf.tsx` and `ShelfCard.tsx` |
| star_rating.dfy | StarRating | `src/components/StarRating.tsx` |
| landing_hero.dfy | LandingHero | the landing carousel |
| auth.dfy | Auth | `mapUser` of `src/auth/useAuth.tsx` |
| header.dfy | Header | `src/components/layout/Header.tsx` |

The model substitutes parameters for the things it cannot compute:

- The current time, `crypto.randomUUID()` and new Firestore document ids
  are parameters (`now`, `newId`).
- The results of TMDB fetches are a `fetch` function returning
  `Fulfilled`/`Rejected`.
- Date parsing (`new Date(..).getTime()`, `getFullYear()`) is a `time` or
  `yearOf` parameter.
- The Spanish collation of `localeCompare` is a `rank` parameter.

## Model

| member | source | states |
|---|---|---|
| Storage.ParseKey | src/lib/storage.ts:3-77 | A string read back as a key is exactly that key's string |
| Storage.ParseKeyText | src/lib/storage.ts:3-77 | Every key string (`cinebox:wl:`, `wlSeries:`, `rt:`, `reviews`, `reviewlikes:`, `reviewlikecount:`) reads back as the key it was made from |
| Storage.KeyTextInjective | src/lib/storage.ts:3-77 | Two keys share a string exactly when they are the same key: the six key families never collide and each is injective in its user or review id, so one user's write never reaches another user's entry |
| Storage.SetToggle | src/lib/storage.ts:17-21 | Toggling through a `Set` flips the id's membership, keeps every other id and stores a duplicate-free list |
| Storage.SetToggleKeepsOrder | src/lib/storage.ts:17-21 | Apart from the toggled id, the stored list is the de-duplicated original in its original order |
| Storage.SetToggleTwice | src/lib/storage.ts:17-21 | Two toggles of an absent id restore the de-duplicated list; two toggles of a present id keep the same ids but move that id to the end |
| Storage.SetToggleOnNoDup | src/lib/storage.ts:17-21 | On a duplicate-free list a toggle removes the id where it stands or appends it |
| Storage.ToggleWatch | src/lib/storage.ts:14-21 | `toggleWatch` flips the movie's membership in the user's `wl:` list, stores it duplicate-free, and changes no other key |
| Storage.ToggleWatchSeries | src/lib/storage.ts:24-31 | `toggleWatchSeries` does the same on the `wlSeries:` list and changes no other key |
| Storage.WatchlistsIndependent | src/lib/storage.ts:14-31 | A series toggle never changes any user's movie list, and a movie toggle never changes any user's series list |
| Storage.ToggleWatchOtherUser | src/lib/storage.ts:17-21 | A toggle by one user leaves every other user's movie list as it was |
| Storage.Rerated | src/lib/storage.ts:38-42 | After a re-rating exactly one rating carries the movie id; it is the new rating and stands last, and the other ratings keep their order |
| Storage.SetRating | src/lib/storage.ts:35-42 | `setRating` stores that re-rated list under the user's `rt:` key and changes no other key |
| Storage.SetRatingTwice | src/lib/storage.ts:38-42 | Rating the same movie twice leaves the same list as rating it once with the second value |
| Storage.AddReview | src/lib/storage.ts:46-53 | `addReview` always appends: the stored list grows by one, its old entries are untouched, and nothing is de-duplicated |
| Storage.GetMovieReviews | src/lib/storage.ts:55-58 | The result is a permutation of the movie's reviews (the same multiset), newest first |
| Storage.GetMovieReviewsComplete | src/lib/storage.ts:55-58 | A review is listed for a movie exactly when it is stored and is about that movie |
| Storage.ToggleReviewLike | src/lib/storage.ts:61-70 | `toggleReviewLike` flips the review id's membership in the user's like set, keeps the other ids, and changes no other key |
| Storage.GetReviewLikeCount | src/lib/storage.ts:72-73 | An absent counter reads as 0 |
| Storage.BumpReviewLikeCount | src/lib/storage.ts:75-78 | The stored count is `max(0, old + inc)`, so it is never negative, and no other key changes |
| Storage.BumpUpDown | src/lib/storage.ts:75-78 | +1 then -1 restores a non-negative count; -1 then +1 from 0 gives 1, because of the clamp |
| Storage.RatingKeepsReviews | src/lib/storage.ts:38-52 | Writing a rating never changes the stored reviews |
| Storage.ReviewKeepsRatings | src/lib/storage.ts:35-53 | Appending a review never changes any user's ratings |
| Storage.LikeKeepsCounts | src/lib/storage.ts:61-77 | Toggling a like never changes any like counter |
| Storage.CountKeepsLikes | src/lib/storage.ts:61-77 | Bumping a counter never changes any user's like set |
| WatchlistDocs.InWatchlist | src/lib/watchlist.ts:27-43 | The watch status is true exactly when some document matches the user, kind and id |
| WatchlistDocs.Toggle | src/lib/watchlist.ts:46-71 | If documents match the triple, all are deleted; if none do, exactly one is added. Documents of other triples stay, in order |
| WatchlistDocs.ToggleFlipsStatus | src/lib/watchlist.ts:46-71 | After a toggle the watch status is the negation of the status before |
| WatchlistDocs.ToggleTwice | src/lib/watchlist.ts:58-70 | Two toggles from no matching document give back the original collection |
| WatchlistDocs.NoMatchKeepsAll | src/lib/watchlist.ts:51-66 | When nothing matches the triple, the documents the toggle keeps are all of them |
| WatchlistDocs.ToggleKeepsAtMostOne | src/lib/watchlist.ts:58-70 | If every triple had at most one document before a toggle, that still holds after it |
| WatchlistDocs.ToItem | src/lib/watchlist.ts:85-93 | A document without `createdAt` is listed with time 0 |
| WatchlistDocs.ListenDocs | src/lib/watchlist.ts:65-98 | The query returns the user's documents exactly, as a permutation: those whose `serverTimestamp()` is still pending come first, since a pending timestamp counts as the newest, then the stamped ones with non-increasing `createdAt` |
| WatchlistDocs.ListenWatchlist | src/lib/watchlist.ts:74-98 | The listener yields one item per document of the user, of both kinds. The pending ones come first and are read as the epoch, then the rest with non-increasing `createdAt` |
| WatchlistDocs.ListenWatchlistComplete | src/lib/watchlist.ts:74-98 | Every document of the user is listed, and every listed item comes from a stored document |
| ReviewDocs.BuildReviewId | src/lib/reviews.ts:33-35 | The id starts with the kind name and then `_` |
| ReviewDocs.BuildReviewIdInjective | src/lib/reviews.ts:33-35 | Different (kind, id, user) triples never share a document id, even when the user id contains `_` |
| ReviewDocs.Upsert | src/lib/reviews.ts:117-132 | A write with merge replaces the document with that id where it stands, or appends it; ids stay unique |
| ReviewDocs.UpsertTwice | src/lib/reviews.ts:117-132 | Writing the same id twice leaves only the second write |
| ReviewDocs.NewReviewDoc | src/lib/reviews.ts:115-130 | The written document has the deterministic id and the time of the write, and an omitted photo is stored as null |
| ReviewDocs.SetUserReview | src/lib/reviews.ts:104-133 | `setUserReview` writes that document and leaves every document with another id where it was |
| ReviewDocs.SetUserReviewTwice | src/lib/reviews.ts:104-133 | Two reviews of the same title by the same user leave the collection as the second alone would, holding the later rating, body and time |
| ReviewDocs.SetUserReviewSingle | src/lib/reviews.ts:116-132 | After a write exactly one document carries the triple's id |
| ReviewDocs.ToReview | src/lib/reviews.ts:51-64 | A missing user name reads as "Usuario anónimo", a missing body as "", a missing time as the reading time; the other fields are copied |
| ReviewDocs.ReadBack | src/lib/reviews.ts:51-64 | A review written by `setUserReview` reads back with the values it was given |
| ReviewDocs.Query | src/lib/reviews.ts:43-48 | A query result is a permutation of the matching documents, newest first, with explicit null timestamps last |
| ReviewDocs.ListenReviews | src/lib/reviews.ts:38-69 | The listener yields one review per document of that kind and title, newest first |
| ReviewDocs.ListenUserReviews | src/lib/reviews.ts:72-101 | The listener yields one review per document of the user, newest first |
| Catalog.GenreLabel | src/components/molecules/ShelfCard.tsx:4-21 | A label exists exactly for the 16 known genre ids, and it is never empty |
| Catalog.GenreLabelInjective | src/components/molecules/ShelfCard.tsx:4-21 | No two genre ids share a label |
| Catalog.MediaYear | src/components/organisms/profile/ProfileReviewsTab.tsx:39-43 | The year is the first four characters of the release date if non-empty, else of the first-air date, else "" |
| Catalog.MediaYearOfIsoDate | src/components/molecules/ShelfCard.tsx:42 | For an ISO date `YYYY-MM-DD` the year is exactly `YYYY` |
| Catalog.PosterUrl | src/lib/tmdb.ts:131-134 | The URL is "" exactly when the path is absent or empty; otherwise it is the image base, then the four-character size name, then exactly the path |
| Catalog.PosterUrlInjective | src/lib/tmdb.ts:131-134 | Different paths or sizes give different URLs |
| Catalog.SettledValues | src/lib/tmdb.ts:105-115 | Only fulfilled results are kept, so there are at most as many as requested, and all of them when none fails |
| Catalog.SettledValuesConcat | src/lib/tmdb.ts:111-114 | Filtering preserves the request order across concatenation |
| Catalog.SettledValuesAt | src/lib/tmdb.ts:118-128 | A failed fetch removes only its own entry; the entries around it are kept, in order |
| Catalog.SettledPositions | src/lib/tmdb.ts:111-114 | The kept values are those of exactly the fulfilled outcomes, each at increasing positions, none left out |
| Catalog.FetchPositions | src/lib/tmdb.ts:104-115 | `getManyMovies(ids)` returns the value of every fulfilled request and nothing else, in the order the ids were requested |
| Home.PickSeed | src/pages/Home.tsx:42-54 | No seed for an empty list; otherwise a member of the list, and the first item when no item is dated |
| Home.PickSeedLatest | src/pages/Home.tsx:42-54 | When some item is dated, the seed is a dated item with the latest date, and no earlier item has that date |
| Home.GenreIdsOf | src/pages/Home.tsx:158-163 | `genre_ids` takes precedence over `genres`; with neither a movie has no genres |
| Home.GenreScores | src/pages/Home.tsx:156-166 | Each genre id is scored once per listing by a watchlist movie; the keys are unique |
| Home.ProfileGenreIdsSnoc | src/pages/Home.tsx:157-165 | Adding a movie adds its own genre occurrences to every score |
| Home.GenreScoresEmpty | src/pages/Home.tsx:167 | The score map is empty exactly when no watchlist movie lists a genre |
| Home.FavoriteGenres | src/pages/Home.tsx:169-172 | At most 3 ids, each scored, with non-increasing scores |
| Home.FavoriteGenresTop | src/pages/Home.tsx:169-172 | They are the first 3 of the stable score sort: ties stay in first-seen order, and no omitted genre outscores a chosen one |
| Home.FullPool | src/pages/Home.tsx:175-187 | The pool has unique ids, covers every id of the four lists, and holds only their entries |
| Home.GenrePool | src/pages/Home.tsx:301-313 | The same for the genre pool, in its own list order |
| Home.PoolsFirstOccurrence | src/pages/Home.tsx:183-187 | Each pool keeps the first occurrence of each id, in pool order |
| Home.BecauseYouLiked | src/pages/Home.tsx:190-204 | At most 20 pool items, never the seed, each sharing a `genre_ids` entry with the seed; empty without a seed or without seed genres; which items and in what order is stated by `Home.BecauseYouLikedOrder` |
| Home.BecauseYouLikedComplete | src/pages/Home.tsx:194-202 | A qualifying pool item is missing only when the shelf is full |
| Home.BecauseYouLikedOrder | src/pages/Home.tsx:194-202 | The shelf is the first 20 qualifying pool items, in pool order: they occupy increasing pool positions, and a qualifying item is skipped only after 20 earlier ones were taken |
| Home.YearOfIsoDate | src/pages/Home.tsx:217 | `parseInt` of the first four characters of an ISO date is the year |
| Home.ClassicsForYou | src/pages/Home.tsx:214-224 | At most 20 pool items, each dated before 2000 and with a favourite genre; which items and in what order is stated by `Home.ClassicsOrder` |
| Home.ClassicsOrder | src/pages/Home.tsx:214-224 | The classics shelf is the first 20 classics of the pool, in pool order |
| Home.ClassicsComplete | src/pages/Home.tsx:214-224 | A qualifying pool item is missing only when the shelf is full |
| Home.BestForProfile | src/pages/Home.tsx:227-237 | At most 20 pool items with a favourite genre, by non-increasing score, a missing score counting as 0; which of several equally scored items are kept is stated by `Home.BestForProfileOrder` |
| Home.BestForProfileIsTop | src/pages/Home.tsx:227-237 | A qualifying item left out means the shelf is full of items scored at least as high |
| Home.BestForProfileOrder | src/pages/Home.tsx:227-237 | The shelf is the stable sort of the qualifying pool items cut at 20: of the items with any one score, those shown are the first in pool order, in that order |
| Home.NewForYou | src/pages/Home.tsx:207-211 | Exactly the now-playing and upcoming items with a favourite genre; their order is stated by `Home.NewForYouOrder` |
| Home.NewForYouKeepsDuplicates | src/pages/Home.tsx:207-211 | That list is not de-duplicated: its length is the sum over both lists |
| Home.NewForYouOrder | src/pages/Home.tsx:207-211 | The list keeps the order of now playing followed by upcoming, and every item there with a favourite genre is taken |
| Home.NewShelfOrder | src/pages/Home.tsx:207-211 | Its first 20, the shelf shown, are the first 20 such items in that order |
| Home.ShelfIf | src/pages/Home.tsx:241-275 | A list becomes a shelf exactly when it is non-empty |
| Home.Bracket | src/pages/Home.tsx:241-275 | A non-empty best-for-profile list is both the first and the last shelf |
| Home.MiddleShelves | src/pages/Home.tsx:239-276 | At most three shelves between the best-rated ones, none empty or over 20 items |
| Home.ProfileShelves | src/pages/Home.tsx:169-276 | The same for the shelves built from the watchlist's profile |
| Home.PersonalizedShelves | src/pages/Home.tsx:152-284 | No shelves without a user, watchlist movies or genre scores; otherwise as assembled |
| Home.PersonalizedShelvesOrder | src/pages/Home.tsx:239-276 | The shelves are, in order: best, because-you-liked, new (truncated to 20), classics, best again, each only when non-empty |
| Home.GenreShelfFor | src/pages/Home.tsx:315-323 | A genre shelf has at most 20 pool items, each listing that genre id, titled by its label; which items and in what order is stated by `Home.GenreShelfOrder` |
| Home.GenreShelves | src/pages/Home.tsx:290-325 | One shelf per id of the fixed 7-id list, in that order |
| Home.GenreShelvesLabelled | src/pages/Home.tsx:290-325 | Every one of the 7 sections has a known label |
| Home.GenreShelfComplete | src/pages/Home.tsx:315-323 | A pool item of the genre is missing only when the shelf is full |
| Home.GenreShelfOrder | src/pages/Home.tsx:315-323 | A genre shelf is the first 20 pool items listing that genre, in pool order |
| Home.WatchlistIds | src/pages/Home.tsx:100-106 | No ids without a user; otherwise the stored movie list |
| Home.WatchlistMovies | src/pages/Home.tsx:109-122 | No request for an empty list; at most the first 40 ids are fetched, and only fulfilled results are kept; which ones and in what order is stated by `Home.WatchlistMoviesOrder` |
| Home.WatchlistMoviesOrder | src/pages/Home.tsx:109-122 | The movies are the fulfilled requests among the first 40 ids, every one of them, in request order |
| Home.ListToggle | src/pages/Home.tsx:127-131 | A present id is removed everywhere it occurs, every other id keeping its number of occurrences; an absent id is appended |
| Home.ListToggleOrder | src/pages/Home.tsx:127-131 | Removing a present id keeps every other entry in the order of the list |
| Home.HandleToggle | src/pages/Home.tsx:124-132 | Without a user nothing changes; otherwise the stored list and the page's list both flip the id |
| Home.HandleToggleInSync | src/pages/Home.tsx:124-132 | Starting from the stored list, the page's list still equals the stored list after a toggle |
| Home.VisibleChips | src/pages/Home.tsx:354-427 | A section shows only under its own chip or "all"; the genre and recommendation sections show only under their own chip |
| Profile.OwnReviews | src/pages/Profile.tsx:29-31 | Only the user's reviews are kept, and all of them |
| Profile.ProfileIds | src/pages/Profile.tsx:38-44 | The ids are duplicate-free, and are exactly the rated, reviewed and watchlisted ids |
| Profile.ProfileIdsOrder | src/pages/Profile.tsx:38-44 | They come in first-occurrence order |
| Profile.ProfileMovies | src/pages/Profile.tsx:46-59 | With no ids nothing is fetched; otherwise every movie is a fulfilled fetch of a requested id; completeness and order are stated by `Profile.ProfileMoviesOrder` |
| Profile.ProfileMoviesOrder | src/pages/Profile.tsx:46-59 | The movies are the fulfilled requests, every one of them, in the order of the ids |
| Profile.MovieById | src/pages/Profile.tsx:62-66 | The map's keys are the fetched ids, and each maps to a fetched movie with that id |
| Profile.MovieByIdLastWins | src/pages/Profile.tsx:62-66 | An id maps to the last fetched movie carrying it |
| Profile.RawName | src/pages/Profile.tsx:78-82 | name, else username, else email, else "usuario", by presence |
| Profile.FirstLetter | src/pages/Profile.tsx:84 | At most one character: empty only for an empty name, upper-cased when it is an ASCII lower-case letter |
| Profile.AvgRating | src/pages/Profile.tsx:92-97 | No average exactly when there are no ratings; otherwise the average times the count is the sum of the stars |
| Profile.AvgRatingBounds | src/pages/Profile.tsx:92-97 | The average lies between the lowest and the highest possible star values |
| Profile.TopRated | src/pages/Profile.tsx:100-102 | At most 7 of the ratings, by non-increasing stars; which of several equally starred ratings are kept is stated by `Profile.TopRatedOrder` |
| Profile.TopRatedIsTop | src/pages/Profile.tsx:100-102 | A rating left out means 7 were kept, each with at least its stars |
| Profile.TopRatedOrder | src/pages/Profile.tsx:100-102 | `topRated` is the stable sort by stars cut at 7: of the ratings with any one number of stars, those kept are the first in the list, in list order |
| Profile.RecentReviews | src/pages/Profile.tsx:104-110 | At most 5 of the reviews, newest first; which of several equally dated reviews are kept is stated by `Profile.RecentReviewsOrder` |
| Profile.RecentReviewsAreNewest | src/pages/Profile.tsx:104-110 | A review left out means 5 were kept, none older than it |
| Profile.RecentReviewsOrder | src/pages/Profile.tsx:104-110 | `recentReviews` is the stable sort by date cut at 5: of the reviews with any one date, those kept are the first in the list, in list order |
| Profile.GenreNamesOf | src/pages/Profile.tsx:115-121 | A missing movie or a movie without genres adds nothing, and unnamed genres are skipped |
| Profile.RatedGenreNamesSnoc | src/pages/Profile.tsx:114-124 | A rating adds the named genres of its movie, and nothing when its movie was not fetched |
| Profile.GenreCount | src/pages/Profile.tsx:113-124 | Each genre name's count is the number of its occurrences over the rated movies; names are unique |
| Profile.GenreCountTotal | src/pages/Profile.tsx:113-124 | The counts add up to the number of occurrences, and every occurring name is counted |
| Profile.TopGenres | src/pages/Profile.tsx:125-127 | At most 3 entries taken from the genre counts, by non-increasing count, each count the name's number of occurrences |
| Profile.TopGenresOrder | src/pages/Profile.tsx:125-127 | They are the first 3 of the stable sort of the counts: equal counts keep the tally's first-seen order, and no name after the cut has a higher count |
| Profile.TopGenresIsTop | src/pages/Profile.tsx:125-127 | A counted name left out means 3 were kept, each counted at least as often |
| ProfileStats.SafeRatings | src/components/organisms/profile/ProfileStatsTab.tsx:24 | Absent ratings are an empty list |
| ProfileStats.Round | src/components/organisms/profile/ProfileStatsTab.tsx:28 | `Math.round` gives the integer within half a unit, halves rounding up |
| ProfileStats.Buckets | src/components/organisms/profile/ProfileStatsTab.tsx:26-31 | Five buckets for stars 5, 4, 3, 2, 1 in that order, each counting the ratings that round to it |
| ProfileStats.BucketsTotal | src/components/organisms/profile/ProfileStatsTab.tsx:26-31 | The bucket counts sum to the number of ratings rounding into 1..5: at most all of them, and all of them when every one does |
| ProfileStats.MaxCount | src/components/organisms/profile/ProfileStatsTab.tsx:32-33 | At least 1 and at least every bucket count; it is some bucket's count unless it is 1 |
| ProfileStats.YearEntries | src/components/organisms/profile/ProfileStatsTab.tsx:35-42 | Strictly ascending years; each count is the number of ratings in that year and is positive; the years are exactly those that occur |
| ProfileStats.YearEntriesTotal | src/components/organisms/profile/ProfileStatsTab.tsx:35-39 | The year counts sum to the number of ratings, and a year is listed exactly when some rating falls in it |
| ProfileReviews.WrittenReviews | src/components/organisms/profile/ProfileReviewsTab.tsx:17-23 | Exactly the reviews whose body is not blank after trimming, newest first |
| ProfileReviews.WrittenReviewsStable | src/components/organisms/profile/ProfileReviewsTab.tsx:19-23 | Reviews written at the same time keep their order |
| ProfileReviews.MediaFor | src/components/organisms/profile/ProfileReviewsTab.tsx:34-37 | A movie review is looked up among the movies, any other among the series |
| ProfileReviews.MediaForIgnoresOtherKind | src/components/organisms/profile/ProfileReviewsTab.tsx:34-37 | A review's lookup never depends on the other kind's table |
| ProfileReviews.KindTitle | src/components/organisms/profile/ProfileReviewsTab.tsx:48 | "Película" exactly for a movie, "Serie" otherwise |
| ProfileReviews.MediaTitle | src/components/organisms/profile/ProfileReviewsTab.tsx:45-48 | title, else name, else the kind's title; never empty |
| ProfileReviews.RowOf | src/components/organisms/profile/ProfileReviewsTab.tsx:33-48 | A row carries its review and its lookup; its year is the first four characters of the release or first-air date, and its title is the title, else the name, else the kind's title, so never empty |
| ProfileReviews.ReviewRows | src/components/organisms/profile/ProfileReviewsTab.tsx:17-48 | One row per written review, newest first, each the row of its review (year and title as above), none blank, none untitled |
| ProfileReviews.ReviewRowsEmpty | src/components/organisms/profile/ProfileReviewsTab.tsx:27-31 | The empty message shows exactly when every review is blank |
| ProfileSummary.LastReview | src/components/organisms/profile/ProfileSummaryTab.tsx:36-37 | The first recent review, or none exactly when there is none |
| ProfileSummary.LastReviewMedia | src/components/organisms/profile/ProfileSummaryTab.tsx:39-43 | Nothing without a review; otherwise the lookup by the review's kind |
| ProfileSummary.LastReviewTitle | src/components/organisms/profile/ProfileSummaryTab.tsx:45-57 | "" exactly when there is no review; the kind's title when the lookup fails |
| ProfileSummary.LastReviewTitleAgrees | src/components/organisms/profile/ProfileSummaryTab.tsx:45-57 | The summary shows the same title as the reviews tab for the same review |
| ProfileSummary.LastReviewYear | src/components/organisms/profile/ProfileSummaryTab.tsx:106-113 | A year shows exactly when the entry has a non-empty release date, and it is that date's year |
| ProfileSummary.BodyText | src/components/organisms/profile/ProfileSummaryTab.tsx:120 | Never empty: the body, or "Sin texto en la reseña." for an empty one |
| ProfileSummary.LastAddedTitle | src/components/organisms/profile/ProfileSummaryTab.tsx:69-70 | title if present, else name |
| ProfileSummary.LastAddedYear | src/components/organisms/profile/ProfileSummaryTab.tsx:73-76 | A year shows exactly when the release date is non-empty, as its first four characters |
| WatchlistPage.ItemsFor | src/pages/Watchlist.tsx:72-93 | Items of one kind, one per fetched id, each with its position in the id list plus the base, in increasing position order |
| WatchlistPage.ItemsForComplete | src/pages/Watchlist.tsx:72-93 | An id gets an item exactly when its details were fetched |
| WatchlistPage.Combine | src/pages/Watchlist.tsx:64-93 | Movies come before series; a movie's index is its place in the movie ids, a series' is the movie count plus its place; indices strictly increase |
| WatchlistPage.LoadedItems | src/pages/Watchlist.tsx:44-55 | No items without a user or with both id lists empty |
| WatchlistPage.FilterItems | src/pages/Watchlist.tsx:104-106 | "all" keeps every item; another mode keeps exactly the items of that kind |
| WatchlistPage.FilterItemsOrder | src/pages/Watchlist.tsx:104-106 | The filter keeps the items of the mode in list order, every one of them |
| WatchlistPage.YearNumber | src/pages/Watchlist.tsx:122-127 | The year is `parseInt` of the date's first four characters, or 0 when that is not a number |
| WatchlistPage.SortItems | src/pages/Watchlist.tsx:109-136 | A permutation, ordered by ascending index, by non-increasing year, or by the title's collation rank |
| WatchlistPage.SortItemsStable | src/pages/Watchlist.tsx:109-136 | Each sort is stable: items of equal year, equal title rank or equal index keep their order in the filtered list |
| WatchlistPage.Processed | src/pages/Watchlist.tsx:99-101 | Nothing while loading; otherwise a permutation of the filtered items |
| WatchlistPage.AddedOrderIsIdentity | src/pages/Watchlist.tsx:132-135 | On the combined list the "added" order changes nothing |
| WatchlistPage.Toggle | src/pages/Watchlist.tsx:280-282 | Clicking the open select closes it, clicking another opens that one; the modes are untouched |
| WatchlistPage.ToggleTwice | src/pages/Watchlist.tsx:280-282 | When no other select was open, two clicks on the same select return to the starting state |
| WatchlistPage.ToggleTwiceFromOther | src/pages/Watchlist.tsx:280-282 | When another select was open, two clicks on this one leave every select closed |
| WatchlistPage.PickFilter | src/pages/Watchlist.tsx:311-314 | Picking a filter sets it and closes the menu, keeping the sort |
| WatchlistPage.PickSort | src/pages/Watchlist.tsx:349-352 | Picking a sort sets it and closes the menu, keeping the filter |
| Details.Trailer | src/pages/Movie.tsx:78-87 | The first official YouTube trailer, else the first YouTube trailer, else none |
| Details.TrailerPrefersOfficial | src/pages/Tv.tsx:46-55 | An official trailer anywhere in the list wins over every unofficial one |
| Details.Backdrop | src/pages/Movie.tsx:89-91 | `backdrop_path` if non-empty, else the first image's path, else none |
| Details.BackdropShown | src/pages/Tv.tsx:39-41 | A backdrop is drawn exactly when one of those two paths is non-empty |
| Details.Cast | src/pages/Movie.tsx:76 | The first five cast members, or all of them when fewer |
| Details.NamesText | src/pages/Tv.tsx:153-155 | "—" for no names, the name itself for one; otherwise its length is the names' lengths plus one separator between each pair |
| Details.NamesTextCons | src/pages/Tv.tsx:153-155 | With two or more people the text is the first name, the separator, then the text of the others, so every name appears in order |
| Details.InitialInWatchlist | src/pages/Movie.tsx:52-57 | The button starts on exactly when a user is signed in and the id is on their movie list |
| Details.WatchButton | src/pages/Movie.tsx:93-97 | Without a user nothing changes; otherwise the movie list toggles the id and the button flips |
| Details.WatchButtonInSync | src/pages/Movie.tsx:52-97 | A button that agreed with the stored list before a click agrees after it |
| MoviePage.JsRem | src/pages/Movie.tsx:65 | JavaScript's `%` by a positive number: the sign of the dividend, magnitude below the divisor |
| MoviePage.RuntimeOf | src/pages/Movie.tsx:64-66 | No runtime when absent or 0; the hours are the floor of runtime/60; for a positive runtime 60h + m is the runtime and m < 60 |
| MoviePage.RuntimeRoundTrip | src/pages/Movie.tsx:64-66 | Every split with 0 ≤ m < 60 is the split of its own total |
| MoviePage.Director | src/pages/Movie.tsx:70-72 | The first crew member whose job is "Director", or none exactly when there is none |
| MoviePage.DirectorText | src/pages/Movie.tsx:292 | The director's name, or "—" |
| MoviePage.Writers | src/pages/Movie.tsx:73-75 | Exactly the crew members whose job is Writer, Screenplay, Story or Author, with their multiplicities |
| MoviePage.WritersText | src/pages/Movie.tsx:295-297 | "—" without writers; otherwise their names joined by ", ": the first writer's name, ", ", then the others joined the same way |
| MoviePage.MyRating | src/pages/Movie.tsx:42-44 | The stars of the user's first rating of the movie, none exactly when there is no such rating |
| MoviePage.OpenModal | src/pages/Movie.tsx:100-108 | Without a user nothing changes; otherwise the modal opens with no error, the stored rating or 0, and the body of the user's first review or "" |
| MoviePage.Save | src/pages/Movie.tsx:110-141 | An absent or non-positive rating sets the error and writes nothing; otherwise the rating is re-rated, a review is appended trimmed only when its body is not blank, and the modal closes |
| MoviePage.SaveThenReopenRating | src/pages/Movie.tsx:100-141 | After a valid save, reopening the modal shows the saved rating |
| MoviePage.SaveThenReopenBody | src/pages/Movie.tsx:100-141 | After a valid save with text, reopening shows the trimmed text, as the new review is the newest |
| MoviePage.LikeClick | src/pages/Movie.tsx:360-365 | The like flips, and the count goes down by one (not below 0) when it was liked and up by one otherwise |
| MoviePage.LikeClickTwice | src/pages/Movie.tsx:360-365 | Two clicks restore both the like and the count |
| TvPage.TvYear | src/pages/Tv.tsx:36 | The first four characters of the first-air date, or "" |
| TvPage.TvYearOfIsoDate | src/pages/Tv.tsx:36 | For an ISO date that is its year |
| TvPage.SeasonsLabel | src/pages/Tv.tsx:106-112 | No label when the count is absent or 0; "temporada" exactly for 1, "temporadas" otherwise |
| TvPage.CreatorsText | src/pages/Tv.tsx:43 | "—" without creators, the single creator's name for one, and otherwise the first creator's name, ", ", then the others' names joined the same way |
| TvPage.TvButtonUsesMovieList | src/pages/Tv.tsx:57-61 | The series page's button flips the id on the movie list and leaves every series list as it was |
| SeriesPage.SeriesIds | src/pages/Series.tsx:33-39 | No ids without a user; otherwise the stored series list |
| SeriesPage.SeriesToggle | src/pages/Series.tsx:41-49 | Without a user nothing changes; otherwise the stored series list toggles and the page's list removes the id or appends it |
| SeriesPage.SeriesToggleInSync | src/pages/Series.tsx:41-49 | The page's list stays equal to the stored one, and no movie list changes |
| SeriesPage.Hero | src/pages/Series.tsx:51 | The first popular series, else the first on-air one, else none |
| SeriesPage.ShelvesByChip | src/pages/Series.tsx:85-116 | "all" shows every shelf; any other chip shows exactly one |
| Shelf.ShelfCards | src/components/organisms/Shelf.tsx:21-36 | Nothing for absent or empty items; otherwise one card for each of the first 20 items, in order, marked exactly when its id is listed, reporting its own id, kind defaulting to movie |
| Shelf.ShelfReportsOwnIds | src/components/organisms/Shelf.tsx:31-36 | The ids the cards report are exactly those of the shown items |
| Shelf.CardGenre | src/components/molecules/ShelfCard.tsx:45-47 | The label of the first genre id; "" when there is none or it is unknown |
| Shelf.CardHref | src/components/molecules/ShelfCard.tsx:49-50 | The link is the given base, or "/series" or "/movie" by kind, then "/" and the id |
| Shelf.CardHrefId | src/components/molecules/ShelfCard.tsx:49-50 | The id reads back from the link |
| Shelf.Badge | src/components/molecules/ShelfCard.tsx:43-74 | No badge exactly when the score is absent or 0 |
| Shelf.WatchLabel | src/components/molecules/ShelfCard.tsx:76-90 | A button only when the user can edit, "✓" exactly when listed, "+" otherwise |
| StarRating.Stars | src/components/StarRating.tsx:9-22 | `max` stars, 5 by default, numbered from 1, star k filled exactly when k ≤ value, the value 0 by default |
| StarRating.StarsFilledPrefix | src/components/StarRating.tsx:20-22 | The filled stars form a prefix, empty by default |
| StarRating.Click | src/components/StarRating.tsx:13-16 | A click reports the star's number, in 1..max, and nothing without a handler |
| StarRating.ClickThenShow | src/components/StarRating.tsx:13-28 | Showing the clicked value fills exactly the stars up to the clicked one |
| LandingHero.Next | src/components/organisms/LandingHero.tsx:85 | The next index wraps from the last slide to 0 and stays below n |
| LandingHero.Prev | src/components/organisms/LandingHero.tsx:77 | The previous index wraps from 0 to the last slide and stays below n |
| LandingHero.PrevNext | src/components/organisms/LandingHero.tsx:77-85 | Previous undoes next, and next undoes previous |
| LandingHero.TicksAdvance | src/components/organisms/LandingHero.tsx:45 | k timer ticks from slide i land on (i + k) mod n |
| LandingHero.Dot | src/components/organisms/LandingHero.tsx:98 | After a dot click exactly the clicked dot is active |
| LandingHero.Active | src/components/organisms/LandingHero.tsx:59 | Slide i is active exactly when i is the index |
| LandingHero.OneActive | src/components/organisms/LandingHero.tsx:59 | Exactly one slide is active |
| LandingHero.ShowArrows | src/components/organisms/LandingHero.tsx:71 | The arrows show exactly when there is more than one slide |
| Auth.EmailName | src/auth/useAuth.tsx:11 | The text before the first "@": a prefix of the email containing no "@" |
| Auth.MapUser | src/auth/useAuth.tsx:7-14 | No user maps to none; the id is the uid; the name is the display name, else the e-mail name, else "user"; the avatar is the photo exactly when it is non-empty |
| Auth.UsernameWithoutDisplayName | src/auth/useAuth.tsx:11 | Without a display name the user name never contains "@" and is a prefix of the email, unless it is "user" |
| Header.LogoFor | src/components/layout/Header.tsx:17-21 | The main logo exactly on "/" and "/login" |
| Header.OnScroll | src/components/layout/Header.tsx:29-34 | Hidden exactly when the page moved down and is past 50; the last position becomes the current one |
| Header.ScrollUpShows | src/components/layout/Header.tsx:29-34 | Scrolling up, staying near the top or not moving shows the header |
| Header.QueryChangeAsWritten | src/components/layout/Header.tsx:47-66 | A blank query clears and hides the suggestions but leaves an earlier search pending; another query schedules its own search |
| Header.QueryChange | src/components/layout/Header.tsx:50-54 | The same, but a blank query also cancels the pending search |
| Header.SearchDone | src/components/layout/Header.tsx:61-65 | A finished search shows at most the first five results; with nothing pending nothing changes |
| Header.StaleSuggestions | src/components/layout/Header.tsx:50-65 | Typing "a" and clearing it before the search fires leaves the box empty but showing the results for "a" |
| Header.BlankStaysClosed | src/components/layout/Header.tsx:50-54 | With the pending search cancelled, a blank query stays closed and empty |
| Header.Submit | src/components/layout/Header.tsx:68-74 | A blank query does nothing; otherwise the trimmed query is submitted and the suggestions close |
| Text.Trim | src/components/layout/Header.tsx:70 | `trim` removes exactly the leading and trailing white space |
| Text.TrimEmptyIffBlank | src/components/organisms/profile/ProfileReviewsTab.tsx:18 | A string trims to "" exactly when it is all white space |
| Text.ParseIntToString | src/components/molecules/ShelfCard.tsx:49-50 | `parseInt` reads back every integer written in decimal |
| Text.JoinLength | src/pages/Movie.tsx:295-297 | `join` yields the parts' lengths plus one separator between each pair |
| Text.JoinCons | src/pages/Movie.tsx:295-297 | Read from the front, `join` is the first part, the separator, then the rest joined the same way |
| Sorting.SortDesc | src/pages/Profile.tsx:100-102 | A sort by a key gives a permutation with non-increasing keys |
| Sorting.SortDescStable | src/pages/Profile.tsx:100-102 | Items with equal keys keep their relative order, as `Array.prototype.sort` does |
| Sorting.TakeSortedTies | src/pages/Profile.tsx:100-102 | Cutting a stable sort keeps, of every tie class, a prefix of that class in input order |
| Base.DedupByFirstOccurrences | src/pages/Home.tsx:183-187 | De-duplication by id keeps the first occurrence of each id, in order |
| Base.IndexByLastWins | src/pages/Profile.tsx:62-66 | Building a map from a list keeps the last entry for each key |

## Left out

- Network and database I/O. This covers the TMDB HTTP calls, the Firestore
  `onSnapshot` lifetimes and Firebase Auth. Fetch results enter as a
  function returning `Fulfilled` or `Rejected`, and a Firestore collection
  is a sequence of documents.
- Concurrency between asynchronous steps. The race between `getDocs` and
  `addDoc`/`deleteDoc` in `toggleWatchItem` is one case; state changes are
  modelled one after another.
- Timers are not modelled: the carousel's `setInterval` and the search
  debounce's `setTimeout`. A timer tick is a call of `Next`, and a debounced
  search firing is a call of `SearchDone`.
- `localStorage` and JSON. Each store is a map from the real key strings to
  already-parsed lists. `saveUser`/`getUser` are not modelled.
- Floating point. Scores and stars are reals. `toFixed`, `toLocaleString`
  and the bar-width percentages are not modelled, and NaN is not modelled.
- Dates. `new Date(..)`, `getTime()` and `getFullYear()` are parameters
  (`time`, `yearOf`), or are integer timestamps. `Timestamp.now()` is the
  `now` parameter.
- The Spanish collation of `localeCompare` enters as a `rank` function.
- `crypto.randomUUID()`, `encodeURIComponent` and navigation are not
  modelled. New ids are parameters, and `Header.Submit` returns the query it
  would navigate to.
- Ties on `orderBy("createdAt", "desc")` in Firestore are broken by
  document id. The model keeps store order for ties instead.
- Review documents that lack `createdAt` are not modelled. Firestore
  leaves them out of an `orderBy("createdAt")` query, and the app always
  writes the field. A `None` `createdAt` stands for an explicit null.
- Routing in `src/App.tsx` and the purely presentational components are not
  part of this model. The same goes for the inline tab rendering of
  `Profile.tsx`; the three tab components are modelled instead.
- React rendering quirks are not modelled. For example, `{0 && …}` renders
  "0".
- Profile.FirstLetter: upper-cases ASCII letters only. `toUpperCase` on
  other scripts is not modelled.
- MoviePage.RuntimeOf: for a negative runtime it states only that the minute
  part lies in (-60, 0]. It does not state 60h + m = runtime there, because
  JavaScript's truncating `%` meets `Math.floor` in a way that breaks that
  identity.
- Home.BecauseYouLiked: follows the code and compares only the seed's
  `genre_ids`. A seed fetched as a detail record has `genres` instead, so
  its shelf is empty.
- Home.PersonalizedShelves: like the code, the recommendation shelves do not
  exclude titles already on the watchlist.
- TvPage.TvButtonUsesMovieList: follows the code. The series detail page
  reads and toggles the movie watchlist, not the series one.
- WatchlistDocs.ListenWatchlist: states the count, the owner and the order
  of the items. Membership is stated separately by
  `WatchlistDocs.ListenWatchlistComplete`. Several pending documents are
  listed in store order. Firestore orders them by the time of the local
  write, which the model does not record.
- ReviewDocs.Query: stated on documents. The field defaults applied on
  reading are stated by `ReviewDocs.ToReview`.
- WatchlistPage.SortItems: the title sort is stated against the `rank`
  parameter, not a real collation.

## Findings

| source | as written | input that shows it | evidently intended | confidence | as-written member | corrected member |
|---|---|---|---|---|---|---|
| src/components/layout/Header.tsx:50-54 | A blank query clears the suggestions and returns early. It does not clear the debounce timer, so a search scheduled by an earlier keystroke still fires and shows its results. | Type "a", then clear the box within 250 ms: the box is empty, yet the suggestions for "a" appear | A blank query also cancels the pending search, so the panel stays closed | not executed | Header.StaleSuggestions | Header.BlankStaysClosed |

=== FILE: auth.dfy ===
/** The signed-in user as the application sees it, built from the
    authentication provider's user record. */
module Auth {
  import opened Base
  import opened Text

  /** The provider's record: `uid`, `displayName`, `email`, `photoURL`. */
  datatype AuthUser = AuthUser(uid: string, displayName: Option<string>, email: Option<string>, photoUrl: Option<string>)

  /** The application's user. */
  datatype User = User(id: string, username: string, avatarUrl: Option<string>)

  /** `u.email?.split("@")[0]` */
  function EmailName(email: Option<string>): (r: Option<string>)
    ensures r.None? <==> email.None?
    ensures r.Some? ==> '@' !in r.value && |r.value| <= |email.value| && r.value == email.value[..|r.value|]
  {
    match email
    case None => None
    case Some(e) => Some(BeforeFirst(e, '@'))
  }

  /** `mapUser`: no user for no record; otherwise the id is the `uid`, the
      name is the display name, else the part of the email before "@",
      else "user" (each skipped when empty), and the avatar is the photo
      URL when it is not empty. */
  function MapUser(u: Option<AuthUser>): (r: Option<User>)
    ensures r.None? <==> u.None?
    ensures r.Some? ==> r.value.id == u.value.uid && r.value.username != ""
    ensures r.Some? && Truthy(u.value.displayName) ==> r.value.username == u.value.displayName.value
    ensures r.Some? && !Truthy(u.value.displayName) && Truthy(EmailName(u.value.email)) ==>
      r.value.username == EmailName(u.value.email).value
    ensures r.Some? && !Truthy(u.value.displayName) && !Truthy(EmailName(u.value.email)) ==> r.value.username == "user"
    ensures r.Some? ==> (r.value.avatarUrl.Some? <==> Truthy(u.value.photoUrl))
    ensures r.Some? && r.value.avatarUrl.Some? ==> r.value.avatarUrl == u.value.photoUrl
  {
    match u
    case None => None
    case Some(a) =>
      var opts := [a.displayName, EmailName(a.email)];
      assert opts[1] == EmailName(a.email);
      Some(User(a.uid, FirstTruthy(opts, "user"), if Truthy(a.photoUrl) then a.photoUrl else None))
  }

  /** Without a display name the user name never holds "@": it is the
      start of the email up to the first "@", or "user". */
  lemma UsernameWithoutDisplayName(a: AuthUser)
    requires !Truthy(a.displayName)
    ensures '@' !in MapUser(Some(a)).value.username
    ensures a.email.Some? && MapUser(Some(a)).value.username != "user" ==>
      var n := MapUser(Some(a)).value.username; n == a.email.value[..|n|]
  {
  }
}

=== FILE: base.dfy ===
/** Sequence vocabulary shared by every page and store of the model.

    Every recursive definition here recurses on the PREFIX of its sequence
    (`s[..|s|-1]`) and then handles the last element, which is the order in
    which JavaScript's `forEach`, `filter` and `Map.set` visit an array. */
module Base {

  /** A value that may be absent: an optional field, `null` or `undefined`. */
  datatype Option<+T> = None | Some(value: T) {
    /** `o ?? default` */
    function GetOr(default: T): T {
      match this
      case Some(v) => v
      case None => default
    }
  }

  /** The identity, used as the key function of plain (unkeyed) de-duplication. */
  function Identity<T>(x: T): T { x }

  /** `s.slice(0, n)`: the first `n` elements, or all of `s` when it is shorter. */
  function Take<T>(s: seq<T>, n: nat): (r: seq<T>)
    ensures |r| == if |s| <= n then |s| else n
    ensures r == s[..|r|]
  {
    if |s| <= n then s else s[..n]
  }

  /** `s.map(f)` */
  function MapSeq<A, B>(f: A -> B, s: seq<A>): (r: seq<B>)
    ensures |r| == |s|
    ensures forall i :: 0 <= i < |s| ==> r[i] == f(s[i])
  {
    seq(|s|, i requires 0 <= i < |s| => f(s[i]))
  }

  /** `s.filter(p)`: the elements satisfying `p`, in their original order. */
  function Filter<T>(p: T -> bool, s: seq<T>): (r: seq<T>)
    ensures |r| <= |s|
    ensures forall i :: 0 <= i < |r| ==> p(r[i])
    ensures multiset(r) <= multiset(s)
  {
    if |s| == 0 then []
    else
      var s' := s[..|s| - 1];
      assert s == s' + [s[|s| - 1]];
      Filter(p, s') + (if p(s[|s| - 1]) then [s[|s| - 1]] else [])
  }

  /** Filtering keeps every element that satisfies the predicate. */
  lemma {:induction false} FilterKeeps<T>(p: T -> bool, s: seq<T>)
    ensures forall i :: 0 <= i < |s| && p(s[i]) ==> s[i] in Filter(p, s)
    decreases |s|
  {
    if |s| > 0 {
      var s', x := s[..|s| - 1], s[|s| - 1];
      assert s == s' + [x];
      FilterKeeps(p, s');
      FilterSnoc(p, s', x);
      forall i | 0 <= i < |s| && p(s[i]) ensures s[i] in Filter(p, s) {
        if i < |s'| {
          assert s[i] == s'[i];
        }
      }
    }
  }

  lemma {:induction false} FilterConcat<T>(p: T -> bool, a: seq<T>, b: seq<T>)
    ensures Filter(p, a + b) == Filter(p, a) + Filter(p, b)
    decreases |b|
  {
    if |b| == 0 {
      assert a + b == a;
    } else {
      var b' := b[..|b| - 1];
      assert (a + b)[..|a + b| - 1] == a + b';
      FilterConcat(p, a, b');
    }
  }

  lemma FilterSnoc<T>(p: T -> bool, s: seq<T>, x: T)
    ensures Filter(p, s + [x]) == Filter(p, s) + (if p(x) then [x] else [])
  {
    assert (s + [x])[..|s|] == s;
  }

  /** Filtering with a predicate no element satisfies leaves nothing. */
  lemma {:induction false} FilterNone<T>(p: T -> bool, s: seq<T>)
    requires forall i :: 0 <= i < |s| ==> !p(s[i])
    ensures Filter(p, s) == []
    decreases |s|
  {
    if |s| > 0 {
      FilterNone(p, s[..|s| - 1]);
    }
  }

  /** Conversely, an empty filter result means no element satisfies it. */
  lemma FilterEmptyNone<T>(p: T -> bool, s: seq<T>)
    requires Filter(p, s) == []
    ensures forall i :: 0 <= i < |s| ==> !p(s[i])
  {
    FilterKeeps(p, s);
  }

  /** Filtering twice with the same predicate is filtering once. */
  lemma FilterIdempotent<T>(p: T -> bool, s: seq<T>)
    ensures Filter(p, Filter(p, s)) == Filter(p, s)
  {
    FilterKeepsAll(p, Filter(p, s));
  }

  /** Filtering keeps every copy of an element satisfying `p` and no copy
      of any other. */
  lemma {:induction false} FilterCount<T>(p: T -> bool, s: seq<T>, x: T)
    ensures multiset(Filter(p, s))[x] == if p(x) then multiset(s)[x] else 0
    decreases |s|
  {
    if |s| > 0 {
      var s' := s[..|s| - 1];
      assert s == s' + [s[|s| - 1]];
      FilterCount(p, s', x);
    }
  }

  lemma FilterSingleton<T>(p: T -> bool, x: T)
    ensures Filter(p, [x]) == if p(x) then [x] else []
  {
    assert [x][..0] == [];
  }

  /** Filtering with a predicate every element satisfies changes nothing. */
  lemma {:induction false} FilterKeepsAll<T>(p: T -> bool, s: seq<T>)
    requires forall i :: 0 <= i < |s| ==> p(s[i])
    ensures Filter(p, s) == s
    decreases |s|
  {
    if |s| > 0 {
      var s', x := s[..|s| - 1], s[|s| - 1];
      assert s == s' + [x];
      calc {
        Filter(p, s);
        { FilterSnoc(p, s', x); }
        Filter(p, s') + [x];
        { FilterKeepsAll(p, s'); }
        s' + [x];
      }
    }
  }

  /** Filtering never introduces a duplicate. */
  lemma {:induction false} FilterNoDup<T>(p: T -> bool, s: seq<T>)
    requires NoDup(s)
    ensures NoDup(Filter(p, s))
    decreases |s|
  {
    if |s| > 0 {
      var s' := s[..|s| - 1];
      var x := s[|s| - 1];
      FilterNoDup(p, s');
      assert forall i :: 0 <= i < |s'| ==> s'[i] == s[i] != x;
      assert x !in multiset(Filter(p, s')) by {
        assert x !in multiset(s');
      }
      if p(x) {
        NoDupSnoc(Filter(p, s'), x);
      }
    }
  }

  /** Appending a new element keeps a sequence duplicate-free. */
  lemma NoDupSnoc<T>(a: seq<T>, x: T)
    requires NoDup(a) && x !in a
    ensures NoDup(a + [x])
  {
    var b := a + [x];
    forall i, j | 0 <= i < j < |b| ensures b[i] != b[j] {
      if j == |a| {
        assert b[i] == a[i];
      } else {
        assert b[i] == a[i] && b[j] == a[j];
      }
    }
  }

  /** The de-duplicated sequence has no duplicates and the same elements. */
  lemma DedupElements<T>(s: seq<T>)
    ensures NoDup(Dedup(s))
    ensures forall i :: 0 <= i < |s| ==> s[i] in Dedup(s)
    ensures forall i :: 0 <= i < |Dedup(s)| ==> Dedup(s)[i] in s
  {
    var d := Dedup(s);
    KeySetIdentity(s);
    KeySetIdentity(d);
    forall i, j | 0 <= i < j < |d| ensures d[i] != d[j] {
      assert Identity(d[i]) != Identity(d[j]);
    }
  }

  /** Removing every copy of `x` from a duplicate-free sequence. */
  lemma RemoveAll<T>(s: seq<T>, x: T)
    requires NoDup(s)
    ensures var r := Filter(NotEqualTo(x), s);
      && x !in r && NoDup(r)
      && (forall i :: 0 <= i < |s| && s[i] != x ==> s[i] in r)
      && (forall i :: 0 <= i < |r| ==> r[i] in s)
  {
    RemoveEvery(s, x);
    FilterNoDup(NotEqualTo(x), s);
  }

  /** `s.filter(y => y !== x)` on any sequence: every copy of `x` goes,
      everything else stays. */
  lemma RemoveEvery<T>(s: seq<T>, x: T)
    ensures var r := Filter(NotEqualTo(x), s);
      && x !in r
      && (forall i :: 0 <= i < |s| && s[i] != x ==> s[i] in r)
      && (forall i :: 0 <= i < |r| ==> r[i] in s)
      && (x in s ==> |r| < |s|)
  {
    var r := Filter(NotEqualTo(x), s);
    forall i | 0 <= i < |r| ensures r[i] != x && r[i] in s {
      assert NotEqualTo(x)(r[i]);
      assert r[i] in multiset(r);
    }
    FilterKeeps(NotEqualTo(x), s);
    forall i | 0 <= i < |s| && s[i] != x ensures s[i] in r {
      assert NotEqualTo(x)(s[i]);
    }
    if x in s {
      var i :| 0 <= i < |s| && s[i] == x;
      FilterShorter(NotEqualTo(x), s, i);
    }
  }

  /** Filtering out some element shortens the sequence. */
  lemma {:induction false} FilterShorter<T>(p: T -> bool, s: seq<T>, i: int)
    requires 0 <= i < |s| && !p(s[i])
    ensures |Filter(p, s)| < |s|
    decreases |s|
  {
    var s' := s[..|s| - 1];
    if i < |s| - 1 {
      assert s'[i] == s[i];
      FilterShorter(p, s', i);
    }
  }

  /** A prefix is drawn from the whole sequence. */
  lemma TakeMultiset<T>(s: seq<T>, n: nat)
    ensures multiset(Take(s, n)) <= multiset(s)
  {
    var r := Take(s, n);
    assert s == r + s[|r|..];
    assert multiset(s) == multiset(r) + multiset(s[|r|..]);
  }

  /** The filtered sequence holds exactly the elements of `s` satisfying
      `p`. */
  lemma FilterExact<T>(p: T -> bool, s: seq<T>)
    ensures forall i :: 0 <= i < |Filter(p, s)| ==> p(Filter(p, s)[i]) && Filter(p, s)[i] in s
    ensures forall i :: 0 <= i < |s| && p(s[i]) ==> s[i] in Filter(p, s)
  {
    var r := Filter(p, s);
    forall i | 0 <= i < |r| ensures r[i] in s {
      assert r[i] in multiset(s);
    }
    FilterKeeps(p, s);
  }

  /** The first `n` elements of a filtered sequence satisfy the filter and
      are drawn from the unfiltered one. */
  lemma TakeFilterMembers<T>(p: T -> bool, s: seq<T>, n: nat)
    ensures var r := Take(Filter(p, s), n);
      && (forall i :: 0 <= i < |r| ==> p(r[i]))
      && multiset(r) <= multiset(s)
  {
    var f := Filter(p, s);
    var r := Take(f, n);
    assert f == r + f[|r|..];
    assert multiset(f) == multiset(r) + multiset(f[|r|..]);
  }

  /** A cut filter shorter than the cut keeps every element satisfying
      the predicate. */
  lemma TakeFilterComplete<T>(p: T -> bool, s: seq<T>, n: nat, m: T)
    requires m in s && p(m)
    ensures |Take(Filter(p, s), n)| < n ==> m in Take(Filter(p, s), n)
  {
    var i :| 0 <= i < |s| && s[i] == m;
    FilterKeeps(p, s);
  }

  /** `r` is the elements of `s` at the positions `idx`, taken in
      increasing position order. */
  ghost predicate Picks<T>(s: seq<T>, r: seq<T>, idx: seq<int>)
  {
    && |idx| == |r|
    && (forall k :: 0 <= k < |idx| ==> 0 <= idx[k] < |s| && r[k] == s[idx[k]])
    && (forall k, l :: 0 <= k < l < |idx| ==> idx[k] < idx[l])
  }

  /** `r` is the first `n` elements of `s` satisfying `p`, in the order of
      `s`: every element of `r` satisfies `p`, and an element of `s`
      satisfying `p` is picked unless `r` is already full and it stands
      after every picked one. */
  ghost predicate FirstQualifying<T>(p: T -> bool, s: seq<T>, n: nat, r: seq<T>, idx: seq<int>)
  {
    && Picks(s, r, idx)
    && |r| <= n
    && (forall k :: 0 <= k < |r| ==> p(r[k]))
    && (forall j :: 0 <= j < |s| && p(s[j]) ==>
          (exists k :: 0 <= k < |idx| && idx[k] == j)
          || (|r| == n && forall k :: 0 <= k < |idx| ==> idx[k] < j))
  }

  /** `s.filter(p)` keeps the elements satisfying `p` in their original
      order, and every one of them. */
  lemma {:induction false} FilterPositions<T>(p: T -> bool, s: seq<T>) returns (idx: seq<int>)
    ensures Picks(s, Filter(p, s), idx)
    ensures forall j :: 0 <= j < |s| && p(s[j]) ==> exists k :: 0 <= k < |idx| && idx[k] == j
    decreases |s|
  {
    if |s| == 0 {
      return [];
    }
    var s', x := s[..|s| - 1], s[|s| - 1];
    assert s == s' + [x];
    var idx' := FilterPositions(p, s');
    FilterSnoc(p, s', x);
    PicksSnoc(s', x, Filter(p, s'), idx');
    idx := if p(x) then idx' + [|s'|] else idx';
    CoveredSnoc(p, s', x, idx', idx);
  }

  lemma CoveredSnoc<T>(p: T -> bool, s: seq<T>, x: T, idx: seq<int>, idx': seq<int>)
    requires forall j :: 0 <= j < |s| && p(s[j]) ==> exists k :: 0 <= k < |idx| && idx[k] == j
    requires idx' == if p(x) then idx + [|s|] else idx
    ensures forall j :: 0 <= j < |s + [x]| && p((s + [x])[j]) ==> exists k :: 0 <= k < |idx'| && idx'[k] == j
  {
    var t := s + [x];
    forall j | 0 <= j < |t| && p(t[j]) ensures exists k :: 0 <= k < |idx'| && idx'[k] == j {
      if j < |s| {
        assert s[j] == t[j];
        var k :| 0 <= k < |idx| && idx[k] == j;
        assert idx'[k] == j;
      } else {
        assert idx'[|idx|] == j;
      }
    }
  }

  lemma PicksSnoc<T>(s: seq<T>, x: T, r: seq<T>, idx: seq<int>)
    requires Picks(s, r, idx)
    ensures Picks(s + [x], r, idx)
    ensures Picks(s + [x], r + [x], idx + [|s|])
  {
    var t, r', idx' := s + [x], r + [x], idx + [|s|];
    forall k | 0 <= k < |idx| ensures r[k] == t[idx[k]] {
      assert t[idx[k]] == s[idx[k]];
    }
    forall k | 0 <= k < |idx'| ensures 0 <= idx'[k] < |t| && r'[k] == t[idx'[k]] {
      if k < |idx| {
        assert idx'[k] == idx[k] && r'[k] == r[k];
      }
    }
  }

  /** `s.filter(p).slice(0, n)` is the first `n` elements of `s` that
      satisfy `p`, in their original order. */
  lemma TakeFilterPositions<T>(p: T -> bool, s: seq<T>, n: nat) returns (idx: seq<int>)
    ensures FirstQualifying(p, s, n, Take(Filter(p, s), n), idx)
  {
    var f := Filter(p, s);
    var r := Take(f, n);
    var all := FilterPositions(p, s);
    idx := all[..|r|];
    forall k | 0 <= k < |r| ensures r[k] == f[k] && idx[k] == all[k] {
    }
    forall j | 0 <= j < |s| && p(s[j])
      ensures (exists k :: 0 <= k < |idx| && idx[k] == j) || (|r| == n && forall k :: 0 <= k < |idx| ==> idx[k] < j)
    {
      var k :| 0 <= k < |all| && all[k] == j;
      if k < |r| {
        assert idx[k] == j;
      } else {
        forall k' | 0 <= k' < |idx| ensures idx[k'] < j {
          assert idx[k'] == all[k'];
        }
      }
    }
  }

  /** Filtering by `p` and by its negation splits `s` between the two. */
  lemma FilterSplit<T>(p: T -> bool, q: T -> bool, s: seq<T>)
    requires forall x :: q(x) <==> !p(x)
    ensures multiset(Filter(p, s)) + multiset(Filter(q, s)) == multiset(s)
  {
    forall x ensures (multiset(Filter(p, s)) + multiset(Filter(q, s)))[x] == multiset(s)[x] {
      FilterCount(p, s, x);
      FilterCount(q, s, x);
    }
  }

  lemma TwoPositions<T>(a: seq<T>, i: int, j: int)
    requires 0 <= i < j < |a| && a[i] == a[j]
    ensures multiset(a)[a[i]] >= 2
  {
    assert a == a[..j] + a[j..];
    assert a[i] == a[..j][i];
    assert a[j] == a[j..][0];
    assert multiset(a) == multiset(a[..j]) + multiset(a[j..]);
  }

  lemma {:induction false} UniqueKeysOnce<T, K>(b: seq<T>, key: T -> K, x: T)
    requires UniqueKeys(b, key)
    ensures multiset(b)[x] <= 1
    decreases |b|
  {
    if |b| > 0 {
      var b' := b[..|b| - 1];
      assert b == b' + [b[|b| - 1]];
      UniqueKeysOnce(b', key, x);
      if b[|b| - 1] == x {
        assert forall k :: 0 <= k < |b'| ==> key(b'[k]) != key(x);
        assert x !in b';
      }
    }
  }

  /** Distinct keys survive any rearrangement. */
  lemma UniqueKeysPermutation<T, K>(a: seq<T>, b: seq<T>, key: T -> K)
    requires multiset(a) == multiset(b) && UniqueKeys(b, key)
    ensures UniqueKeys(a, key)
  {
    forall i, j | 0 <= i < j < |a| ensures key(a[i]) != key(a[j]) {
      if a[i] == a[j] {
        TwoPositions(a, i, j);
        UniqueKeysOnce(b, key, a[i]);
      } else {
        assert a[i] in multiset(b) && a[j] in multiset(b);
        var p :| 0 <= p < |b| && b[p] == a[i];
        var q :| 0 <= q < |b| && b[q] == a[j];
        assert p != q;
      }
    }
  }

  /** A property of every element carries over to any sub-multiset, in
      particular to any permutation. */
  lemma SubMultisetAll<T>(a: seq<T>, b: seq<T>, p: T -> bool)
    requires multiset(a) <= multiset(b)
    requires forall i :: 0 <= i < |b| ==> p(b[i])
    ensures forall i :: 0 <= i < |a| ==> p(a[i])
  {
    forall i | 0 <= i < |a| ensures p(a[i]) {
      assert a[i] in multiset(b);
      var j :| 0 <= j < |b| && b[j] == a[i];
    }
  }

  /** The predicate `y != x`. */
  function NotEqualTo<T(==)>(x: T): T -> bool
  {
    y => y != x
  }

  /** `xs.flat()`: the concatenation of a sequence of sequences. */
  function Concat<T>(xss: seq<seq<T>>): (r: seq<T>)
  {
    if |xss| == 0 then [] else Concat(xss[..|xss| - 1]) + xss[|xss| - 1]
  }

  /** The set of keys that occur in `s`. */
  function KeySet<T, K(==)>(s: seq<T>, key: T -> K): set<K>
  {
    set i | 0 <= i < |s| :: key(s[i])
  }

  lemma KeySetSnoc<T, K>(s: seq<T>, x: T, key: T -> K)
    ensures KeySet(s + [x], key) == KeySet(s, key) + {key(x)}
  {
    var l := KeySet(s + [x], key);
    var r := KeySet(s, key) + {key(x)};
    forall k | k in l ensures k in r {
      var i :| 0 <= i < |s| + 1 && key((s + [x])[i]) == k;
      if i < |s| { assert key(s[i]) == k; }
    }
    forall k | k in r ensures k in l {
      if k == key(x) {
        assert key((s + [x])[|s|]) == k;
      } else {
        var i :| 0 <= i < |s| && key(s[i]) == k;
        assert key((s + [x])[i]) == k;
      }
    }
  }

  lemma KeySetMember<T, K>(s: seq<T>, key: T -> K, i: int)
    requires 0 <= i < |s|
    ensures key(s[i]) in KeySet(s, key)
  {
  }

  /** No key occurs twice in `s`. */
  ghost predicate UniqueKeys<T, K>(s: seq<T>, key: T -> K)
  {
    forall i, j :: 0 <= i < j < |s| ==> key(s[i]) != key(s[j])
  }

  /** No element occurs twice in `s`. */
  ghost predicate NoDup<T>(s: seq<T>)
  {
    forall i, j :: 0 <= i < j < |s| ==> s[i] != s[j]
  }

  /** The position of the first element of `s` carrying key `k`. */
  function FirstIndex<T, K(==)>(s: seq<T>, key: T -> K, k: K): (i: nat)
    requires k in KeySet(s, key)
    ensures i < |s| && key(s[i]) == k
    ensures forall j :: 0 <= j < i ==> key(s[j]) != k
  {
    var s' := s[..|s| - 1];
    KeySetSnoc(s', s[|s| - 1], key);
    assert s == s' + [s[|s| - 1]];
    if k in KeySet(s', key) then FirstIndex(s', key, k)
    else
      assert forall j :: 0 <= j < |s'| ==> key(s[j]) in KeySet(s', key);
      |s| - 1
  }

  /** De-duplication by key, first occurrence wins: the values of a
      JavaScript `Map` filled with `if (!m.has(key(x))) m.set(key(x), x)`. */
  function DedupBy<T, K(==)>(s: seq<T>, key: T -> K): (r: seq<T>)
    ensures |r| <= |s|
    ensures UniqueKeys(r, key)
    ensures KeySet(r, key) == KeySet(s, key)
    ensures multiset(r) <= multiset(s)
  {
    if |s| == 0 then []
    else
      var s' := s[..|s| - 1];
      var x := s[|s| - 1];
      var p := DedupBy(s', key);
      assert s == s' + [x];
      KeySetSnoc(s', x, key);
      if key(x) in KeySet(s', key) then p
      else
        KeySetSnoc(p, x, key);
        assert forall j :: 0 <= j < |p| ==> key(p[j]) in KeySet(p, key);
        p + [x]
  }

  /** A sequence whose keys are already distinct is its own de-duplication. */
  lemma {:induction false} DedupByUnique<T, K>(s: seq<T>, key: T -> K)
    requires UniqueKeys(s, key)
    ensures DedupBy(s, key) == s
    decreases |s|
  {
    if |s| > 0 {
      var s' := s[..|s| - 1];
      DedupByUnique(s', key);
      assert s == s' + [s[|s| - 1]];
      assert forall i :: 0 <= i < |s'| ==> key(s'[i]) == key(s[i]) != key(s[|s| - 1]);
    }
  }

  /** `[...new Set(s)]`: distinct elements in first-occurrence order. */
  function Dedup<T(==)>(s: seq<T>): seq<T>
  {
    DedupBy(s, Identity)
  }

  lemma KeySetIdentity<T>(s: seq<T>)
    ensures forall x :: x in KeySet(s, Identity) <==> x in s
  {
    forall x | x in s ensures x in KeySet(s, Identity) {
      var i :| 0 <= i < |s| && s[i] == x;
      assert Identity(s[i]) == x;
    }
  }

  /** `r` lists first occurrences (by key) of elements of `s`, in the order
      in which those first occurrences appear in `s`. */
  ghost predicate FirstOccurrencesOf<T, K>(r: seq<T>, s: seq<T>, key: T -> K)
  {
    && (forall i :: 0 <= i < |r| ==> key(r[i]) in KeySet(s, key) && r[i] == s[FirstIndex(s, key, key(r[i]))])
    && (forall i, j :: 0 <= i < j < |r| ==> FirstIndex(s, key, key(r[i])) < FirstIndex(s, key, key(r[j])))
  }

  lemma FirstOccurrencesSnoc<T, K>(p: seq<T>, s: seq<T>, x: T, key: T -> K)
    requires FirstOccurrencesOf(p, s, key)
    ensures FirstOccurrencesOf(p, s + [x], key)
    ensures key(x) !in KeySet(s, key) ==> FirstOccurrencesOf(p + [x], s + [x], key)
  {
    var s1 := s + [x];
    KeySetSnoc(s, x, key);
    forall i | 0 <= i < |p|
      ensures key(p[i]) in KeySet(s1, key)
      ensures FirstIndex(s1, key, key(p[i])) == FirstIndex(s, key, key(p[i]))
      ensures p[i] == s1[FirstIndex(s1, key, key(p[i]))]
    {
      FirstIndexSnoc(s, x, key, key(p[i]));
    }
    if key(x) !in KeySet(s, key) {
      var r := p + [x];
      assert FirstIndex(s1, key, key(x)) == |s|;
      forall i | 0 <= i < |r|
        ensures key(r[i]) in KeySet(s1, key) && r[i] == s1[FirstIndex(s1, key, key(r[i]))]
      {
        if i < |p| { assert r[i] == p[i]; }
      }
      forall i, j | 0 <= i < j < |r|
        ensures FirstIndex(s1, key, key(r[i])) < FirstIndex(s1, key, key(r[j]))
      {
        assert r[i] == p[i];
        if j < |p| { assert r[j] == p[j]; }
      }
    }
  }

  /** De-duplication keeps exactly the first occurrence of every key, in the
      order in which those first occurrences appear in `s`; together with
      the contract of `DedupBy` this determines its result. */
  lemma {:induction false} DedupByFirstOccurrences<T, K>(s: seq<T>, key: T -> K)
    ensures FirstOccurrencesOf(DedupBy(s, key), s, key)
    decreases |s|
  {
    if |s| > 0 {
      var s' := s[..|s| - 1];
      var x := s[|s| - 1];
      DedupByFirstOccurrences(s', key);
      assert s == s' + [x];
      FirstOccurrencesSnoc(DedupBy(s', key), s', x, key);
    }
  }

  lemma {:induction false} FirstIndexSnoc<T, K>(s: seq<T>, x: T, key: T -> K, k: K)
    requires k in KeySet(s, key)
    ensures k in KeySet(s + [x], key)
    ensures FirstIndex(s + [x], key, k) == FirstIndex(s, key, k)
  {
    KeySetSnoc(s, x, key);
    var i := FirstIndex(s, key, k);
    assert (s + [x])[i] == s[i];
  }

  /** Number of elements of `s` satisfying `p`. */
  function CountWhere<T>(p: T -> bool, s: seq<T>): nat
  {
    |Filter(p, s)|
  }

  /** Appending one element adds one to the count exactly when it qualifies. */
  lemma CountWhereSnoc<T>(p: T -> bool, s: seq<T>, x: T)
    ensures CountWhere(p, s + [x]) == CountWhere(p, s) + if p(x) then 1 else 0
  {
    FilterSnoc(p, s, x);
  }

  /** The map built by `for (const x of s) m.set(key(x), x)`: later elements
      overwrite earlier ones with the same key. */
  function IndexBy<T, K(==)>(s: seq<T>, key: T -> K): (m: map<K, T>)
    ensures m.Keys == KeySet(s, key)
    ensures forall k :: k in m ==> m[k] in s && key(m[k]) == k
  {
    if |s| == 0 then map[]
    else
      var s' := s[..|s| - 1];
      KeySetSnoc(s', s[|s| - 1], key);
      assert s == s' + [s[|s| - 1]];
      IndexBy(s', key)[key(s[|s| - 1]) := s[|s| - 1]]
  }

  /** Each key is mapped to the LAST element of `s` that carries it. */
  lemma {:induction false} IndexByLastWins<T, K>(s: seq<T>, key: T -> K, i: int)
    requires 0 <= i < |s|
    requires forall j :: i < j < |s| ==> key(s[j]) != key(s[i])
    ensures key(s[i]) in IndexBy(s, key) && IndexBy(s, key)[key(s[i])] == s[i]
    decreases |s|
  {
    KeySetMember(s, key, i);
    if i < |s| - 1 {
      var s' := s[..|s| - 1];
      assert s'[i] == s[i];
      IndexByLastWins(s', key, i);
    }
  }

  /** `s.find(p)`: the first element satisfying `p`, if any. */
  function Find<T>(p: T -> bool, s: seq<T>): (r: Option<T>)
    ensures r.None? <==> forall i :: 0 <= i < |s| ==> !p(s[i])
    ensures r.Some? ==> p(r.value)
    ensures forall k :: 0 <= k < |s| && p(s[k]) && (forall j :: 0 <= j < k ==> !p(s[j])) ==> r == Some(s[k])
  {
    if |s| == 0 then None
    else if p(s[0]) then Some(s[0])
    else
      var r := Find(p, s[1..]);
      assert forall k :: 1 <= k < |s| ==> s[1..][k - 1] == s[k];
      r
  }
}

=== FILE: catalog.dfy ===
/** The TMDB catalogue as the client sees it: movie and series records,
    the genre-name table, poster URLs, and the `Promise.allSettled`
    filtering of the batch fetches. */
module Catalog {
  import opened Base
  import opened Text

  /** Whether a record, a watchlist entry or a review is about a movie
      ("movie") or a series ("tv"). */
  datatype Kind = MovieKind | TvKind

  function KindName(k: Kind): (r: string)
    ensures r == "movie" || r == "tv"
    ensures '_' !in r
  {
    match k
    case MovieKind => "movie"
    case TvKind => "tv"
  }

  /** One entry of a detail record's `genres` array. */
  datatype Genre = Genre(id: int, name: Option<string>)

  /** A `TmdbMovie` or `TmdbSeries` record (a series is a movie record
      without `title` and `release_date`). Detail records carry `genres`
      instead of `genre_ids`. */
  datatype Media = Media(
    id: int,
    title: Option<string>,
    name: Option<string>,
    posterPath: Option<string>,
    backdropPath: Option<string>,
    releaseDate: Option<string>,
    firstAirDate: Option<string>,
    voteAverage: Option<real>,
    genreIds: Option<seq<int>>,
    genres: Option<seq<Genre>>)

  function MediaId(m: Media): int { m.id }

  /** `vote_average ?? 0`, the sort key of the best-rated shelves. */
  function VoteOrZero(m: Media): real { m.voteAverage.GetOr(0.0) }

  /** The sixteen TMDB genre ids the client can name. */
  const KnownGenreIds: seq<int> :=
    [28, 12, 16, 35, 80, 18, 14, 27, 10749, 878, 53, 10751, 9648, 36, 10752, 99]

  /** `GENRE_LABELS[id]`, absent for an id outside the table. */
  function GenreLabel(id: int): (r: Option<string>)
    ensures r.Some? <==> id in KnownGenreIds
    ensures r.Some? ==> r.value != ""
  {
    match id
    case 28 => Some("Acción")
    case 12 => Some("Aventura")
    case 16 => Some("Animación")
    case 35 => Some("Comedia")
    case 80 => Some("Crimen")
    case 18 => Some("Drama")
    case 14 => Some("Fantasía")
    case 27 => Some("Terror")
    case 10749 => Some("Romance")
    case 878 => Some("Sci-Fi")
    case 53 => Some("Thriller")
    case 10751 => Some("Familia")
    case 9648 => Some("Misterio")
    case 36 => Some("Historia")
    case 10752 => Some("Guerra")
    case 99 => Some("Documental")
    case _ => None
  }

  /** No two genres share a label, so a label names its genre. */
  lemma GenreLabelInjective(a: int, b: int)
    requires GenreLabel(a).Some? && GenreLabel(a) == GenreLabel(b)
    ensures a == b
  {
    LabelSignature(a);
    LabelSignature(b);
  }

  /** The genre a label's length and first letter identify; these two
      already tell the sixteen labels apart. */
  function GenreOfSignature(n: int, c: char): int
  {
    match (n, c)
    case (6, 'A') => 28
    case (8, 'A') => 12
    case (9, 'A') => 16
    case (7, 'C') => 35
    case (6, 'C') => 80
    case (5, 'D') => 18
    case (8, 'F') => 14
    case (6, 'T') => 27
    case (7, 'R') => 10749
    case (6, 'S') => 878
    case (8, 'T') => 53
    case (7, 'F') => 10751
    case (8, 'M') => 9648
    case (8, 'H') => 36
    case (6, 'G') => 10752
    case (10, 'D') => 99
    case _ => 0
  }

  lemma LabelSignature(id: int)
    requires GenreLabel(id).Some?
    ensures var l := GenreLabel(id).value; |l| > 0 && GenreOfSignature(|l|, l[0]) == id
  {
  }

  /** `(release_date || first_air_date || "").slice(0, 4)` on a possibly
      missing record. */
  function MediaYear(m: Option<Media>): (y: string)
    ensures |y| <= 4
    ensures m.Some? && Truthy(m.value.releaseDate) ==> y == Take(m.value.releaseDate.value, 4)
    ensures m.Some? && !Truthy(m.value.releaseDate) && Truthy(m.value.firstAirDate) ==> y == Take(m.value.firstAirDate.value, 4)
    ensures m.None? || (!Truthy(m.value.releaseDate) && !Truthy(m.value.firstAirDate)) ==> y == ""
  {
    match m
    case None => ""
    case Some(v) =>
      var opts := [v.releaseDate, v.firstAirDate];
      assert opts[1] == v.firstAirDate;
      Take(FirstTruthy(opts, ""), 4)
  }

  /** For a date written `YYYY-MM-DD` the year is its first four characters. */
  lemma MediaYearOfIsoDate(m: Media, d: string)
    requires m.releaseDate == Some(d) && |d| == 10 && d[4] == '-' && d[7] == '-'
    ensures MediaYear(Some(m)) == d[..4]
  {
  }

  const ImageBase: string := "https://image.tmdb.org/t/p/"

  /** The three poster widths the client asks for. */
  datatype PosterSize = W342 | W500 | W780

  function SizeName(s: PosterSize): (r: string)
    ensures |r| == 4
  {
    match s
    case W342 => "w342"
    case W500 => "w500"
    case W780 => "w780"
  }

  /** `posterUrl(path, size)`: the image URL, or "" for an absent or empty
      path. */
  function PosterUrl(path: Option<string>, size: PosterSize): (r: string)
    ensures r == "" <==> !Truthy(path)
    ensures Truthy(path) ==> |r| > |ImageBase| + 4 && r[..|ImageBase|] == ImageBase && r[|ImageBase|..|ImageBase| + 4] == SizeName(size)
    ensures Truthy(path) ==> r[|ImageBase| + 4..] == path.value
  {
    if Truthy(path) then ImageBase + SizeName(size) + path.value else ""
  }

  /** `posterUrl(path)`: the size defaults to "w342". */
  function DefaultPosterUrl(path: Option<string>): (r: string)
    ensures r == PosterUrl(path, W342)
  {
    PosterUrl(path, W342)
  }

  /** The path can be read back from a non-empty URL: different posters
      and different sizes never share a URL. */
  lemma PosterUrlInjective(p: Option<string>, s: PosterSize, q: Option<string>, t: PosterSize)
    requires Truthy(p) && PosterUrl(p, s) == PosterUrl(q, t)
    ensures p == q && s == t
  {
    var u := PosterUrl(p, s);
    var n := |ImageBase| + 4;
    assert u[n..] == p.value;
    assert u[n..] == q.value;
    assert SizeName(s) == u[|ImageBase|..n] == SizeName(t);
  }

  /** The outcome of one request in a `Promise.allSettled` batch. */
  datatype Settled<T> = Fulfilled(value: T) | Rejected

  /** `res.filter(r => r.status === "fulfilled").map(r => r.value…)`:
      the values of the fulfilled requests, in request order. This is both
      `getManyMovies` and `getManySeries`, with the requests' outcomes as
      input. */
  function SettledValues<T>(res: seq<Settled<T>>): (r: seq<T>)
    ensures |r| <= |res|
    ensures (forall i :: 0 <= i < |res| ==> res[i].Fulfilled?) ==> |r| == |res|
    ensures forall i :: 0 <= i < |r| ==> Settled.Fulfilled(r[i]) in res
  {
    if |res| == 0 then []
    else
      var p := SettledValues(res[..|res| - 1]);
      assert forall i :: 0 <= i < |res| - 1 ==> res[..|res| - 1][i] == res[i];
      assert forall x :: x in res[..|res| - 1] ==> x in res;
      match res[|res| - 1]
      case Fulfilled(v) => p + [v]
      case Rejected => p
  }

  /** The fulfilled values of a concatenation are the concatenation of the
      fulfilled values. */
  lemma {:induction false} SettledValuesConcat<T>(a: seq<Settled<T>>, b: seq<Settled<T>>)
    ensures SettledValues(a + b) == SettledValues(a) + SettledValues(b)
    decreases |b|
  {
    if |b| == 0 {
      assert a + b == a;
    } else {
      assert (a + b)[..|a + b| - 1] == a + b[..|b| - 1];
      SettledValuesConcat(a, b[..|b| - 1]);
    }
  }

  /** `r` lists the values of exactly the fulfilled requests of `ids`, in
      request order: `idx` gives each value's request position. */
  ghost predicate FetchedInOrder<T>(ids: seq<int>, fetch: int -> Settled<T>, r: seq<T>, idx: seq<int>)
  {
    && |idx| == |r|
    && (forall k :: 0 <= k < |idx| ==> 0 <= idx[k] < |ids| && fetch(ids[idx[k]]) == Fulfilled(r[k]))
    && (forall k, l :: 0 <= k < l < |idx| ==> idx[k] < idx[l])
    && (forall j :: 0 <= j < |ids| && fetch(ids[j]).Fulfilled? ==> exists k :: 0 <= k < |idx| && idx[k] == j)
  }

  /** The same, stated on the outcomes themselves. */
  ghost predicate SettledAt<T>(res: seq<Settled<T>>, r: seq<T>, idx: seq<int>)
  {
    && |idx| == |r|
    && (forall k :: 0 <= k < |idx| ==> 0 <= idx[k] < |res| && res[idx[k]] == Fulfilled(r[k]))
    && (forall k, l :: 0 <= k < l < |idx| ==> idx[k] < idx[l])
    && (forall j :: 0 <= j < |res| && res[j].Fulfilled? ==> exists k :: 0 <= k < |idx| && idx[k] == j)
  }

  /** Every fulfilled request contributes its value, at its own place
      among the others. */
  lemma {:induction false} SettledPositions<T>(res: seq<Settled<T>>) returns (idx: seq<int>)
    ensures SettledAt(res, SettledValues(res), idx)
    decreases |res|
  {
    if |res| == 0 {
      return [];
    }
    var res', x := res[..|res| - 1], res[|res| - 1];
    assert res == res' + [x];
    var idx' := SettledPositions(res');
    idx := if x.Fulfilled? then idx' + [|res'|] else idx';
    SettledAtSnoc(res', x, SettledValues(res'), idx', idx);
  }

  lemma SettledAtSnoc<T>(res: seq<Settled<T>>, x: Settled<T>, r: seq<T>, idx: seq<int>, idx': seq<int>)
    requires SettledAt(res, r, idx)
    requires idx' == if x.Fulfilled? then idx + [|res|] else idx
    ensures SettledAt(res + [x], if x.Fulfilled? then r + [x.value] else r, idx')
  {
    var t := res + [x];
    var r' := if x.Fulfilled? then r + [x.value] else r;
    forall k | 0 <= k < |idx'| ensures 0 <= idx'[k] < |t| && t[idx'[k]] == Fulfilled(r'[k]) {
      if k < |idx| {
        assert idx'[k] == idx[k] && r'[k] == r[k] && t[idx[k]] == res[idx[k]];
      }
    }
    forall j | 0 <= j < |t| && t[j].Fulfilled? ensures exists k :: 0 <= k < |idx'| && idx'[k] == j {
      if j < |res| {
        assert res[j] == t[j];
        var k :| 0 <= k < |idx| && idx[k] == j;
        assert idx'[k] == j;
      } else {
        assert idx'[|idx|] == j;
      }
    }
  }

  /** `getManyMovies(ids)` keeps the fulfilled requests, all of them, in
      the order the ids were requested. */
  lemma FetchPositions<T>(ids: seq<int>, fetch: int -> Settled<T>) returns (idx: seq<int>)
    ensures FetchedInOrder(ids, fetch, SettledValues(MapSeq(fetch, ids)), idx)
  {
    var res := MapSeq(fetch, ids);
    idx := SettledPositions(res);
    assert forall j :: 0 <= j < |ids| ==> res[j] == fetch(ids[j]);
  }

  /** A failed request removes its own entry and nothing else; a
      successful one contributes its value at its own place. */
  lemma SettledValuesAt<T>(a: seq<Settled<T>>, x: Settled<T>, b: seq<Settled<T>>)
    ensures x.Rejected? ==> SettledValues(a + [x] + b) == SettledValues(a) + SettledValues(b)
    ensures x.Fulfilled? ==> SettledValues(a + [x] + b) == SettledValues(a) + [x.value] + SettledValues(b)
  {
    SettledValuesConcat(a + [x], b);
    SettledValuesConcat(a, [x]);
    assert [x][..0] == [];
  }
}

=== FILE: details.dfy ===
/** What the movie and series detail pages share: the detail record they
    read, the choice of trailer and backdrop, the short cast list, the
    lists of names shown as text, and the watchlist button. */
module Details {
  import opened Base
  import opened Text
  import opened Storage

  /** A person of the credits (`credits.crew`, `credits.cast`) or of
      `created_by`; only the crew has a `job`. */
  datatype Person = Person(name: string, job: Option<string>)

  /** One of `videos.results`; `official` is read for its truthiness. */
  datatype Video = Video(key: string, site: Option<string>, videoType: Option<string>, official: bool)

  /** The detail record of a movie or series, as far as the pages read it.
      An optional chain such as `credits?.crew` is one `Option`: it is
      `None` when either link is missing. `backdrops` holds the
      `file_path` of each of `images.backdrops`. */
  datatype Detail = Detail(
    releaseDate: Option<string>,
    firstAirDate: Option<string>,
    runtime: Option<int>,
    numberOfSeasons: Option<int>,
    backdropPath: Option<string>,
    backdrops: Option<seq<Option<string>>>,
    crew: Option<seq<Person>>,
    cast: Option<seq<Person>>,
    createdBy: Option<seq<Person>>,
    videos: Option<seq<Video>>)

  /* ---------- trailer ---------- */

  /** `v.site === "YouTube" && v.type === "Trailer"` */
  predicate IsTrailer(v: Video)
  {
    v.site == Some("YouTube") && v.videoType == Some("Trailer")
  }

  /** The same, and `v.official`. */
  predicate IsOfficialTrailer(v: Video)
  {
    IsTrailer(v) && v.official
  }

  /** The trailer: the first official YouTube trailer, else the first
      YouTube trailer, else none. */
  function Trailer(videos: Option<seq<Video>>): (r: Option<Video>)
    ensures r.Some? ==> IsTrailer(r.value)
    ensures r.None? <==> videos.None? || forall i :: 0 <= i < |videos.value| ==> !IsTrailer(videos.value[i])
    ensures videos.Some? ==> forall k ::
      (0 <= k < |videos.value| && IsOfficialTrailer(videos.value[k])
       && forall j :: 0 <= j < k ==> !IsOfficialTrailer(videos.value[j])) ==> r == Some(videos.value[k])
    ensures videos.Some? && (forall i :: 0 <= i < |videos.value| ==> !IsOfficialTrailer(videos.value[i])) ==>
      forall k ::
        (0 <= k < |videos.value| && IsTrailer(videos.value[k])
         && forall j :: 0 <= j < k ==> !IsTrailer(videos.value[j])) ==> r == Some(videos.value[k])
  {
    match videos
    case None => None
    case Some(vs) =>
      var official := Find(IsOfficialTrailer, vs);
      if official.Some? then
        official
      else
        Find(IsTrailer, vs)
  }

  /** An official trailer anywhere in the list always wins over an
      unofficial one, wherever that one stands. */
  lemma TrailerPrefersOfficial(vs: seq<Video>, i: int)
    requires 0 <= i < |vs| && IsOfficialTrailer(vs[i])
    ensures Trailer(Some(vs)).Some? && Trailer(Some(vs)).value.official
  {
    var f := Find(IsOfficialTrailer, vs);
    assert f.Some?;
  }

  /* ---------- backdrop ---------- */

  /** `backdrop_path || (images?.backdrops?.[0]?.file_path ?? null)` */
  function Backdrop(d: Detail): (r: Option<string>)
    ensures Truthy(d.backdropPath) ==> r == d.backdropPath
    ensures !Truthy(d.backdropPath) && d.backdrops.Some? && |d.backdrops.value| > 0 ==> r == d.backdrops.value[0]
    ensures !Truthy(d.backdropPath) && (d.backdrops.None? || |d.backdrops.value| == 0) ==> r.None?
  {
    if Truthy(d.backdropPath) then d.backdropPath
    else if d.backdrops.Some? && |d.backdrops.value| > 0 then d.backdrops.value[0]
    else None
  }

  /** The page draws a backdrop exactly when the record's own path is
      non-empty, or it is not and the first image's path is. */
  lemma BackdropShown(d: Detail)
    ensures Truthy(Backdrop(d)) <==>
      Truthy(d.backdropPath) || (d.backdrops.Some? && |d.backdrops.value| > 0 && Truthy(d.backdrops.value[0]))
  {
  }

  /* ---------- people ---------- */

  /** `credits?.cast?.slice(0, 5) ?? []` */
  function Cast(d: Detail): (r: seq<Person>)
    ensures |r| <= 5
    ensures d.cast.None? ==> r == []
    ensures d.cast.Some? ==> (|r| == if |d.cast.value| < 5 then |d.cast.value| else 5)
    ensures d.cast.Some? ==> r == d.cast.value[..|r|]
  {
    Take(d.cast.GetOr([]), 5)
  }

  function PersonName(p: Person): string { p.name }

  /** `ps.length ? ps.map(p => p.name).join(sep) : "—"` */
  function NamesText(ps: seq<Person>, sep: string): (t: string)
    ensures |ps| == 0 ==> t == "—"
    ensures |ps| == 1 ==> t == ps[0].name
    ensures |ps| > 0 ==> |t| == SumLengths(MapSeq(PersonName, ps)) + (|ps| - 1) * |sep|
  {
    if |ps| == 0 then "—"
    else
      JoinLength(MapSeq(PersonName, ps), sep);
      Join(MapSeq(PersonName, ps), sep)
  }

  /** With two or more people the text is the first name, the separator,
      and the text of the others. */
  lemma NamesTextCons(ps: seq<Person>, sep: string)
    requires |ps| > 1
    ensures NamesText(ps, sep) == ps[0].name + sep + NamesText(ps[1..], sep)
  {
    assert MapSeq(PersonName, ps) == [ps[0].name] + MapSeq(PersonName, ps[1..]);
    JoinCons(ps[0].name, MapSeq(PersonName, ps[1..]), sep);
  }

  /* ---------- watchlist button ---------- */

  /** The initial state of the button: whether the id is on the user's
      movie list, and off without a user. */
  function InitialInWatchlist(st: Store, user: Option<string>, id: int): (b: bool)
    ensures b <==> user.Some? && id in GetWatchlist(st, user.value)
  {
    user.Some? && id in GetWatchlist(st, user.value)
  }

  /** `handleToggleWatchlist`: nothing without a user; otherwise the movie
      list is toggled and the button flips. */
  function WatchButton(st: Store, user: Option<string>, id: int, inWatchlist: bool): (r: (Store, bool))
    ensures user.None? ==> r == (st, inWatchlist)
    ensures user.Some? ==> GetWatchlist(r.0, user.value) == SetToggle(GetWatchlist(st, user.value), id)
    ensures user.Some? ==> r.1 == !inWatchlist
  {
    match user
    case None => (st, inWatchlist)
    case Some(uid) => (ToggleWatch(st, uid, id), !inWatchlist)
  }

  /** The button keeps telling the truth: if it agreed with the stored
      list before a click, it agrees after. */
  lemma WatchButtonInSync(st: Store, user: Option<string>, id: int, inWatchlist: bool)
    requires inWatchlist == InitialInWatchlist(st, user, id)
    ensures var r := WatchButton(st, user, id, inWatchlist);
      r.1 == InitialInWatchlist(r.0, user, id)
  {
  }
}

=== FILE: header.dfy ===
/** The header: its logo, hiding on downward scroll, and the search box
    with its debounced suggestions. */
module Header {
  import opened Base
  import opened Text
  import opened Catalog

  datatype Logo = MainLogo | RedLogo

  /** The main logo on the landing and login pages, the red one elsewhere. */
  function LogoFor(path: string): (l: Logo)
    ensures l == MainLogo <==> path == "/" || path == "/login"
  {
    if path == "/" || path == "/login" then MainLogo else RedLogo
  }

  /* ---------- hide on scroll ---------- */

  const HideAfter: real := 50.0

  /** The scroll listener's state: the last position seen and whether the
      header is hidden. */
  datatype ScrollState = ScrollState(lastY: real, hidden: bool)

  /** `handleScroll`: hidden exactly when the page moved down and is past
      50 pixels; the position is remembered either way. */
  function OnScroll(s: ScrollState, current: real): (r: ScrollState)
    ensures r.lastY == current
    ensures r.hidden <==> current > s.lastY && current > HideAfter
  {
    ScrollState(current, current > s.lastY && current > HideAfter)
  }

  /** Any move up, or staying put, shows the header again, and so does
      anything within the first 50 pixels. */
  lemma ScrollUpShows(s: ScrollState, current: real)
    ensures current <= s.lastY ==> !OnScroll(s, current).hidden
    ensures current <= HideAfter ==> !OnScroll(s, current).hidden
    ensures !OnScroll(OnScroll(s, current), current).hidden
  {
  }

  /* ---------- search ---------- */

  const SuggestionCap: nat := 5

  /** The search box: the query, the suggestions and whether they show,
      and the query of the debounced search that has not fired yet. */
  datatype Search = Search(query: string, suggestions: seq<Media>, show: bool, pending: Option<string>)

  /** `handleQueryChange(value)` as written: a blank value clears and hides
      the suggestions but leaves an earlier search pending; any other value
      replaces the pending search with its own. */
  function QueryChangeAsWritten(s: Search, value: string): (r: Search)
    ensures r.query == value
    ensures Blank(value) ==> r.suggestions == [] && !r.show && r.pending == s.pending
    ensures !Blank(value) ==> r.pending == Some(value) && r.suggestions == s.suggestions && r.show == s.show
  {
    TrimEmptyIffBlank(value);
    if Trim(value) == "" then s.(query := value, suggestions := [], show := false)
    else s.(query := value, pending := Some(value))
  }

  /** The same, with the pending search cancelled on a blank value. */
  function QueryChange(s: Search, value: string): (r: Search)
    ensures r.query == value
    ensures Blank(value) ==> r.suggestions == [] && !r.show && r.pending.None?
    ensures !Blank(value) ==> r == QueryChangeAsWritten(s, value)
  {
    TrimEmptyIffBlank(value);
    if Trim(value) == "" then Search(value, [], false, None)
    else QueryChangeAsWritten(s, value)
  }

  /** The pending search fires with `results` (`res.results`): the first
      five are shown. With nothing pending nothing happens. */
  function SearchDone(s: Search, results: Option<seq<Media>>): (r: Search)
    ensures s.pending.None? ==> r == s
    ensures s.pending.Some? ==> r.pending.None? && r.show && r.query == s.query
    ensures s.pending.Some? ==> |r.suggestions| <= SuggestionCap && |r.suggestions| <= |results.GetOr([])|
    ensures s.pending.Some? ==> r.suggestions == results.GetOr([])[..|r.suggestions|]
    ensures s.pending.Some? && results.Some? && |results.value| >= SuggestionCap ==> |r.suggestions| == SuggestionCap
  {
    if s.pending.None? then s
    else s.(suggestions := Take(results.GetOr([]), SuggestionCap), show := true, pending := None)
  }

  /** As written, typing and then clearing the box before the search fires
      shows the old query's suggestions under an empty box. */
  lemma StaleSuggestions(m: Media)
    ensures var s := QueryChangeAsWritten(QueryChangeAsWritten(Search("", [], false, None), "a"), "");
      var t := SearchDone(s, Some([m]));
      t.query == "" && t.show && t.suggestions == [m]
  {
    assert "a"[0] == 'a' && !IsSpace('a');
  }

  /** With the pending search cancelled, a blank box keeps its suggestions
      hidden and empty whatever comes back. */
  lemma BlankStaysClosed(s: Search, value: string, results: Option<seq<Media>>)
    requires Blank(value)
    ensures var t := SearchDone(QueryChange(s, value), results);
      !t.show && t.suggestions == []
  {
  }

  /** `handleSearchSubmit`: a blank query does nothing; otherwise the
      search page is opened for the trimmed query and the suggestions
      close. */
  function Submit(s: Search): (r: (Option<string>, Search))
    ensures r.0.None? <==> Blank(s.query)
    ensures r.0.None? ==> r.1 == s
    ensures r.0.Some? ==> r.0.value == Trim(s.query) && Trim(r.0.value) == r.0.value && !r.1.show
  {
    TrimEmptyIffBlank(s.query);
    TrimIdempotent(s.query);
    var q := Trim(s.query);
    if q == "" then (None, s) else (Some(q), s.(show := false))
  }
}

=== FILE: home.dfy ===
/** The home page: the seed movie, the genre profile of the user's
    watchlist, the de-duplicated catalogue pools, the personalised shelves,
    the per-genre shelves, the watchlist toggle and the chip filter. */
module Home {
  import opened Base
  import opened Sorting
  import opened Counting
  import opened Text
  import opened Catalog
  import opened Storage

  /* ---------- the seed movie ---------- */

  /** `m.release_date` is truthy. */
  predicate Dated(m: Media)
  {
    Truthy(m.releaseDate)
  }

  /** `new Date(m.release_date).getTime()`, with the date parser supplied by
      the caller as `time`. */
  function ReleaseTime(time: string -> real): Media -> real
  {
    (m: Media) => if m.releaseDate.Some? then time(m.releaseDate.value) else 0.0
  }

  /** `pickSeedMovie`: the most recently released of the dated movies
      (the stable sort keeps the earlier one on a tie), else the first
      movie, and nothing for an empty list. */
  function PickSeed(movies: seq<Media>, time: string -> real): (r: Option<Media>)
    ensures r.None? <==> |movies| == 0
    ensures r.Some? ==> r.value in movies
    ensures (forall i :: 0 <= i < |movies| ==> !Dated(movies[i])) && |movies| > 0 ==> r == Some(movies[0])
  {
    if |movies| == 0 then None
    else
      var dated := Filter(Dated, movies);
      var recent := SortDesc(dated, ReleaseTime(time));
      if |recent| > 0 then
        assert recent[0] in multiset(dated);
        Some(recent[0])
      else
        Some(movies[0])
  }

  /** When some movie is dated, the seed is the first dated movie with the
      latest release time: every dated movie is released no later, and
      every dated movie before it strictly earlier. */
  lemma PickSeedLatest(movies: seq<Media>, time: string -> real) returns (k: nat)
    requires exists i :: 0 <= i < |movies| && Dated(movies[i])
    ensures k < |movies| && Dated(movies[k]) && PickSeed(movies, time) == Some(movies[k])
    ensures forall j :: 0 <= j < |movies| && Dated(movies[j]) ==>
      ReleaseTime(time)(movies[j]) <= ReleaseTime(time)(movies[k])
    ensures forall j :: 0 <= j < k && Dated(movies[j]) ==>
      ReleaseTime(time)(movies[j]) < ReleaseTime(time)(movies[k])
  {
    var dated := Filter(Dated, movies);
    var i :| 0 <= i < |movies| && Dated(movies[i]);
    FilterKeeps(Dated, movies);
    assert movies[i] in dated;
    k := FilterFirstMax(Dated, movies, ReleaseTime(time));
    SortDescHead(dated, ReleaseTime(time));
  }

  /* ---------- the genre profile ---------- */

  function GenreIdOf(g: Genre): int { g.id }

  /** `m.genre_ids ?? (Array.isArray(m.genres) ? m.genres.map(g => g.id) : [])`:
      a list record's `genre_ids` win over a detail record's `genres`. */
  function GenreIdsOf(m: Media): (r: seq<int>)
    ensures m.genreIds.Some? ==> r == m.genreIds.value
    ensures m.genreIds.None? && m.genres.Some? ==>
      |r| == |m.genres.value| && forall i :: 0 <= i < |r| ==> r[i] == m.genres.value[i].id
    ensures m.genreIds.None? && m.genres.None? ==> r == []
  {
    match m.genreIds
    case Some(ids) => ids
    case None =>
      match m.genres
      case Some(gs) => MapSeq(GenreIdOf, gs)
      case None => []
  }

  /** Every genre id of every watchlist movie, in visiting order. */
  function ProfileGenreIds(movies: seq<Media>): seq<int>
  {
    Concat(MapSeq(GenreIdsOf, movies))
  }

  /** `genreScores`: genre id to number of watchlist movies listing it, in
      first-seen order. */
  function GenreScores(movies: seq<Media>): (r: seq<(int, nat)>)
    ensures UniqueKeys(r, EntryKey)
    ensures forall i :: 0 <= i < |r| ==> r[i].1 == CountOf(ProfileGenreIds(movies), r[i].0)
    ensures forall i :: 0 <= i < |r| ==> r[i].0 in ProfileGenreIds(movies)
  {
    var ids := ProfileGenreIds(movies);
    var t := Tally(ids);
    DedupElements(ids);
    assert forall i :: 0 <= i < |t| ==> t[i].0 in Dedup(ids);
    t
  }

  lemma {:induction false} CountOfConcat<K>(a: seq<K>, b: seq<K>, k: K)
    ensures CountOf(a + b, k) == CountOf(a, k) + CountOf(b, k)
    decreases |b|
  {
    if |b| == 0 {
      assert a + b == a;
    } else {
      assert (a + b)[..|a + b| - 1] == a + b[..|b| - 1];
      CountOfConcat(a, b[..|b| - 1], k);
    }
  }

  /** Adding a movie to the watchlist raises each genre's score by the
      number of times the movie lists it: every listed id counts once per
      movie entry. */
  lemma ProfileGenreIdsSnoc(movies: seq<Media>, m: Media, g: int)
    ensures CountOf(ProfileGenreIds(movies + [m]), g) == CountOf(ProfileGenreIds(movies), g) + CountOf(GenreIdsOf(m), g)
  {
    var xss := MapSeq(GenreIdsOf, movies + [m]);
    assert xss[..|xss| - 1] == MapSeq(GenreIdsOf, movies);
    CountOfConcat(ProfileGenreIds(movies), GenreIdsOf(m), g);
  }

  /** There is no score at all exactly when no watchlist movie lists a
      genre. */
  lemma GenreScoresEmpty(movies: seq<Media>)
    ensures |GenreScores(movies)| == 0 <==> |ProfileGenreIds(movies)| == 0
  {
    var ids := ProfileGenreIds(movies);
    if |ids| > 0 {
      DedupElements(ids);
      assert ids[0] in Dedup(ids);
    }
  }

  /** `favoriteGenres`: the ids of the (at most) three best-scored
      genres, best first. */
  function FavoriteGenres(movies: seq<Media>): (r: seq<int>)
    ensures |r| <= 3
    ensures forall i :: 0 <= i < |r| ==> r[i] in ProfileGenreIds(movies)
    ensures forall i, j :: 0 <= i < j < |r| ==>
      CountOf(ProfileGenreIds(movies), r[i]) >= CountOf(ProfileGenreIds(movies), r[j])
  {
    var scores := GenreScores(movies);
    var top := TopEntries(scores, 3);
    ScoresWithin(top, scores, ProfileGenreIds(movies));
    MapSeq(EntryKey, top)
  }

  /** Entries taken from a genre score table keep its facts: each is a
      profile genre with its own count. */
  lemma ScoresWithin(a: seq<(int, nat)>, b: seq<(int, nat)>, ids: seq<int>)
    requires multiset(a) <= multiset(b)
    requires forall i :: 0 <= i < |b| ==> b[i].1 == CountOf(ids, b[i].0) && b[i].0 in ids
    ensures forall i :: 0 <= i < |a| ==> a[i].1 == CountOf(ids, a[i].0) && a[i].0 in ids
  {
    forall i | 0 <= i < |a| ensures a[i].1 == CountOf(ids, a[i].0) && a[i].0 in ids {
      assert a[i] in multiset(b);
      var k :| 0 <= k < |b| && b[k] == a[i];
    }
  }

  /** The profile is a true top three: a genre left out scores no more than
      any genre kept, and among equal scores the sort keeps the score map's
      first-seen order. */
  lemma FavoriteGenresTop(movies: seq<Media>, c: real)
    ensures var scores := GenreScores(movies);
      var sorted := SortDesc(scores, EntryCount);
      && FavoriteGenres(movies) == MapSeq(EntryKey, Take(sorted, 3))
      && TieClass(sorted, EntryCount, c) == TieClass(scores, EntryCount, c)
      && (forall i, j :: 0 <= i < |FavoriteGenres(movies)| <= j < |sorted| ==>
            CountOf(ProfileGenreIds(movies), sorted[j].0) <= CountOf(ProfileGenreIds(movies), FavoriteGenres(movies)[i]))
  {
    var scores := GenreScores(movies);
    var sorted := SortDesc(scores, EntryCount);
    var ids := ProfileGenreIds(movies);
    TopEntriesOrder(scores, 3, c);
    var top := TopEntries(scores, 3);
    var fav := FavoriteGenres(movies);
    assert fav == MapSeq(EntryKey, top);
    ScoresWithin(sorted, scores, ids);
    ScoresWithin(top, scores, ids);
    forall i, j | 0 <= i < |fav| <= j < |sorted| ensures CountOf(ids, sorted[j].0) <= CountOf(ids, fav[i]) {
      assert fav[i] == top[i].0;
      assert sorted[j].1 <= top[i].1;
    }
  }

  /* ---------- the catalogue pools ---------- */

  /** The four lists fetched from TMDB when the page loads. */
  datatype Lists = Lists(topRated: seq<Media>, trending: seq<Media>, upcoming: seq<Media>, nowPlaying: seq<Media>)

  /** `fullPool`: top rated, trending, upcoming and now playing, first
      occurrence of every id only. */
  function FullPool(l: Lists): (r: seq<Media>)
    ensures UniqueKeys(r, MediaId)
    ensures KeySet(r, MediaId) == KeySet(l.topRated + l.trending + l.upcoming + l.nowPlaying, MediaId)
    ensures multiset(r) <= multiset(l.topRated + l.trending + l.upcoming + l.nowPlaying)
  {
    DedupBy(l.topRated + l.trending + l.upcoming + l.nowPlaying, MediaId)
  }

  /** `uniqueMovies` of the genre shelves: the same lists with now playing
      before upcoming. */
  function GenrePool(l: Lists): (r: seq<Media>)
    ensures UniqueKeys(r, MediaId)
    ensures KeySet(r, MediaId) == KeySet(l.topRated + l.trending + l.nowPlaying + l.upcoming, MediaId)
    ensures multiset(r) <= multiset(l.topRated + l.trending + l.nowPlaying + l.upcoming)
  {
    DedupBy(l.topRated + l.trending + l.nowPlaying + l.upcoming, MediaId)
  }

  /** Each pool holds, for every id, the record where it first occurs, in
      the order of those first occurrences. */
  lemma PoolsFirstOccurrence(l: Lists)
    ensures FirstOccurrencesOf(FullPool(l), l.topRated + l.trending + l.upcoming + l.nowPlaying, MediaId)
    ensures FirstOccurrencesOf(GenrePool(l), l.topRated + l.trending + l.nowPlaying + l.upcoming, MediaId)
  {
    DedupByFirstOccurrences(l.topRated + l.trending + l.upcoming + l.nowPlaying, MediaId);
    DedupByFirstOccurrences(l.topRated + l.trending + l.nowPlaying + l.upcoming, MediaId);
  }

  /* ---------- the personalised shelves ---------- */

  /** `Array.isArray(m.genre_ids) && m.genre_ids.some(g => gids.includes(g))` */
  predicate SharesGenre(m: Media, gids: seq<int>)
  {
    m.genreIds.Some? && exists i :: 0 <= i < |m.genreIds.value| && m.genreIds.value[i] in gids
  }

  function SharingGenre(gids: seq<int>): Media -> bool
  {
    (m: Media) => SharesGenre(m, gids)
  }

  /** The "because you liked" filter: another id, sharing a genre with the seed. */
  function LikeSeed(seed: Media, gids: seq<int>): Media -> bool
  {
    (m: Media) => m.id != seed.id && SharesGenre(m, gids)
  }

  const ShelfCap: nat := 20

  /** `seed.genre_ids ?? []` */
  function SeedGenres(seed: Media): seq<int>
  {
    seed.genreIds.GetOr([])
  }

  /** `becauseYouLiked`: up to 20 pool movies other than the seed that share
      one of the seed's `genre_ids`; a seed known only by its detail
      `genres` contributes nothing. */
  function BecauseYouLiked(pool: seq<Media>, seed: Option<Media>): (r: seq<Media>)
    ensures |r| <= ShelfCap
    ensures seed.None? || |SeedGenres(seed.value)| == 0 ==> r == []
    ensures seed.Some? ==> forall i :: 0 <= i < |r| ==>
      r[i].id != seed.value.id && SharesGenre(r[i], SeedGenres(seed.value))
    ensures multiset(r) <= multiset(pool)
  {
    match seed
    case None => []
    case Some(s) =>
      var gids := SeedGenres(s);
      if |gids| == 0 then []
      else
        TakeFilterMembers(LikeSeed(s, gids), pool, ShelfCap);
        Take(Filter(LikeSeed(s, gids), pool), ShelfCap)
  }

  /** The shelf is the pool's qualifying movies in pool order, cut at 20:
      when it is shorter than 20 it misses none of them. */
  lemma BecauseYouLikedComplete(pool: seq<Media>, seed: Media, m: Media)
    requires |SeedGenres(seed)| > 0
    requires m in pool && m.id != seed.id && SharesGenre(m, SeedGenres(seed))
    ensures var r := BecauseYouLiked(pool, Some(seed));
      |r| < ShelfCap ==> m in r
  {
    assert LikeSeed(seed, SeedGenres(seed))(m);
    TakeFilterComplete(LikeSeed(seed, SeedGenres(seed)), pool, ShelfCap, m);
  }

  /** The shelf is the first 20 pool movies, in pool order, that are not
      the seed and share one of its genres. */
  lemma BecauseYouLikedOrder(pool: seq<Media>, seed: Media) returns (idx: seq<int>)
    requires |SeedGenres(seed)| > 0
    ensures FirstQualifying(LikeSeed(seed, SeedGenres(seed)), pool, ShelfCap, BecauseYouLiked(pool, Some(seed)), idx)
  {
    idx := TakeFilterPositions(LikeSeed(seed, SeedGenres(seed)), pool, ShelfCap);
  }

  /** `parseInt(String(d).slice(0, 4))` */
  function YearOf(d: string): Option<int>
  {
    ParseInt(Take(d, 4))
  }

  /** An ISO date's year is its first four digits. */
  lemma YearOfIsoDate(d: string)
    requires |d| >= 4 && forall i :: 0 <= i < 4 ==> '0' <= d[i] <= '9'
    ensures YearOf(d) == Some(ValueOf(d[..4], 10))
  {
    assert Take(d, 4) == d[..4] + "";
    ParseIntDecimal(d[..4], "");
  }

  /** The classics filter: a release date whose year parses below 2000,
      and a favourite genre. */
  predicate Classic(m: Media, fav: seq<int>)
  {
    && Truthy(m.releaseDate)
    && (match YearOf(m.releaseDate.value) case Some(y) => y < 2000 case None => false)
    && SharesGenre(m, fav)
  }

  function IsClassic(fav: seq<int>): Media -> bool
  {
    (m: Media) => Classic(m, fav)
  }

  /** `classicsForYou`: up to 20 pool movies with a favourite genre released
      before 2000. */
  function ClassicsForYou(pool: seq<Media>, fav: seq<int>): (r: seq<Media>)
    ensures |r| <= ShelfCap
    ensures forall i :: 0 <= i < |r| ==> Classic(r[i], fav)
    ensures multiset(r) <= multiset(pool)
  {
    TakeFilterMembers(IsClassic(fav), pool, ShelfCap);
    Take(Filter(IsClassic(fav), pool), ShelfCap)
  }

  /** A movie whose ISO date starts with a year before 2000 is a classic
      when it has a favourite genre, and a classics shelf shorter than 20
      then lists it. */
  lemma ClassicsComplete(pool: seq<Media>, fav: seq<int>, m: Media)
    requires m in pool && SharesGenre(m, fav) && m.releaseDate.Some?
    requires var d := m.releaseDate.value;
      |d| >= 4 && (forall i :: 0 <= i < 4 ==> '0' <= d[i] <= '9') && ValueOf(d[..4], 10) < 2000
    ensures var r := ClassicsForYou(pool, fav);
      |r| < ShelfCap ==> m in r
  {
    YearOfIsoDate(m.releaseDate.value);
    assert IsClassic(fav)(m);
    TakeFilterComplete(IsClassic(fav), pool, ShelfCap, m);
  }

  /** The classics shelf is the first 20 classics of the pool, in pool
      order. */
  lemma ClassicsOrder(pool: seq<Media>, fav: seq<int>) returns (idx: seq<int>)
    ensures FirstQualifying(IsClassic(fav), pool, ShelfCap, ClassicsForYou(pool, fav), idx)
  {
    idx := TakeFilterPositions(IsClassic(fav), pool, ShelfCap);
  }

  /** `bestForProfile`: the pool movies with a favourite genre, by
      `vote_average` (missing counts as 0) highest first, cut at 20. */
  function BestForProfile(pool: seq<Media>, fav: seq<int>): (r: seq<Media>)
    ensures |r| <= ShelfCap
    ensures forall i :: 0 <= i < |r| ==> SharesGenre(r[i], fav)
    ensures multiset(r) <= multiset(pool)
    ensures forall i, j :: 0 <= i < j < |r| ==> VoteOrZero(r[i]) >= VoteOrZero(r[j])
  {
    var r := TopFiltered(SharingGenre(fav), pool, VoteOrZero, ShelfCap);
    AllShareGenre(r, fav);
    r
  }

  /** Among qualifying movies with the same vote, the ones on the shelf
      are the first in the pool, in pool order. */
  lemma BestForProfileOrder(pool: seq<Media>, fav: seq<int>, c: real)
    ensures BestForProfile(pool, fav) == Take(SortDesc(Filter(SharingGenre(fav), pool), VoteOrZero), ShelfCap)
    ensures TieClass(BestForProfile(pool, fav), VoteOrZero, c) <= TieClass(Filter(SharingGenre(fav), pool), VoteOrZero, c)
  {
    TopFilteredTies(SharingGenre(fav), pool, VoteOrZero, ShelfCap, c);
  }

  lemma AllShareGenre(r: seq<Media>, fav: seq<int>)
    requires forall i :: 0 <= i < |r| ==> SharingGenre(fav)(r[i])
    ensures forall i :: 0 <= i < |r| ==> SharesGenre(r[i], fav)
  {
  }

  /** Nothing left off the best-rated shelf beats what is on it: a pool
      movie with a favourite genre that is not shown scores no more than
      any movie shown. */
  lemma BestForProfileIsTop(pool: seq<Media>, fav: seq<int>, m: Media)
    requires m in pool && SharesGenre(m, fav)
    ensures var r := BestForProfile(pool, fav);
      m !in r ==> |r| == ShelfCap && forall i :: 0 <= i < |r| ==> VoteOrZero(m) <= VoteOrZero(r[i])
  {
    assert SharingGenre(fav)(m);
    TopFilteredComplete(SharingGenre(fav), pool, VoteOrZero, ShelfCap, m);
  }

  /** `newForYou`: now playing then upcoming, with a favourite genre, not
      de-duplicated. */
  function NewForYou(l: Lists, fav: seq<int>): (r: seq<Media>)
    ensures forall i :: 0 <= i < |r| ==> SharesGenre(r[i], fav) && r[i] in l.nowPlaying + l.upcoming
    ensures forall i :: 0 <= i < |l.nowPlaying + l.upcoming| && SharesGenre((l.nowPlaying + l.upcoming)[i], fav) ==>
      (l.nowPlaying + l.upcoming)[i] in r
  {
    var s := l.nowPlaying + l.upcoming;
    FilterExact(SharingGenre(fav), s);
    Filter(SharingGenre(fav), s)
  }

  /** The list keeps the order of now playing followed by upcoming, and
      every movie there with a favourite genre is in it. */
  lemma NewForYouOrder(l: Lists, fav: seq<int>) returns (idx: seq<int>)
    ensures var s := l.nowPlaying + l.upcoming;
      && Picks(s, NewForYou(l, fav), idx)
      && forall j :: 0 <= j < |s| && SharesGenre(s[j], fav) ==> exists k :: 0 <= k < |idx| && idx[k] == j
  {
    var s := l.nowPlaying + l.upcoming;
    idx := FilterPositions(SharingGenre(fav), s);
    assert forall j :: 0 <= j < |s| && SharesGenre(s[j], fav) ==> SharingGenre(fav)(s[j]);
  }

  /** The "new for you" shelf, `newForYou.slice(0, 20)`, is the first 20
      such movies in that order. */
  lemma NewShelfOrder(l: Lists, fav: seq<int>) returns (idx: seq<int>)
    ensures FirstQualifying(SharingGenre(fav), l.nowPlaying + l.upcoming, ShelfCap, Take(NewForYou(l, fav), ShelfCap), idx)
  {
    idx := TakeFilterPositions(SharingGenre(fav), l.nowPlaying + l.upcoming, ShelfCap);
  }

  /** A movie playing now and coming up, both times with a favourite genre,
      is listed twice. */
  lemma NewForYouKeepsDuplicates(l: Lists, fav: seq<int>)
    ensures |NewForYou(l, fav)| == |Filter(SharingGenre(fav), l.nowPlaying)| + |Filter(SharingGenre(fav), l.upcoming)|
  {
    FilterConcat(SharingGenre(fav), l.nowPlaying, l.upcoming);
  }

  /** One shelf of the "recommended" tab. */
  datatype Shelf = Shelf(title: string, items: seq<Media>)

  const BestTitle: string := "Basado en tus géneros favoritos"
  const NewTitle: string := "Nuevas películas para ti"
  const ClassicsTitle: string := "Clásicos que te podrían encantar"
  const LastTitle: string := "Lo mejor valorado para tu perfil"

  /** `Porque te gustó ${seed.title ?? seed.name}`; a template prints an
      absent value as "undefined". */
  function BecauseTitle(seed: Media): string
  {
    "Porque te gustó " + FirstPresent([seed.title, seed.name], "undefined")
  }

  /** A shelf for a non-empty list, nothing for an empty one. */
  function ShelfIf(title: string, items: seq<Media>): (r: seq<Shelf>)
    ensures |items| == 0 <==> r == []
    ensures |items| > 0 ==> r == [Shelf(title, items)]
    ensures |items| <= ShelfCap ==> ShelvesFilled(r)
  {
    if |items| > 0 then [Shelf(title, items)] else []
  }

  /** Every shelf shows between one and twenty movies. */
  predicate ShelvesFilled(r: seq<Shelf>)
  {
    forall i :: 0 <= i < |r| ==> 0 < |r[i].items| <= ShelfCap
  }

  lemma ShelvesFilledConcat(a: seq<Shelf>, b: seq<Shelf>)
    ensures ShelvesFilled(a) && ShelvesFilled(b) ==> ShelvesFilled(a + b)
  {
    assert forall i :: |a| <= i < |a + b| ==> (a + b)[i] == b[i - |a|];
  }

  /** The best-rated shelf, when there is one, opens and closes the list. */
  function Bracket(best: seq<Media>, middle: seq<Shelf>): (r: seq<Shelf>)
    ensures |best| == 0 ==> r == middle
    ensures |best| > 0 ==> |r| == |middle| + 2 && r[0] == Shelf(BestTitle, best) && r[|r| - 1] == Shelf(LastTitle, best)
    ensures |best| <= ShelfCap && ShelvesFilled(middle) ==> ShelvesFilled(r)
  {
    ShelvesFilledConcat(ShelfIf(BestTitle, best), middle);
    ShelvesFilledConcat(ShelfIf(BestTitle, best) + middle, ShelfIf(LastTitle, best));
    ShelfIf(BestTitle, best) + middle + ShelfIf(LastTitle, best)
  }

  /** The shelves between the two best-rated ones, in page order:
      "because you liked" (only with a seed), new, classics; an empty list
      gives no shelf. */
  function MiddleShelves(pool: seq<Media>, seed: Option<Media>, l: Lists, fav: seq<int>): (r: seq<Shelf>)
    ensures |r| <= 3 && ShelvesFilled(r)
  {
    var becauseShelf := if seed.Some? then ShelfIf(BecauseTitle(seed.value), BecauseYouLiked(pool, seed)) else [];
    var newShelf := ShelfIf(NewTitle, Take(NewForYou(l, fav), ShelfCap));
    var classicsShelf := ShelfIf(ClassicsTitle, ClassicsForYou(pool, fav));
    ShelvesFilledConcat(becauseShelf, newShelf);
    ShelvesFilledConcat(becauseShelf + newShelf, classicsShelf);
    becauseShelf + newShelf + classicsShelf
  }

  /** The shelves built from a non-empty profile: at most five, none empty
      or over the cap, the best-rated list first and last. */
  function ProfileShelves(movies: seq<Media>, l: Lists, time: string -> real): (r: seq<Shelf>)
    ensures |r| <= 5 && ShelvesFilled(r)
    ensures var best := BestForProfile(FullPool(l), FavoriteGenres(movies));
      |best| > 0 ==> |r| >= 2 && r[0] == Shelf(BestTitle, best) && r[|r| - 1] == Shelf(LastTitle, best)
  {
    var fav := FavoriteGenres(movies);
    var pool := FullPool(l);
    Bracket(BestForProfile(pool, fav), MiddleShelves(pool, PickSeed(movies, time), l, fav))
  }

  /** `personalizedShelves` for the signed-in `user` (a user id) whose
      fetched watchlist movies are `movies`: nothing without a user, without
      movies, or without a single genre among them. */
  function PersonalizedShelves(user: Option<string>, movies: seq<Media>, l: Lists, time: string -> real): (r: seq<Shelf>)
    ensures user.None? || |movies| == 0 || |GenreScores(movies)| == 0 ==> r == []
    ensures |r| <= 5 && ShelvesFilled(r)
    ensures user.Some? && |movies| > 0 && |GenreScores(movies)| > 0 ==>
      var best := BestForProfile(FullPool(l), FavoriteGenres(movies));
      |best| > 0 ==> |r| >= 2 && r[0] == Shelf(BestTitle, best) && r[|r| - 1] == Shelf(LastTitle, best)
  {
    if user.None? || |movies| == 0 then []
    else if |GenreScores(movies)| == 0 then []
    else ProfileShelves(movies, l, time)
  }

  /** The shelves are, in order, the best-rated, "because you liked",
      new and classics lists and the best-rated list again, each present
      exactly when its list is non-empty. */
  lemma PersonalizedShelvesOrder(user: string, movies: seq<Media>, l: Lists, time: string -> real)
    requires |movies| > 0 && |GenreScores(movies)| > 0
    ensures var fav := FavoriteGenres(movies);
      var pool := FullPool(l);
      var seed := PickSeed(movies, time).value;
      var best := BestForProfile(pool, fav);
      PersonalizedShelves(Some(user), movies, l, time)
        == ShelfIf(BestTitle, best)
         + (ShelfIf(BecauseTitle(seed), BecauseYouLiked(pool, Some(seed)))
         + ShelfIf(NewTitle, Take(NewForYou(l, fav), ShelfCap))
         + ShelfIf(ClassicsTitle, ClassicsForYou(pool, fav)))
         + ShelfIf(LastTitle, best)
  {
  }

  /* ---------- the per-genre shelves ---------- */

  const GenreSections: seq<int> := [28, 35, 18, 27, 878, 10749, 99]

  datatype GenreShelf = GenreShelf(genreId: int, title: string, items: seq<Media>)

  /** `Array.isArray(m.genre_ids) ? m.genre_ids.includes(gid) : false` */
  function HasGenre(gid: int): Media -> bool
  {
    (m: Media) => m.genreIds.Some? && gid in m.genreIds.value
  }

  function GenreShelfFor(pool: seq<Media>, gid: int): (s: GenreShelf)
    ensures s.genreId == gid && s.title == GenreLabel(gid).GetOr("Género")
    ensures |s.items| <= ShelfCap
    ensures forall i :: 0 <= i < |s.items| ==> s.items[i].genreIds.Some? && gid in s.items[i].genreIds.value
    ensures multiset(s.items) <= multiset(pool)
  {
    TakeFilterMembers(HasGenre(gid), pool, ShelfCap);
    GenreShelf(gid, GenreLabel(gid).GetOr("Género"), Take(Filter(HasGenre(gid), pool), ShelfCap))
  }

  /** `genreShelves`: one shelf per section id, in section order. */
  function GenreShelves(l: Lists): (r: seq<GenreShelf>)
    ensures |r| == |GenreSections|
    ensures forall i :: 0 <= i < |r| ==> r[i].genreId == GenreSections[i]
    ensures forall i :: 0 <= i < |r| ==> |r[i].items| <= ShelfCap
    ensures forall i, j :: 0 <= i < |r| && 0 <= j < |r[i].items| ==>
      r[i].items[j].genreIds.Some? && GenreSections[i] in r[i].items[j].genreIds.value
  {
    var pool := GenrePool(l);
    seq(|GenreSections|, i requires 0 <= i < |GenreSections| => GenreShelfFor(pool, GenreSections[i]))
  }

  /** Every section id has a name of its own, so no shelf falls back to
      the generic label. */
  lemma GenreShelvesLabelled(l: Lists)
    ensures forall i :: 0 <= i < |GenreShelves(l)| ==>
      GenreLabel(GenreSections[i]).Some? && GenreShelves(l)[i].title == GenreLabel(GenreSections[i]).value
  {
    forall i | 0 <= i < |GenreSections| ensures GenreLabel(GenreSections[i]).Some? {
      assert GenreSections[i] in KnownGenreIds;
    }
  }

  /** A genre shelf shorter than 20 lists every pooled movie of its genre. */
  lemma GenreShelfComplete(l: Lists, i: nat, m: Media)
    requires i < |GenreSections|
    requires m in GenrePool(l) && m.genreIds.Some? && GenreSections[i] in m.genreIds.value
    ensures |GenreShelves(l)[i].items| < ShelfCap ==> m in GenreShelves(l)[i].items
  {
    var pool := GenrePool(l);
    var gid := GenreSections[i];
    assert HasGenre(gid)(m);
    TakeFilterComplete(HasGenre(gid), pool, ShelfCap, m);
    assert GenreShelves(l)[i] == GenreShelfFor(pool, gid);
  }

  /** A genre shelf is the first 20 pool movies listing that genre, in pool
      order. */
  lemma GenreShelfOrder(pool: seq<Media>, gid: int) returns (idx: seq<int>)
    ensures FirstQualifying(HasGenre(gid), pool, ShelfCap, GenreShelfFor(pool, gid).items, idx)
  {
    idx := TakeFilterPositions(HasGenre(gid), pool, ShelfCap);
  }

  /* ---------- the watchlist ---------- */

  /** The watchlist ids the page starts from: none without a user. */
  function WatchlistIds(st: Store, user: Option<string>): (r: seq<int>)
    ensures user.None? ==> r == []
    ensures user.Some? ==> r == GetWatchlist(st, user.value)
  {
    match user
    case None => []
    case Some(uid) => GetWatchlist(st, uid)
  }

  const FetchCap: nat := 40

  /** `loadWatchlistMovies`: no request for an empty list; otherwise the
      first 40 ids are fetched, `fetch` standing for each request's
      outcome, and the failed requests dropped. */
  function WatchlistMovies(ids: seq<int>, fetch: int -> Settled<Media>): (r: seq<Media>)
    ensures |ids| == 0 ==> r == []
    ensures |r| <= FetchCap && |r| <= |ids|
    ensures forall i :: 0 <= i < |r| ==> exists j :: 0 <= j < |ids| && j < FetchCap && fetch(ids[j]) == Fulfilled(r[i])
  {
    if |ids| == 0 then []
    else
      var asked := Take(ids, FetchCap);
      var res := MapSeq(fetch, asked);
      var r := SettledValues(res);
      forall i | 0 <= i < |r| ensures exists j :: 0 <= j < |ids| && j < FetchCap && fetch(ids[j]) == Fulfilled(r[i]) {
        var j :| 0 <= j < |res| && res[j] == Settled.Fulfilled(r[i]);
        assert asked[j] == ids[j];
      }
      r
  }

  /** The movies shown are the fulfilled requests among the first 40 ids,
      every one of them, in the order the ids were requested. */
  lemma WatchlistMoviesOrder(ids: seq<int>, fetch: int -> Settled<Media>) returns (idx: seq<int>)
    ensures FetchedInOrder(Take(ids, FetchCap), fetch, WatchlistMovies(ids, fetch), idx)
  {
    idx := FetchPositions(Take(ids, FetchCap), fetch);
  }

  /** `prev.includes(id) ? prev.filter(x => x !== id) : [...prev, id]` */
  function ListToggle(ids: seq<int>, id: int): (r: seq<int>)
    ensures id in r <==> id !in ids
    ensures forall x :: x != id ==> (x in r <==> x in ids)
    ensures id !in ids ==> r == ids + [id]
    ensures id in ids ==> |r| < |ids|
    ensures id in ids ==> forall x :: x != id ==> multiset(r)[x] == multiset(ids)[x]
  {
    if id in ids then
      RemoveEvery(ids, id);
      var r := Filter(NotEqualTo(id), ids);
      forall x | x != id ensures multiset(r)[x] == multiset(ids)[x] {
        FilterCount(NotEqualTo(id), ids, x);
      }
      r
    else
      ids + [id]
  }

  /** Removing an id keeps every other entry, duplicates included, in the
      order of the list. */
  lemma ListToggleOrder(ids: seq<int>, id: int) returns (idx: seq<int>)
    ensures id in ids ==> Picks(ids, ListToggle(ids, id), idx)
    ensures id in ids ==> forall j :: 0 <= j < |ids| && ids[j] != id ==> exists k :: 0 <= k < |idx| && idx[k] == j
  {
    idx := FilterPositions(NotEqualTo(id), ids);
    assert forall j :: 0 <= j < |ids| && ids[j] != id ==> NotEqualTo(id)(ids[j]);
  }

  /** `handleToggleWatchlist(id)`: nothing without a user; otherwise the
      stored list is toggled and the page's own copy updated. */
  function HandleToggle(st: Store, ids: seq<int>, user: Option<string>, id: int): (r: (Store, seq<int>))
    ensures user.None? ==> r == (st, ids)
    ensures user.Some? ==> GetWatchlist(r.0, user.value) == SetToggle(GetWatchlist(st, user.value), id)
    ensures id in r.1 <==> (user.Some? <==> id !in ids)
  {
    match user
    case None => (st, ids)
    case Some(uid) => (ToggleWatch(st, uid, id), ListToggle(ids, id))
  }

  /** The page's copy stays equal to the stored list: both start from the
      stored list, and a stored list is always free of duplicates, so the
      two toggles agree. */
  lemma HandleToggleInSync(st: Store, uid: string, id: int)
    requires NoDup(GetWatchlist(st, uid))
    ensures var r := HandleToggle(st, GetWatchlist(st, uid), Some(uid), id);
      r.1 == GetWatchlist(r.0, uid) && NoDup(r.1)
  {
    SetToggleOnNoDup(GetWatchlist(st, uid), id);
  }

  /* ---------- the chips ---------- */

  datatype Chip = AllChip | TopChip | GenreChip | TrendChip | RecoChip

  /** The page's groups of shelves. */
  datatype Section = TopSection | TrendSection | GenreSection | RecoSection

  function SectionChip(s: Section): Chip
  {
    match s
    case TopSection => TopChip
    case TrendSection => TrendChip
    case GenreSection => GenreChip
    case RecoSection => RecoChip
  }

  /** "All" shows the top-rated and the trending groups only; every group
      also shows under its own chip. */
  predicate Visible(active: Chip, s: Section)
  {
    active == SectionChip(s) || (active == AllChip && (s == TopSection || s == TrendSection))
  }

  /** Exactly one chip shows the genre shelves, and exactly one the
      recommendations. */
  lemma VisibleChips(active: Chip, s: Section)
    ensures Visible(active, s) ==> active == SectionChip(s) || active == AllChip
    ensures (s == GenreSection || s == RecoSection) ==> (Visible(active, s) <==> active == SectionChip(s))
    ensures Visible(SectionChip(s), s)
  {
  }
}

=== FILE: landing_hero.dfy ===
/** The landing carousel: an index into the slides that the arrows, the
    dots and the timer move around the ring. */
module LandingHero {
  const SlideCount: nat := 5

  /** The index starts at the first slide. */
  const Start: nat := 0

  /** `(i + 1) % n`: the arrow "›" and each timer tick. */
  function Next(i: nat, n: nat): (j: nat)
    requires n > 0
    ensures j < n
    ensures i + 1 < n ==> j == i + 1
    ensures i + 1 == n ==> j == 0
  {
    (i + 1) % n
  }

  /** `(i - 1 + n) % n`: the arrow "‹". Its operand is never negative, so
      JavaScript's `%` and Dafny's agree. */
  function Prev(i: nat, n: nat): (j: nat)
    requires n > 0
    ensures j < n
    ensures 0 < i <= n ==> j == i - 1
    ensures i == 0 ==> j == n - 1
  {
    (i - 1 + n) % n
  }

  /** "‹" undoes "›" and "›" undoes "‹". */
  lemma PrevNext(i: nat, n: nat)
    requires i < n
    ensures Prev(Next(i, n), n) == i
    ensures Next(Prev(i, n), n) == i
  {
  }

  /** `k` timer ticks from `i`. */
  function Ticks(i: nat, k: nat, n: nat): (j: nat)
    requires n > 0
    ensures j < n || (k == 0 && j == i)
  {
    if k == 0 then i else Next(Ticks(i, k - 1, n), n)
  }

  /** `k` ticks move `k` slides along the ring: after `n` ticks the first
      slide is back. */
  lemma {:induction false} TicksAdvance(i: nat, k: nat, n: nat)
    requires i < n
    ensures Ticks(i, k, n) == (i + k) % n
  {
    if k > 0 {
      TicksAdvance(i, k - 1, n);
      ModSucc(i + k - 1, n);
    }
  }

  lemma ModSucc(a: nat, n: nat)
    requires n > 0
    ensures (a % n + 1) % n == (a + 1) % n
  {
    var q := a / n;
    var r := a % n;
    if r + 1 < n {
      ModUnique(a + 1, n, q, r + 1);
      ModUnique(r + 1, n, 0, r + 1);
    } else {
      ModUnique(a + 1, n, q + 1, 0);
      ModUnique(r + 1, n, 1, 0);
    }
  }

  /** The remainder is the only `r` in `[0, n)` with `a == q * n + r`. */
  lemma ModUnique(a: int, n: int, q: int, r: int)
    requires n > 0 && 0 <= r < n && a == q * n + r
    ensures a % n == r
  {
    var q' := a / n;
    var r' := a % n;
    assert (q - q') * n == r' - r;
    if q > q' {
      MulAtLeast(q - q', n);
    } else if q < q' {
      MulAtLeast(q' - q, n);
    }
  }

  lemma MulAtLeast(d: int, n: int)
    requires d >= 1 && n > 0
    ensures d * n >= n
  {
  }

  /** A dot click moves straight to that dot's slide: afterwards the
      clicked dot, and only it, is drawn active. */
  function Dot(k: nat, n: nat): (j: nat)
    requires k < n
    ensures j < n
    ensures forall i :: 0 <= i < n ==> (Active(j, n)[i] <==> i == k)
  {
    k
  }

  /** Which slides are drawn active for index `idx`. */
  function Active(idx: nat, n: nat): (a: seq<bool>)
    ensures |a| == n
    ensures forall i :: 0 <= i < n ==> (a[i] <==> i == idx)
  {
    seq(n, i => i == idx)
  }

  /** Exactly one slide is active while the index is in range. */
  lemma OneActive(idx: nat, n: nat, i: nat, j: nat)
    requires idx < n
    ensures Active(idx, n)[idx]
    ensures i < n && j < n && Active(idx, n)[i] && Active(idx, n)[j] ==> i == j
  {
  }

  /** The arrows are drawn only when there is more than one slide. */
  function ShowArrows(n: nat): (b: bool)
    ensures b <==> n > 1
  {
    n > 1
  }
}

=== FILE: movie_page.dfy ===
/** The movie detail page: the runtime split into hours and minutes, the
    director and writers, the review modal (prefill and save) and the like
    button of each review. */
module MoviePage {
  import opened Base
  import opened Text
  import opened Storage
  import opened Details

  /* ---------- runtime ---------- */

  /** The runtime as shown: `${h}h ${m}min`. */
  datatype Duration = Duration(hours: int, minutes: int)

  /** JavaScript's `a % b` for `b > 0`: the remainder carries the sign of
      `a`, unlike Dafny's, which is never negative. */
  function JsRem(a: int, b: int): (r: int)
    requires b > 0
    ensures a >= 0 ==> 0 <= r < b
    ensures a < 0 ==> -b < r <= 0
  {
    if a >= 0 then a % b else -((-a) % b)
  }

  /** `runtime ? {floor(runtime / 60), runtime % 60} : null`: nothing when
      the runtime is absent or 0; a positive runtime splits into whole hours
      and the minutes left over. */
  function RuntimeOf(runtime: Option<int>): (r: Option<Duration>)
    ensures r.None? <==> runtime.None? || runtime.value == 0
    ensures r.Some? ==> r.value.hours * 60 <= runtime.value < r.value.hours * 60 + 60
    ensures r.Some? && runtime.value > 0 ==>
      r.value.hours >= 0 && 0 <= r.value.minutes < 60 && 60 * r.value.hours + r.value.minutes == runtime.value
    ensures r.Some? && runtime.value < 0 ==> -60 < r.value.minutes <= 0
  {
    match runtime
    case None => None
    case Some(n) => if n == 0 then None else Some(Duration(n / 60, JsRem(n, 60)))
  }

  /** Splitting is undone by `60 * hours + minutes`: every split with
      `0 <= minutes < 60` of a positive runtime is the one shown. */
  lemma RuntimeRoundTrip(h: int, m: int)
    requires h >= 0 && 0 <= m < 60 && 60 * h + m > 0
    ensures RuntimeOf(Some(60 * h + m)) == Some(Duration(h, m))
  {
    var n := 60 * h + m;
    assert n / 60 == h && n % 60 == m by {
      DivModUnique(n, h, m);
    }
  }

  lemma DivModUnique(n: int, q: int, r: int)
    requires n == 60 * q + r && 0 <= r < 60
    ensures n / 60 == q && n % 60 == r
  {
  }

  /* ---------- crew ---------- */

  /** `p.job === "Director"` */
  predicate IsDirector(p: Person)
  {
    p.job == Some("Director")
  }

  const WriterJobs: set<string> := {"Writer", "Screenplay", "Story", "Author"}

  /** `["Writer", "Screenplay", "Story", "Author"].includes(p.job)` */
  predicate IsWriter(p: Person)
  {
    p.job.Some? && p.job.value in WriterJobs
  }

  /** `credits?.crew?.find(p => p.job === "Director")`: the first director
      of the crew. */
  function Director(d: Detail): (r: Option<Person>)
    ensures r.Some? ==> r.value.job == Some("Director")
    ensures r.None? <==> d.crew.None? || forall i :: 0 <= i < |d.crew.value| ==> !IsDirector(d.crew.value[i])
    ensures d.crew.Some? ==> forall k ::
      (0 <= k < |d.crew.value| && IsDirector(d.crew.value[k])
       && forall j :: 0 <= j < k ==> !IsDirector(d.crew.value[j])) ==> r == Some(d.crew.value[k])
  {
    match d.crew
    case None => None
    case Some(crew) => Find(IsDirector, crew)
  }

  /** `director ? director.name : "—"` */
  function DirectorText(d: Detail): (t: string)
    ensures Director(d).None? ==> t == "—"
    ensures Director(d).Some? ==> t == Director(d).value.name
  {
    match Director(d)
    case None => "—"
    case Some(p) => p.name
  }

  /** `credits?.crew?.filter(p => [...].includes(p.job))`: the writers of
      the crew, as many times and in the order the crew lists them;
      nothing at all when there is no crew. */
  function Writers(d: Detail): (r: Option<seq<Person>>)
    ensures r.None? <==> d.crew.None?
    ensures r.Some? ==> forall i :: 0 <= i < |r.value| ==> IsWriter(r.value[i])
    ensures r.Some? ==> forall x :: multiset(r.value)[x] == if IsWriter(x) then multiset(d.crew.value)[x] else 0
  {
    match d.crew
    case None => None
    case Some(crew) =>
      var w := Filter(IsWriter, crew);
      forall x ensures multiset(w)[x] == if IsWriter(x) then multiset(crew)[x] else 0 {
        FilterCount(IsWriter, crew, x);
      }
      Some(w)
  }

  /** `writers && writers.length ? names.join(", ") : "—"` */
  function WritersText(d: Detail): (t: string)
    ensures Writers(d).None? ==> t == "—"
    ensures Writers(d).Some? ==> t == NamesText(Writers(d).value, ", ")
    ensures Writers(d).Some? && |Writers(d).value| > 1 ==>
      t == Writers(d).value[0].name + ", " + NamesText(Writers(d).value[1..], ", ")
  {
    match Writers(d)
    case None => "—"
    case Some(ws) =>
      if |ws| > 1 then
        NamesTextCons(ws, ", ");
        NamesText(ws, ", ")
      else NamesText(ws, ", ")
  }

  /* ---------- the review modal ---------- */

  /** The modal's state: open or not, its error line and the drafts. */
  datatype Modal = Modal(open: bool, error: string, rating: real, body: string)

  const RatingError: string := "Primero selecciona una puntuación (al menos 1 estrella)."

  /** `r.movieId === mid` */
  function RatingOf(mid: int): Rating -> bool
  {
    (x: Rating) => x.movieId == mid
  }

  /** `r.userId === uid` */
  function WrittenBy(uid: string): Review -> bool
  {
    (x: Review) => x.userId == uid
  }

  /** `myRating`: the stars of the user's first rating of the movie. */
  function MyRating(st: Store, user: Option<string>, mid: int): (r: Option<real>)
    ensures user.None? ==> r.None?
    ensures r.Some? <==> user.Some? && exists i :: 0 <= i < |GetRatings(st, user.value)| && GetRatings(st, user.value)[i].movieId == mid
    ensures user.Some? ==> var rs := GetRatings(st, user.value);
      forall k :: (0 <= k < |rs| && rs[k].movieId == mid && forall j :: 0 <= j < k ==> rs[j].movieId != mid)
        ==> r == Some(rs[k].stars)
  {
    match user
    case None => None
    case Some(uid) =>
      var rs := GetRatings(st, uid);
      var f := Find(RatingOf(mid), rs);
      assert forall i :: 0 <= i < |rs| ==> (RatingOf(mid)(rs[i]) <==> rs[i].movieId == mid);
      match f
      case None => None
      case Some(x) => Some(x.stars)
  }

  /** `openReviewModal`: nothing without a user; otherwise the modal opens
      with no error, the rating drafted from the user's rating of the movie
      (0 without one) and the body from the user's first review in the
      page's list ("" without one). */
  function OpenModal(st: Store, user: Option<string>, mid: int, reviews: seq<Review>, m: Modal): (r: Modal)
    ensures user.None? ==> r == m
    ensures user.Some? ==> r.open && r.error == ""
    ensures user.Some? ==> r.rating == MyRating(st, user, mid).GetOr(0.0)
    ensures user.Some? && (forall i :: 0 <= i < |reviews| ==> reviews[i].userId != user.value) ==> r.body == ""
    ensures user.Some? ==> forall k ::
      (0 <= k < |reviews| && reviews[k].userId == user.value
       && forall j :: 0 <= j < k ==> reviews[j].userId != user.value) ==> r.body == reviews[k].body
  {
    match user
    case None => m
    case Some(uid) =>
      var mine := Find(WrittenBy(uid), reviews);
      assert forall i :: 0 <= i < |reviews| ==> (WrittenBy(uid)(reviews[i]) <==> reviews[i].userId == uid);
      var body := match mine case None => "" case Some(x) => x.body;
      Modal(true, "", MyRating(st, user, mid).GetOr(0.0), body)
  }

  /** The review a save appends: untitled, no spoiler, the trimmed body. */
  function NewReview(uid: string, mid: int, body: string, now: int, newId: string): Review
  {
    Review(newId, uid, mid, "", Trim(body), false, now)
  }

  /** `handleSaveReviewAndRating`: nothing without a user; a rating that is
      not positive only sets the error; otherwise the rating is upserted
      with the drafted stars, a review with the trimmed body is appended
      when that body is not blank, and the modal closes. `now` and `newId`
      stand for the clock and `crypto.randomUUID()`. */
  function Save(st: Store, user: Option<string>, mid: int, m: Modal, now: int, newId: string): (r: (Store, Modal))
    ensures user.None? ==> r == (st, m)
    ensures user.Some? && m.rating <= 0.0 ==> r.0 == st && r.1 == m.(error := RatingError)
    ensures user.Some? && m.rating > 0.0 ==> !r.1.open
    ensures user.Some? && m.rating > 0.0 ==>
      GetRatings(r.0, user.value) == Rerated(GetRatings(st, user.value), Rating(user.value, mid, m.rating, now))
    ensures user.Some? && m.rating > 0.0 && Trim(m.body) == "" ==> GetAllReviews(r.0) == GetAllReviews(st)
    ensures user.Some? && m.rating > 0.0 && Trim(m.body) != "" ==>
      GetAllReviews(r.0) == GetAllReviews(st) + [NewReview(user.value, mid, m.body, now, newId)]
  {
    match user
    case None => (st, m)
    case Some(uid) =>
      if m.rating <= 0.0 then (st, m.(error := RatingError))
      else
        var rated := SetRating(st, uid, Rating(uid, mid, m.rating, now));
        RatingKeepsReviews(st, uid, Rating(uid, mid, m.rating, now));
        if Trim(m.body) != "" then
          var rv := NewReview(uid, mid, m.body, now, newId);
          ReviewKeepsRatings(rated, rv, uid);
          (AddReview(rated, rv), m.(open := false))
        else
          (rated, m.(open := false))
  }

  /** After a save the modal, opened again, drafts the rating just saved. */
  lemma SaveThenReopenRating(st: Store, uid: string, mid: int, m: Modal, now: int, newId: string, reviews: seq<Review>)
    requires m.rating > 0.0
    ensures var st' := Save(st, Some(uid), mid, m, now, newId).0;
      OpenModal(st', Some(uid), mid, reviews, m).rating == m.rating
  {
    var st' := Save(st, Some(uid), mid, m, now, newId).0;
    var rs := GetRatings(st', uid);
    assert rs[|rs| - 1].movieId == mid;
    assert MyRating(st', Some(uid), mid) == Some(m.rating);
  }

  /** ...and, when the saved body is not blank and the save is newer than
      every stored review, the body just saved: the new review heads the
      movie's newest-first list. */
  lemma SaveThenReopenBody(st: Store, uid: string, mid: int, m: Modal, now: int, newId: string)
    requires m.rating > 0.0 && Trim(m.body) != ""
    requires forall i :: 0 <= i < |GetAllReviews(st)| ==> GetAllReviews(st)[i].createdAt < now
    ensures var st' := Save(st, Some(uid), mid, m, now, newId).0;
      OpenModal(st', Some(uid), mid, GetMovieReviews(st', mid), m).body == Trim(m.body)
  {
    var st' := Save(st, Some(uid), mid, m, now, newId).0;
    var rv := NewReview(uid, mid, m.body, now, newId);
    var before := GetAllReviews(st);
    assert GetAllReviews(st') == before + [rv];
    GetMovieReviewsComplete(st', mid, rv);
    var list := GetMovieReviews(st', mid);
    forall i | 0 <= i < |list| && list[i] != rv
      ensures list[i].createdAt < rv.createdAt
    {
      GetMovieReviewsComplete(st', mid, list[i]);
      OlderThanAppended(before, rv, list[i]);
    }
    NewestHeadsList(list, rv);
  }

  /** A review of `a + [x]` other than `x` is older than `x` when all of
      `a` is. */
  lemma OlderThanAppended(a: seq<Review>, x: Review, y: Review)
    requires forall i :: 0 <= i < |a| ==> a[i].createdAt < x.createdAt
    requires y in a + [x] && y != x
    ensures y.createdAt < x.createdAt
  {
    var k :| 0 <= k < |a + [x]| && (a + [x])[k] == y;
    assert k < |a| && a[k] == y;
  }

  /** In a newest-first list, a review newer than every other one comes
      first. */
  lemma NewestHeadsList(list: seq<Review>, rv: Review)
    requires rv in list
    requires forall i, j :: 0 <= i < j < |list| ==> list[i].createdAt >= list[j].createdAt
    requires forall i :: 0 <= i < |list| && list[i] != rv ==> list[i].createdAt < rv.createdAt
    ensures list[0] == rv
  {
    var k :| 0 <= k < |list| && list[k] == rv;
    if k > 0 {
      assert list[0].createdAt >= list[k].createdAt;
    }
  }

  /* ---------- likes ---------- */

  /** The like button of one review: nothing without a user; otherwise the
      like is flipped, the count bumped down if the page showed it liked
      and up otherwise, and the page's likes reread from the store. */
  function LikeClick(st: Store, user: Option<string>, likes: seq<string>, reviewId: string): (r: (Store, seq<string>))
    ensures user.None? ==> r == (st, likes)
    ensures user.Some? ==> r.1 == GetReviewLikes(r.0, user.value)
    ensures user.Some? ==> (reviewId in r.1 <==> reviewId !in GetReviewLikes(st, user.value))
    ensures user.Some? && reviewId in likes ==>
      GetReviewLikeCount(r.0, reviewId) == (if GetReviewLikeCount(st, reviewId) > 0 then GetReviewLikeCount(st, reviewId) - 1 else 0)
    ensures user.Some? && reviewId !in likes && GetReviewLikeCount(st, reviewId) >= 0 ==>
      GetReviewLikeCount(r.0, reviewId) == GetReviewLikeCount(st, reviewId) + 1
  {
    match user
    case None => (st, likes)
    case Some(uid) =>
      var liked := reviewId in likes;
      var toggled := ToggleReviewLike(st, uid, reviewId);
      LikeKeepsCounts(st, uid, reviewId, reviewId);
      var bumped := BumpReviewLikeCount(toggled, reviewId, if liked then -1 else 1);
      CountKeepsLikes(toggled, reviewId, if liked then -1 else 1, uid);
      (bumped, GetReviewLikes(bumped, uid))
  }

  /** Liking and unliking a review, starting from what the store says,
      gives back the like state and the count: unless the count was 0 when
      the review was already liked, because the count never goes below 0. */
  lemma LikeClickTwice(st: Store, uid: string, reviewId: string)
    requires GetReviewLikeCount(st, reviewId) >= 0
    requires reviewId in GetReviewLikes(st, uid) ==> GetReviewLikeCount(st, reviewId) > 0
    ensures var once := LikeClick(st, Some(uid), GetReviewLikes(st, uid), reviewId);
      var twice := LikeClick(once.0, Some(uid), once.1, reviewId);
      (reviewId in twice.1 <==> reviewId in GetReviewLikes(st, uid))
      && GetReviewLikeCount(twice.0, reviewId) == GetReviewLikeCount(st, reviewId)
  {
  }
}

=== FILE: profile.dfy ===
/** The profile page: the user's own reviews, the union of the ids the user
    has touched, the movie lookup table, the display name, the average and
    top ratings, the recent reviews and the genre statistics. */
module Profile {
  import opened Base
  import opened Sorting
  import opened Counting
  import opened Text
  import opened Catalog
  import opened Storage

  /* ---------- loading ---------- */

  function ByAuthor(uid: string): Review -> bool
  {
    (r: Review) => r.userId == uid
  }

  /** `getAllReviews().filter(r => r.userId === user.id)` */
  function OwnReviews(all: seq<Review>, uid: string): (r: seq<Review>)
    ensures forall i :: 0 <= i < |r| ==> r[i].userId == uid
    ensures forall i :: 0 <= i < |all| && all[i].userId == uid ==> all[i] in r
    ensures multiset(r) <= multiset(all)
  {
    assert forall i :: 0 <= i < |all| && all[i].userId == uid ==> ByAuthor(uid)(all[i]);
    FilterKeeps(ByAuthor(uid), all);
    Filter(ByAuthor(uid), all)
  }

  function RatingMovie(r: Rating): int { r.movieId }
  function ReviewMovie(r: Review): int { r.movieId }

  /** The ids of rated movies, then reviewed movies, then the watchlist. */
  function TouchedIds(rt: seq<Rating>, rv: seq<Review>, wl: seq<int>): seq<int>
  {
    MapSeq(RatingMovie, rt) + MapSeq(ReviewMovie, rv) + wl
  }

  /** `Array.from(new Set([...rated, ...reviewed, ...watchlist]))` */
  function ProfileIds(rt: seq<Rating>, rv: seq<Review>, wl: seq<int>): (r: seq<int>)
    ensures NoDup(r)
    ensures forall x: int :: x in r <==> x in TouchedIds(rt, rv, wl)
  {
    var all := TouchedIds(rt, rv, wl);
    DedupElements(all);
    Dedup(all)
  }

  /** The union lists each id where it first occurs: rated ids first, then
      ids only reviewed, then ids only watchlisted. */
  lemma ProfileIdsOrder(rt: seq<Rating>, rv: seq<Review>, wl: seq<int>)
    ensures FirstOccurrencesOf(ProfileIds(rt, rv, wl), TouchedIds(rt, rv, wl), Identity)
  {
    DedupByFirstOccurrences(TouchedIds(rt, rv, wl), Identity);
  }

  /** The movies the page loads: with no id there is no request at all;
      otherwise `getManyMovies(ids)`, `fetch` standing for each request's
      outcome. */
  function ProfileMovies(ids: seq<int>, fetch: int -> Settled<Media>): (r: seq<Media>)
    ensures |ids| == 0 ==> r == []
    ensures |r| <= |ids|
    ensures forall i :: 0 <= i < |r| ==> exists j :: 0 <= j < |ids| && fetch(ids[j]) == Fulfilled(r[i])
  {
    if |ids| == 0 then []
    else
      var res := MapSeq(fetch, ids);
      var r := SettledValues(res);
      forall i | 0 <= i < |r| ensures exists j :: 0 <= j < |ids| && fetch(ids[j]) == Fulfilled(r[i]) {
        var j :| 0 <= j < |res| && res[j] == Settled.Fulfilled(r[i]);
      }
      r
  }

  /** The loaded movies are the fulfilled requests, every one of them, in
      the order of the ids. */
  lemma ProfileMoviesOrder(ids: seq<int>, fetch: int -> Settled<Media>) returns (idx: seq<int>)
    ensures FetchedInOrder(ids, fetch, ProfileMovies(ids, fetch), idx)
  {
    idx := FetchPositions(ids, fetch);
  }

  /** `movieById`: each fetched id to a movie carrying it. */
  function MovieById(movies: seq<Media>): (m: map<int, Media>)
    ensures m.Keys == KeySet(movies, MediaId)
    ensures forall k :: k in m ==> m[k] in movies && m[k].id == k
  {
    IndexBy(movies, MediaId)
  }

  /** When an id was fetched twice the later record wins. */
  lemma MovieByIdLastWins(movies: seq<Media>, i: int)
    requires 0 <= i < |movies|
    requires forall j :: i < j < |movies| ==> movies[j].id != movies[i].id
    ensures movies[i].id in MovieById(movies) && MovieById(movies)[movies[i].id] == movies[i]
  {
    IndexByLastWins(movies, MediaId, i);
  }

  /** `map.get(id)` */
  function Lookup(m: map<int, Media>, id: int): (r: Option<Media>)
    ensures r.Some? <==> id in m
    ensures r.Some? ==> r.value == m[id]
  {
    if id in m then Some(m[id]) else None
  }

  /* ---------- the display name ---------- */

  /** The name-like fields of the signed-in user record. */
  datatype NameFields = NameFields(name: Option<string>, username: Option<string>, email: Option<string>)

  /** `name ?? username ?? email ?? "usuario"`: the first field present,
      even when it is empty. */
  function RawName(u: NameFields): (r: string)
    ensures u.name.Some? ==> r == u.name.value
    ensures u.name.None? && u.username.Some? ==> r == u.username.value
    ensures u.name.None? && u.username.None? && u.email.Some? ==> r == u.email.value
    ensures u.name.None? && u.username.None? && u.email.None? ==> r == "usuario"
  {
    var opts := [u.name, u.username, u.email];
    assert opts[1] == u.username && opts[2] == u.email;
    FirstPresent(opts, "usuario")
  }

  /** `rawName.charAt(0).toUpperCase()` */
  function FirstLetter(raw: string): (r: string)
    ensures |r| <= 1
    ensures r == "" <==> raw == ""
    ensures |raw| > 0 && 'a' <= raw[0] <= 'z' ==> 'A' <= r[0] <= 'Z'
    ensures |raw| > 0 && !('a' <= raw[0] <= 'z') ==> r == raw[..1]
  {
    if |raw| == 0 then "" else [UpperAscii(raw[0])]
  }

  /* ---------- ratings ---------- */

  function Stars(r: Rating): real { r.stars }

  function SumStars(rs: seq<Rating>): real
  {
    if |rs| == 0 then 0.0 else SumStars(rs[..|rs| - 1]) + rs[|rs| - 1].stars
  }

  /** `avgRating`: `None` is the dash shown without ratings; otherwise
      the mean of the stars (before `toFixed(1)`). */
  function AvgRating(rs: seq<Rating>): (r: Option<real>)
    ensures r.None? <==> |rs| == 0
    ensures r.Some? ==> r.value * (|rs| as real) == SumStars(rs)
  {
    if |rs| == 0 then None else Some(SumStars(rs) / (|rs| as real))
  }

  lemma {:induction false} SumStarsBounds(rs: seq<Rating>, lo: real, hi: real)
    requires forall i :: 0 <= i < |rs| ==> lo <= rs[i].stars <= hi
    ensures lo * (|rs| as real) <= SumStars(rs) <= hi * (|rs| as real)
    decreases |rs|
  {
    if |rs| > 0 {
      SumStarsBounds(rs[..|rs| - 1], lo, hi);
    }
  }

  /** The mean lies between the lowest and the highest rating. */
  lemma AvgRatingBounds(rs: seq<Rating>, lo: real, hi: real)
    requires |rs| > 0
    requires forall i :: 0 <= i < |rs| ==> lo <= rs[i].stars <= hi
    ensures lo <= AvgRating(rs).value <= hi
  {
    SumStarsBounds(rs, lo, hi);
    var n := |rs| as real;
    var a := AvgRating(rs).value;
    assert a * n == SumStars(rs);
    assert lo * n <= a * n <= hi * n;
  }

  /** `topRated`: the seven best ratings, best first. */
  function TopRated(rs: seq<Rating>): (r: seq<Rating>)
    ensures |r| <= 7 && |r| <= |rs|
    ensures multiset(r) <= multiset(rs)
    ensures forall i, j :: 0 <= i < j < |r| ==> r[i].stars >= r[j].stars
  {
    TopOf(rs, Stars, 7);
    Take(SortDesc(rs, Stars), 7)
  }

  /** No rating left out of `topRated` beats one kept in it. */
  lemma TopRatedIsTop(rs: seq<Rating>, x: Rating)
    requires x in rs && x !in TopRated(rs)
    ensures |TopRated(rs)| == 7
    ensures forall i :: 0 <= i < |TopRated(rs)| ==> x.stars <= TopRated(rs)[i].stars
  {
    var sorted := SortDesc(rs, Stars);
    TopOf(rs, Stars, 7);
    assert x in multiset(sorted);
    var j :| 0 <= j < |sorted| && sorted[j] == x;
    assert TopRated(rs) == sorted[..|TopRated(rs)|];
  }

  /** `topRated` is the stable sort by stars cut at seven: among ratings
      with the same stars, the ones kept are the first in `rs`, in the
      order of `rs`. */
  lemma TopRatedOrder(rs: seq<Rating>, c: real)
    ensures TopRated(rs) == Take(SortDesc(rs, Stars), 7)
    ensures TieClass(SortDesc(rs, Stars), Stars, c) == TieClass(rs, Stars, c)
    ensures TieClass(TopRated(rs), Stars, c) <= TieClass(rs, Stars, c)
  {
    SortDescStable(rs, Stars, c);
    TakeSortedTies(rs, Stars, 7, c);
  }

  /** `recentReviews`: the five newest reviews, newest first. */
  function RecentReviews(rv: seq<Review>): (r: seq<Review>)
    ensures |r| <= 5 && |r| <= |rv|
    ensures multiset(r) <= multiset(rv)
    ensures forall i, j :: 0 <= i < j < |r| ==> r[i].createdAt >= r[j].createdAt
  {
    TopOf(rv, ReviewTime, 5);
    Take(SortDesc(rv, ReviewTime), 5)
  }

  /** Among reviews with the same `createdAt`, the ones kept are the first
      in `rv`, in the order of `rv`. */
  lemma RecentReviewsOrder(rv: seq<Review>, c: real)
    ensures RecentReviews(rv) == Take(SortDesc(rv, ReviewTime), 5)
    ensures TieClass(SortDesc(rv, ReviewTime), ReviewTime, c) == TieClass(rv, ReviewTime, c)
    ensures TieClass(RecentReviews(rv), ReviewTime, c) <= TieClass(rv, ReviewTime, c)
  {
    SortDescStable(rv, ReviewTime, c);
    TakeSortedTies(rv, ReviewTime, 5, c);
  }

  /** No review left out of `recentReviews` is newer than one kept. */
  lemma RecentReviewsAreNewest(rv: seq<Review>, x: Review)
    requires x in rv && x !in RecentReviews(rv)
    ensures |RecentReviews(rv)| == 5
    ensures forall i :: 0 <= i < |RecentReviews(rv)| ==> x.createdAt <= RecentReviews(rv)[i].createdAt
  {
    var sorted := SortDesc(rv, ReviewTime);
    TopOf(rv, ReviewTime, 5);
    assert x in multiset(sorted);
    var j :| 0 <= j < |sorted| && sorted[j] == x;
    assert RecentReviews(rv) == sorted[..|RecentReviews(rv)|];
  }

  /* ---------- genre statistics ---------- */

  function GenreName(g: Genre): string { g.name.GetOr("") }

  function Named(g: Genre): bool { Truthy(g.name) }

  /** The names a fetched movie contributes: each truthy `name` of its
      `genres`; nothing when the movie is missing or has no `genres`. */
  function GenreNamesOf(mv: Option<Media>): (r: seq<string>)
    ensures mv.None? || mv.value.genres.None? ==> r == []
    ensures forall i :: 0 <= i < |r| ==> r[i] != ""
  {
    match mv
    case None => []
    case Some(m) =>
      match m.genres
      case None => []
      case Some(gs) =>
        var named := Filter(Named, gs);
        MapSeq(GenreName, named)
  }

  function RatingGenres(byId: map<int, Media>): Rating -> seq<string>
  {
    (r: Rating) => GenreNamesOf(Lookup(byId, r.movieId))
  }

  /** Every genre name met while visiting the ratings in order. */
  function RatedGenreNames(rs: seq<Rating>, byId: map<int, Media>): seq<string>
  {
    Concat(MapSeq(RatingGenres(byId), rs))
  }

  /** One more rating adds exactly the names of its movie's genres; a
      rating whose movie was not fetched adds nothing. */
  lemma RatedGenreNamesSnoc(rs: seq<Rating>, r: Rating, byId: map<int, Media>)
    ensures RatedGenreNames(rs + [r], byId) == RatedGenreNames(rs, byId) + GenreNamesOf(Lookup(byId, r.movieId))
    ensures r.movieId !in byId ==> RatedGenreNames(rs + [r], byId) == RatedGenreNames(rs, byId)
  {
    var xss := MapSeq(RatingGenres(byId), rs + [r]);
    assert xss[..|xss| - 1] == MapSeq(RatingGenres(byId), rs);
  }

  /** `genreCount`: each name with the number of times it was met, in
      first-seen order. */
  function GenreCount(rs: seq<Rating>, byId: map<int, Media>): (r: seq<(string, nat)>)
    ensures UniqueKeys(r, EntryKey)
    ensures forall i :: 0 <= i < |r| ==> r[i].1 == CountOf(RatedGenreNames(rs, byId), r[i].0)
  {
    Tally(RatedGenreNames(rs, byId))
  }

  /** Each name is counted once per occurrence, and the counts add up to
      the number of names met. */
  lemma GenreCountTotal(rs: seq<Rating>, byId: map<int, Media>)
    ensures SumCounts(GenreCount(rs, byId)) == |RatedGenreNames(rs, byId)|
    ensures KeySet(GenreCount(rs, byId), EntryKey) == KeySet(RatedGenreNames(rs, byId), Identity)
  {
    TallySum(RatedGenreNames(rs, byId));
    TallyCounts(RatedGenreNames(rs, byId));
  }

  /** `topGenres`: the three most counted names, most counted first. */
  function TopGenres(rs: seq<Rating>, byId: map<int, Media>): (r: seq<(string, nat)>)
    ensures |r| <= 3
    ensures forall i, j :: 0 <= i < j < |r| ==> r[i].1 >= r[j].1
    ensures forall i :: 0 <= i < |r| ==> r[i].1 == CountOf(RatedGenreNames(rs, byId), r[i].0)
    ensures multiset(r) <= multiset(GenreCount(rs, byId))
  {
    var counts := GenreCount(rs, byId);
    var top := TopEntries(counts, 3);
    forall i | 0 <= i < |top| ensures top[i].1 == CountOf(RatedGenreNames(rs, byId), top[i].0) {
      assert top[i] in multiset(counts);
    }
    top
  }

  /** `topGenres` is the first three of the counts sorted by count, the
      sort keeps the tally's first-seen order among equal counts, and no
      name after the cut is counted more than one kept. */
  lemma TopGenresOrder(rs: seq<Rating>, byId: map<int, Media>, c: real)
    ensures var counts := GenreCount(rs, byId);
      var sorted := SortDesc(counts, EntryCount);
      && TopGenres(rs, byId) == Take(sorted, 3)
      && TieClass(sorted, EntryCount, c) == TieClass(counts, EntryCount, c)
      && (forall i, j :: 0 <= i < |TopGenres(rs, byId)| <= j < |sorted| ==> sorted[j].1 <= TopGenres(rs, byId)[i].1)
  {
    TopEntriesOrder(GenreCount(rs, byId), 3, c);
  }

  /** No counted name left out of `topGenres` was counted more often than
      one kept in it. */
  lemma TopGenresIsTop(rs: seq<Rating>, byId: map<int, Media>, x: (string, nat))
    requires x in GenreCount(rs, byId) && x !in TopGenres(rs, byId)
    ensures |TopGenres(rs, byId)| == 3
    ensures forall i :: 0 <= i < |TopGenres(rs, byId)| ==> x.1 <= TopGenres(rs, byId)[i].1
  {
    var counts := GenreCount(rs, byId);
    var sorted := SortDesc(counts, EntryCount);
    TopGenresOrder(rs, byId, 0.0);
    assert x in multiset(sorted);
    var j :| 0 <= j < |sorted| && sorted[j] == x;
  }
}

=== FILE: profile_reviews.dfy ===
/** The reviews tab of the profile: the user's written reviews, newest
    first, each with the movie or series it is about, its year and its
    title. */
module ProfileReviews {
  import opened Base
  import opened Sorting
  import opened Text
  import opened Catalog
  import opened ReviewDocs

  /** `r.body && r.body.trim() !== ""` */
  function HasText(r: Review): bool
  {
    r.body != "" && Trim(r.body) != ""
  }

  function ReviewTime(r: Review): real { r.createdAt as real }

  /** The listed reviews: those with some text, newest first. */
  function WrittenReviews(reviews: seq<Review>): (r: seq<Review>)
    ensures forall x :: multiset(r)[x] == if Blank(x.body) then 0 else multiset(reviews)[x]
    ensures forall i :: 0 <= i < |r| ==> !Blank(r[i].body)
    ensures forall i, j :: 0 <= i < j < |r| ==> r[i].createdAt >= r[j].createdAt
  {
    var f := Filter(HasText, reviews);
    var r := SortDesc(f, ReviewTime);
    SubMultisetAll(r, f, HasText);
    forall i | 0 <= i < |r| ensures !Blank(r[i].body) {
      TrimEmptyIffBlank(r[i].body);
    }
    forall x ensures multiset(r)[x] == if Blank(x.body) then 0 else multiset(reviews)[x] {
      FilterCount(HasText, reviews, x);
      TrimEmptyIffBlank(x.body);
    }
    assert forall i, j :: 0 <= i < j < |r| ==> ReviewTime(r[i]) >= ReviewTime(r[j]);
    r
  }

  /** Reviews written at the same time keep their order. */
  lemma WrittenReviewsStable(reviews: seq<Review>, t: nat)
    ensures TieClass(WrittenReviews(reviews), ReviewTime, t as real)
      == TieClass(Filter(HasText, reviews), ReviewTime, t as real)
  {
    SortDescStable(Filter(HasText, reviews), ReviewTime, t as real);
  }

  /** The catalogue entry of a review: looked up among the movies for a
      movie review and among the series otherwise. */
  function MediaFor(kind: Kind, refId: int, movieById: map<int, Media>, tvById: map<int, Media>): (m: Option<Media>)
    ensures kind == MovieKind ==> (m.Some? <==> refId in movieById) && (m.Some? ==> m.value == movieById[refId])
    ensures kind == TvKind ==> (m.Some? <==> refId in tvById) && (m.Some? ==> m.value == tvById[refId])
  {
    var byId := if kind == MovieKind then movieById else tvById;
    if refId in byId then Some(byId[refId]) else None
  }

  /** A movie review ignores the series table and a series review ignores
      the movie table. */
  lemma MediaForIgnoresOtherKind(kind: Kind, refId: int, movies: map<int, Media>, tv: map<int, Media>, other: map<int, Media>)
    ensures kind == MovieKind ==> MediaFor(kind, refId, movies, tv) == MediaFor(kind, refId, movies, other)
    ensures kind == TvKind ==> MediaFor(kind, refId, movies, tv) == MediaFor(kind, refId, other, tv)
  {
  }

  /** "Película" for a movie, "Serie" for a series. */
  function KindTitle(kind: Kind): (t: string)
    ensures t != ""
    ensures kind == MovieKind <==> t == "Película"
  {
    if kind == MovieKind then "Película" else "Serie"
  }

  /** `title || name || (kind === "movie" ? "Película" : "Serie")`: never
      empty. */
  function MediaTitle(m: Option<Media>, kind: Kind): (t: string)
    ensures t != ""
    ensures m.Some? && Truthy(m.value.title) ==> t == m.value.title.value
    ensures m.Some? && !Truthy(m.value.title) && Truthy(m.value.name) ==> t == m.value.name.value
    ensures m.None? || (!Truthy(m.value.title) && !Truthy(m.value.name)) ==> t == KindTitle(kind)
  {
    match m
    case None => KindTitle(kind)
    case Some(v) =>
      var opts := [v.title, v.name];
      assert opts[1] == v.name;
      FirstTruthy(opts, KindTitle(kind))
  }

  /** One row of the tab. */
  datatype ReviewRow = ReviewRow(review: Review, media: Option<Media>, year: string, title: string)

  /** The row of one review: its catalogue entry, year and title. */
  function RowOf(r: Review, movieById: map<int, Media>, tvById: map<int, Media>): (row: ReviewRow)
    ensures row.review == r
    ensures row.media == MediaFor(r.kind, r.refId, movieById, tvById)
    ensures row.title != "" && |row.year| <= 4
    ensures row.year == MediaYear(row.media) && row.title == MediaTitle(row.media, r.kind)
  {
    var m := MediaFor(r.kind, r.refId, movieById, tvById);
    ReviewRow(r, m, MediaYear(m), MediaTitle(m, r.kind))
  }

  function Row(movieById: map<int, Media>, tvById: map<int, Media>): Review -> ReviewRow
  {
    (r: Review) => RowOf(r, movieById, tvById)
  }

  /** The rows of the tab, one per written review, newest first. */
  function ReviewRows(reviews: seq<Review>, movieById: map<int, Media>, tvById: map<int, Media>): (rows: seq<ReviewRow>)
    ensures |rows| == |WrittenReviews(reviews)|
    ensures forall i :: 0 <= i < |rows| ==> rows[i] == RowOf(WrittenReviews(reviews)[i], movieById, tvById)
    ensures forall i :: 0 <= i < |rows| ==> !Blank(rows[i].review.body) && rows[i].title != ""
    ensures forall i, j :: 0 <= i < j < |rows| ==> rows[i].review.createdAt >= rows[j].review.createdAt
  {
    var w := WrittenReviews(reviews);
    var rows := MapSeq(Row(movieById, tvById), w);
    RowsFollowReviews(w, rows, movieById, tvById);
    rows
  }

  lemma RowsFollowReviews(w: seq<Review>, rows: seq<ReviewRow>, movieById: map<int, Media>, tvById: map<int, Media>)
    requires rows == MapSeq(Row(movieById, tvById), w)
    requires forall i :: 0 <= i < |w| ==> !Blank(w[i].body)
    requires forall i, j :: 0 <= i < j < |w| ==> w[i].createdAt >= w[j].createdAt
    ensures forall i :: 0 <= i < |rows| ==> rows[i] == RowOf(w[i], movieById, tvById)
    ensures forall i :: 0 <= i < |rows| ==> !Blank(rows[i].review.body) && rows[i].title != ""
    ensures forall i, j :: 0 <= i < j < |rows| ==> rows[i].review.createdAt >= rows[j].review.createdAt
  {
    assert forall i :: 0 <= i < |rows| ==> rows[i] == RowOf(w[i], movieById, tvById);
  }

  /** The tab shows its empty message exactly when no review has text. */
  lemma ReviewRowsEmpty(reviews: seq<Review>, movieById: map<int, Media>, tvById: map<int, Media>)
    ensures |ReviewRows(reviews, movieById, tvById)| == 0
      <==> forall i :: 0 <= i < |reviews| ==> Blank(reviews[i].body)
  {
    var w := WrittenReviews(reviews);
    if exists i :: 0 <= i < |reviews| && !Blank(reviews[i].body) {
      var i :| 0 <= i < |reviews| && !Blank(reviews[i].body);
      assert multiset(reviews)[reviews[i]] > 0;
      assert multiset(w)[reviews[i]] > 0;
    }
  }
}

=== FILE: profile_stats.dfy ===
/** The statistics tab of the profile: the star histogram and the number
    of ratings per calendar year. */
module ProfileStats {
  import opened Base
  import opened Sorting
  import opened Counting

  /** A rating as the tab receives it; `createdAt` is the rating time in
      milliseconds since the epoch. */
  datatype StatRating = StatRating(movieId: int, stars: real, createdAt: int)

  /** `ratings ?? []` */
  function SafeRatings(ratings: Option<seq<StatRating>>): (r: seq<StatRating>)
    ensures ratings.None? ==> r == []
    ensures ratings.Some? ==> r == ratings.value
  {
    ratings.GetOr([])
  }

  /** `Math.round(x)`: the nearest integer, halves rounded up. */
  function Round(x: real): (n: int)
    ensures n as real - 0.5 <= x < n as real + 0.5
  {
    (x + 0.5).Floor
  }

  function RoundedStars(r: StatRating): int { Round(r.stars) }

  function RoundsTo(star: int): StatRating -> bool
  {
    (r: StatRating) => RoundedStars(r) == star
  }

  /** One bar of the histogram. */
  datatype Bucket = Bucket(star: int, count: nat)

  /** The bar of one star value: the number of ratings rounding to it,
      which is its multiplicity among the rounded ratings. */
  function BucketFor(rs: seq<StatRating>, star: int): (b: Bucket)
    ensures b.star == star
    ensures b.count == CountOf(MapSeq(RoundedStars, rs), star)
  {
    CountWhereRounded(rs, star);
    Bucket(star, CountWhere(RoundsTo(star), rs))
  }

  /** The star values of the bars, top bar first. */
  const BarStars: seq<int> := [5, 4, 3, 2, 1]

  /** `[5, 4, 3, 2, 1].map(star => ({ star, count: … }))` */
  function Buckets(ratings: Option<seq<StatRating>>): (b: seq<Bucket>)
    ensures |b| == |BarStars|
    ensures forall i :: 0 <= i < |b| ==> b[i].star == BarStars[i]
    ensures forall i :: 0 <= i < |b| ==> b[i].count == CountOf(MapSeq(RoundedStars, SafeRatings(ratings)), b[i].star)
  {
    var rs := SafeRatings(ratings);
    MapSeq((star: int) => BucketFor(rs, star), BarStars)
  }

  /** The number of ratings that round to `star` is the multiplicity of
      `star` among the rounded ratings. */
  lemma {:induction false} CountWhereRounded(rs: seq<StatRating>, star: int)
    ensures CountWhere(RoundsTo(star), rs) == CountOf(MapSeq(RoundedStars, rs), star)
    decreases |rs|
  {
    if |rs| > 0 {
      var rs' := rs[..|rs| - 1];
      var x := rs[|rs| - 1];
      assert rs == rs' + [x];
      FilterSnoc(RoundsTo(star), rs', x);
      CountWhereRounded(rs', star);
      assert MapSeq(RoundedStars, rs) == MapSeq(RoundedStars, rs') + [RoundedStars(x)];
    }
  }

  function TotalCount(b: seq<Bucket>): nat
  {
    if |b| == 0 then 0 else b[0].count + TotalCount(b[1..])
  }

  function InRange(r: StatRating): bool { 1 <= RoundedStars(r) <= 5 }

  /** The five bars count each rating at most once, and every rating whose
      rounded value is between 1 and 5 exactly once. */
  lemma BucketsTotal(ratings: Option<seq<StatRating>>)
    ensures TotalCount(Buckets(ratings)) == CountWhere(InRange, SafeRatings(ratings))
    ensures TotalCount(Buckets(ratings)) <= |SafeRatings(ratings)|
    ensures (forall i :: 0 <= i < |SafeRatings(ratings)| ==> 1 <= Round(SafeRatings(ratings)[i].stars) <= 5)
      ==> TotalCount(Buckets(ratings)) == |SafeRatings(ratings)|
  {
    var rs := SafeRatings(ratings);
    var b := Buckets(ratings);
    assert b[0].count == CountWhere(RoundsTo(5), rs) && b[1].count == CountWhere(RoundsTo(4), rs)
      && b[2].count == CountWhere(RoundsTo(3), rs) && b[3].count == CountWhere(RoundsTo(2), rs)
      && b[4].count == CountWhere(RoundsTo(1), rs) by {
      CountWhereRounded(rs, 5);
      CountWhereRounded(rs, 4);
      CountWhereRounded(rs, 3);
      CountWhereRounded(rs, 2);
      CountWhereRounded(rs, 1);
    }
    TotalOfFive(b);
    FiveWay(rs);
    if forall i :: 0 <= i < |rs| ==> 1 <= Round(rs[i].stars) <= 5 {
      assert forall i :: 0 <= i < |rs| ==> InRange(rs[i]);
      FilterKeepsAll(InRange, rs);
    }
  }

  lemma TotalOfFive(b: seq<Bucket>)
    requires |b| == 5
    ensures TotalCount(b) == b[0].count + b[1].count + b[2].count + b[3].count + b[4].count
  {
    assert TotalCount(b[4..]) == b[4].count by { assert b[4..][1..] == []; }
    assert TotalCount(b[3..]) == b[3].count + TotalCount(b[4..]) by { assert b[3..][1..] == b[4..]; }
    assert TotalCount(b[2..]) == b[2].count + TotalCount(b[3..]) by { assert b[2..][1..] == b[3..]; }
    assert TotalCount(b[1..]) == b[1].count + TotalCount(b[2..]) by { assert b[1..][1..] == b[2..]; }
  }

  /** The in-range ratings split by their rounded value. */
  lemma {:induction false} FiveWay(rs: seq<StatRating>)
    ensures CountWhere(InRange, rs) == CountWhere(RoundsTo(5), rs) + CountWhere(RoundsTo(4), rs)
      + CountWhere(RoundsTo(3), rs) + CountWhere(RoundsTo(2), rs) + CountWhere(RoundsTo(1), rs)
    decreases |rs|
  {
    if |rs| > 0 {
      var rs' := rs[..|rs| - 1];
      var x := rs[|rs| - 1];
      assert rs == rs' + [x];
      FiveWay(rs');
      CountWhereSnoc(InRange, rs', x);
      CountWhereSnoc(RoundsTo(5), rs', x);
      CountWhereSnoc(RoundsTo(4), rs', x);
      CountWhereSnoc(RoundsTo(3), rs', x);
      CountWhereSnoc(RoundsTo(2), rs', x);
      CountWhereSnoc(RoundsTo(1), rs', x);
      FiveWayStep(x,
        CountWhere(InRange, rs'), CountWhere(RoundsTo(5), rs'), CountWhere(RoundsTo(4), rs'),
        CountWhere(RoundsTo(3), rs'), CountWhere(RoundsTo(2), rs'), CountWhere(RoundsTo(1), rs'),
        CountWhere(InRange, rs), CountWhere(RoundsTo(5), rs), CountWhere(RoundsTo(4), rs),
        CountWhere(RoundsTo(3), rs), CountWhere(RoundsTo(2), rs), CountWhere(RoundsTo(1), rs));
    }
  }

  /** One more rating keeps the split: it is in range exactly when it
      rounds to one of the five stars, and then to only one. */
  lemma FiveWayStep(x: StatRating, a: int, a5: int, a4: int, a3: int, a2: int, a1: int,
                    b: int, b5: int, b4: int, b3: int, b2: int, b1: int)
    requires a == a5 + a4 + a3 + a2 + a1
    requires b == a + (if InRange(x) then 1 else 0)
    requires b5 == a5 + (if RoundsTo(5)(x) then 1 else 0)
    requires b4 == a4 + (if RoundsTo(4)(x) then 1 else 0)
    requires b3 == a3 + (if RoundsTo(3)(x) then 1 else 0)
    requires b2 == a2 + (if RoundsTo(2)(x) then 1 else 0)
    requires b1 == a1 + (if RoundsTo(1)(x) then 1 else 0)
    ensures b == b5 + b4 + b3 + b2 + b1
  {
  }

  /** `buckets.reduce((m, b) => Math.max(m, b.count), 0)` */
  function MaxOf(b: seq<Bucket>): (m: nat)
    ensures forall i :: 0 <= i < |b| ==> b[i].count <= m
    ensures m == 0 || exists i :: 0 <= i < |b| && b[i].count == m
  {
    if |b| == 0 then 0
    else
      var m' := MaxOf(b[..|b| - 1]);
      var c := b[|b| - 1].count;
      assert forall i :: 0 <= i < |b| - 1 ==> b[..|b| - 1][i] == b[i];
      if c > m' then c else m'
  }

  /** `… || 1`: the longest bar, at least 1 so that the widths never divide
      by zero. */
  function MaxCount(b: seq<Bucket>): (m: nat)
    ensures m >= 1
    ensures forall i :: 0 <= i < |b| ==> b[i].count <= m
    ensures m == 1 || exists i :: 0 <= i < |b| && b[i].count == m
    ensures (forall i :: 0 <= i < |b| ==> b[i].count == 0) ==> m == 1
  {
    var m := MaxOf(b);
    if m == 0 then 1 else m
  }

  /* ---------- ratings per year ---------- */

  function YearsOf(rs: seq<StatRating>, yearOf: StatRating -> int): seq<int>
  {
    MapSeq(yearOf, rs)
  }

  /** `Number(entry[0])` as a descending key: the years ascend. */
  function NegYear(e: (int, nat)): real { -(e.0 as real) }

  /** `Object.entries(yearCount).sort((a, b) => Number(a[0]) - Number(b[0]))`,
      where `yearCount` counts the ratings per `createdAt.getFullYear()`,
      `yearOf` standing for that calendar computation. */
  function YearEntries(ratings: Option<seq<StatRating>>, yearOf: StatRating -> int): (r: seq<(int, nat)>)
    ensures forall i, j :: 0 <= i < j < |r| ==> r[i].0 < r[j].0
    ensures forall i :: 0 <= i < |r| ==> r[i].1 == CountOf(YearsOf(SafeRatings(ratings), yearOf), r[i].0) && r[i].1 >= 1
    ensures KeySet(r, EntryKey) == KeySet(YearsOf(SafeRatings(ratings), yearOf), Identity)
  {
    var ys := YearsOf(SafeRatings(ratings), yearOf);
    SortedTallyStrict(ys);
    SortedTallyCounts(ys);
    SortedTallyKeys(ys);
    SortDesc(Tally(ys), NegYear)
  }

  /** The counting entries sorted by ascending year: strictly ascending,
      since no year is counted twice. */
  lemma SortedTallyStrict(ys: seq<int>)
    ensures var r := SortDesc(Tally(ys), NegYear);
      forall i, j :: 0 <= i < j < |r| ==> r[i].0 < r[j].0
  {
    SortedTallyAscending(Tally(ys), SortDesc(Tally(ys), NegYear));
  }

  /** Sorting keeps each year's count, and each listed year was seen. */
  lemma SortedTallyCounts(ys: seq<int>)
    ensures var r := SortDesc(Tally(ys), NegYear);
      forall i :: 0 <= i < |r| ==> r[i].1 == CountOf(ys, r[i].0) && r[i].1 >= 1
  {
    var t := Tally(ys);
    var r := SortDesc(t, NegYear);
    TallyPositive(ys);
    CountsWithin(r, t, ys);
  }

  lemma CountsWithin(a: seq<(int, nat)>, b: seq<(int, nat)>, ys: seq<int>)
    requires multiset(a) <= multiset(b)
    requires forall i :: 0 <= i < |b| ==> b[i].1 == CountOf(ys, b[i].0) && b[i].1 >= 1
    ensures forall i :: 0 <= i < |a| ==> a[i].1 == CountOf(ys, a[i].0) && a[i].1 >= 1
  {
    forall i | 0 <= i < |a| ensures a[i].1 == CountOf(ys, a[i].0) && a[i].1 >= 1 {
      assert a[i] in multiset(b);
      var j :| 0 <= j < |b| && b[j] == a[i];
    }
  }

  /** Sorting keeps the set of years. */
  lemma SortedTallyKeys(ys: seq<int>)
    ensures KeySet(SortDesc(Tally(ys), NegYear), EntryKey) == KeySet(ys, Identity)
  {
    TallyCounts(ys);
    KeySetPermutation(SortDesc(Tally(ys), NegYear), Tally(ys), EntryKey);
  }

  lemma TallyPositive(ys: seq<int>)
    ensures forall i :: 0 <= i < |Tally(ys)| ==> Tally(ys)[i].1 == CountOf(ys, Tally(ys)[i].0) && Tally(ys)[i].1 >= 1
  {
    TallyCounts(ys);
  }

  lemma SortedTallyAscending(t: seq<(int, nat)>, r: seq<(int, nat)>)
    requires multiset(r) == multiset(t) && UniqueKeys(t, EntryKey)
    requires SortedDesc(r, NegYear)
    ensures forall i, j :: 0 <= i < j < |r| ==> r[i].0 < r[j].0
  {
    UniqueKeysPermutation(r, t, EntryKey);
    forall i, j | 0 <= i < j < |r| ensures r[i].0 < r[j].0 {
      assert NegYear(r[i]) >= NegYear(r[j]);
      assert EntryKey(r[i]) != EntryKey(r[j]);
    }
  }

  /** Rearranging a sequence keeps its key set. */
  lemma KeySetPermutation<T, K>(a: seq<T>, b: seq<T>, key: T -> K)
    requires multiset(a) == multiset(b)
    ensures KeySet(a, key) == KeySet(b, key)
  {
    forall k | k in KeySet(a, key) ensures k in KeySet(b, key) {
      var i :| 0 <= i < |a| && key(a[i]) == k;
      assert a[i] in multiset(b);
      var j :| 0 <= j < |b| && b[j] == a[i];
      KeySetMember(b, key, j);
    }
    forall k | k in KeySet(b, key) ensures k in KeySet(a, key) {
      var j :| 0 <= j < |b| && key(b[j]) == k;
      assert b[j] in multiset(a);
      var i :| 0 <= i < |a| && a[i] == b[j];
      KeySetMember(a, key, i);
    }
  }

  /** The year counts add up to the number of ratings, and a year is listed
      exactly when some rating was made in it. */
  lemma YearEntriesTotal(ratings: Option<seq<StatRating>>, yearOf: StatRating -> int, y: int)
    ensures SumCounts(YearEntries(ratings, yearOf)) == |SafeRatings(ratings)|
    ensures y in KeySet(YearEntries(ratings, yearOf), EntryKey)
      <==> exists i :: 0 <= i < |SafeRatings(ratings)| && yearOf(SafeRatings(ratings)[i]) == y
  {
    var rs := SafeRatings(ratings);
    var ys := YearsOf(rs, yearOf);
    SumCountsSort(Tally(ys), NegYear);
    TallySum(ys);
    if y in KeySet(ys, Identity) {
      var i :| 0 <= i < |ys| && Identity(ys[i]) == y;
      assert yearOf(rs[i]) == y;
    }
    if exists i :: 0 <= i < |rs| && yearOf(rs[i]) == y {
      var i :| 0 <= i < |rs| && yearOf(rs[i]) == y;
      KeySetMember(ys, Identity, i);
    }
  }
}

=== FILE: profile_summary.dfy ===
/** The summary tab of the profile: the last review with its title, year
    and text, and the last movie added to the watchlist. */
module ProfileSummary {
  import opened Base
  import opened Text
  import opened Catalog
  import opened ReviewDocs
  import opened ProfileReviews

  /** `recentReviews.length > 0 ? recentReviews[0] : null` */
  function LastReview(recent: seq<Review>): (r: Option<Review>)
    ensures r.None? <==> |recent| == 0
    ensures r.Some? ==> r.value == recent[0]
  {
    if |recent| > 0 then Some(recent[0]) else None
  }

  /** `lastReviewMedia`: the catalogue entry of the last review, by its kind. */
  function LastReviewMedia(recent: seq<Review>, movieById: map<int, Media>, tvById: map<int, Media>): (m: Option<Media>)
    ensures |recent| == 0 ==> m.None?
    ensures |recent| > 0 ==> m == MediaFor(recent[0].kind, recent[0].refId, movieById, tvById)
  {
    match LastReview(recent)
    case None => None
    case Some(r) => MediaFor(r.kind, r.refId, movieById, tvById)
  }

  /** `lastReviewTitle`: "" without a review; otherwise the entry's title
      or name, or "Película"/"Serie" by kind when the entry is missing or
      has neither. */
  function LastReviewTitle(recent: seq<Review>, movieById: map<int, Media>, tvById: map<int, Media>): (t: string)
    ensures t == "" <==> |recent| == 0
    ensures |recent| > 0 && LastReviewMedia(recent, movieById, tvById).None? ==> t == KindTitle(recent[0].kind)
  {
    match LastReview(recent)
    case None => ""
    case Some(r) =>
      var m := LastReviewMedia(recent, movieById, tvById);
      if m.Some? then MediaTitle(m, r.kind) else KindTitle(r.kind)
  }

  /** The title of the last review is the title the reviews tab shows for
      the same review. */
  lemma LastReviewTitleAgrees(recent: seq<Review>, movieById: map<int, Media>, tvById: map<int, Media>)
    requires |recent| > 0
    ensures LastReviewTitle(recent, movieById, tvById) == RowOf(recent[0], movieById, tvById).title
  {
  }

  /** The year next to the last review: the first four characters of the
      entry's `release_date`, shown only when that date is present and
      non-empty; then it is the year the reviews tab shows. */
  function LastReviewYear(recent: seq<Review>, movieById: map<int, Media>, tvById: map<int, Media>): (y: Option<string>)
    ensures y.Some? <==> |recent| > 0 && var m := LastReviewMedia(recent, movieById, tvById);
      m.Some? && Truthy(m.value.releaseDate)
    ensures y.Some? ==> y.value == MediaYear(LastReviewMedia(recent, movieById, tvById))
  {
    var m := LastReviewMedia(recent, movieById, tvById);
    if m.Some? && Truthy(m.value.releaseDate) then Some(Take(m.value.releaseDate.value, 4)) else None
  }

  const NoText: string := "Sin texto en la reseña."

  /** `body || "Sin texto en la reseña."`: never empty. */
  function BodyText(body: string): (t: string)
    ensures t != ""
    ensures body != "" ==> t == body
    ensures body == "" ==> t == NoText
  {
    if body != "" then body else NoText
  }

  /** The last movie put on the watchlist and when. */
  datatype LastWatch = LastWatch(movie: Media, addedAt: int)

  /** `movie.title ?? movie.name`: possibly nothing at all. */
  function LastAddedTitle(w: LastWatch): (t: Option<string>)
    ensures w.movie.title.Some? ==> t == w.movie.title
    ensures w.movie.title.None? ==> t == w.movie.name
  {
    if w.movie.title.Some? then w.movie.title else w.movie.name
  }

  /** The year of the last added movie: the first four characters of its
      `release_date`, shown only when that date is present and non-empty. */
  function LastAddedYear(w: LastWatch): (y: Option<string>)
    ensures y.Some? <==> Truthy(w.movie.releaseDate)
    ensures y.Some? ==> w.movie.releaseDate.Some? && y.value == Take(w.movie.releaseDate.value, 4)
  {
    if Truthy(w.movie.releaseDate) then Some(Take(w.movie.releaseDate.value, 4)) else None
  }
}

=== FILE: review_docs.dfy ===
/** The shared `reviews` collection: at most one review per (kind, title,
    user), stored under a document id built from that triple, so that a
    user's second review of a title overwrites the first. */
module ReviewDocs {
  import opened Base
  import opened Sorting
  import opened Text
  import opened Catalog

  /** A stored review document. The optional fields other than `createdAt`
      may be missing or null in documents written by other clients.
      `createdAt` is in milliseconds since the epoch, and `None` there
      stands for an explicit null: a document without the field at all is
      never returned by an `orderBy("createdAt")` query. */
  datatype ReviewDoc = ReviewDoc(
    docId: string, kind: Kind, refId: int, userId: string,
    userName: Option<string>, userPhotoUrl: Option<string>, rating: real,
    body: Option<string>, createdAt: Option<nat>)

  /** A review as the listeners hand it to the pages. */
  datatype Review = Review(
    id: string, kind: Kind, refId: int, userId: string, userName: string,
    userPhotoUrl: Option<string>, rating: real, body: string, createdAt: nat)

  /** The arguments of `setUserReview`; `userPhotoUrl` may be omitted. */
  datatype ReviewParams = ReviewParams(
    userId: string, userName: string, userPhotoUrl: Option<string>, rating: real, body: string)

  function DocId(d: ReviewDoc): string { d.docId }

  /** `buildReviewId(kind, refId, userId)`: `${kind}_${refId}_${userId}`. */
  function BuildReviewId(kind: Kind, refId: int, userId: string): (id: string)
    ensures |id| > |KindName(kind)| && id[..|KindName(kind)|] == KindName(kind) && id[|KindName(kind)|] == '_'
  {
    KindName(kind) + "_" + IntToString(refId) + "_" + userId
  }

  lemma {:induction false} BeforeFirstPrefix(a: string, b: string, sep: char)
    requires sep !in a
    ensures BeforeFirst(a + [sep] + b, sep) == a
    decreases |a|
  {
    if |a| > 0 {
      assert (a + [sep] + b)[1..] == a[1..] + [sep] + b;
      BeforeFirstPrefix(a[1..], b, sep);
    }
  }

  lemma IntToStringNoUnderscore(n: int)
    ensures '_' !in IntToString(n)
  {
    var s := IntToString(n);
    var m: nat := if n < 0 then -n else n;
    assert forall i :: 0 <= i < |NatToString(m)| ==> NatToString(m)[i] != '_';
    if n < 0 {
      assert forall i :: 1 <= i < |s| ==> s[i] == NatToString(m)[i - 1];
    }
  }

  /** Different triples never share a document id: neither the kind name
      nor the decimal id contains "_", so the first two separators split the
      id back into its parts even when the user id contains "_". */
  lemma BuildReviewIdInjective(k1: Kind, r1: int, u1: string, k2: Kind, r2: int, u2: string)
    requires BuildReviewId(k1, r1, u1) == BuildReviewId(k2, r2, u2)
    ensures k1 == k2 && r1 == r2 && u1 == u2
  {
    var s := BuildReviewId(k1, r1, u1);
    var n1, n2 := KindName(k1), KindName(k2);
    var d1, d2 := IntToString(r1), IntToString(r2);
    IntToStringNoUnderscore(r1);
    IntToStringNoUnderscore(r2);
    assert s == n1 + ['_'] + (d1 + "_" + u1);
    assert s == n2 + ['_'] + (d2 + "_" + u2);
    BeforeFirstPrefix(n1, d1 + "_" + u1, '_');
    BeforeFirstPrefix(n2, d2 + "_" + u2, '_');
    assert n1 == n2;
    assert k1 == k2;
    var t := s[|n1| + 1..];
    assert t == d1 + ['_'] + u1;
    assert t == d2 + ['_'] + u2;
    BeforeFirstPrefix(d1, u1, '_');
    BeforeFirstPrefix(d2, u2, '_');
    assert d1 == d2;
    IntToStringInjective(r1, r2);
    assert u1 == t[|d1| + 1..] == u2;
  }

  /** `setDoc(doc(id), fields, { merge: true })` with every field given:
      the document with that id is replaced in place, or added at the end
      when there is none. */
  function Upsert(docs: seq<ReviewDoc>, d: ReviewDoc): (r: seq<ReviewDoc>)
    requires UniqueKeys(docs, DocId)
    ensures UniqueKeys(r, DocId)
    ensures d in r
    ensures |r| == |docs| + (if d.docId in KeySet(docs, DocId) then 0 else 1)
    ensures forall i :: 0 <= i < |docs| ==> r[i] == if docs[i].docId == d.docId then d else docs[i]
  {
    if d.docId in KeySet(docs, DocId) then
      var i := FirstIndex(docs, DocId, d.docId);
      assert docs[i := d][i] == d;
      docs[i := d]
    else
      assert forall i :: 0 <= i < |docs| ==> DocId(docs[i]) in KeySet(docs, DocId);
      docs + [d]
  }

  /** Writing a document twice leaves only the second write. */
  lemma UpsertTwice(docs: seq<ReviewDoc>, a: ReviewDoc, b: ReviewDoc)
    requires UniqueKeys(docs, DocId)
    requires a.docId == b.docId
    ensures Upsert(Upsert(docs, a), b) == Upsert(docs, b)
  {
    var r1 := Upsert(docs, a);
    if a.docId !in KeySet(docs, DocId) {
      KeySetMember(r1, DocId, |docs|);
    }
  }

  /** The document `setUserReview` writes: the review fields, an omitted
      photo stored as null, and the client's current time `now`. */
  function NewReviewDoc(kind: Kind, refId: int, p: ReviewParams, now: nat): (d: ReviewDoc)
    ensures d.docId == BuildReviewId(kind, refId, p.userId)
    ensures d.createdAt == Some(now)
    ensures p.userPhotoUrl.None? ==> d.userPhotoUrl.None?
  {
    ReviewDoc(BuildReviewId(kind, refId, p.userId), kind, refId, p.userId,
      Some(p.userName), p.userPhotoUrl, p.rating, Some(p.body), Some(now))
  }

  /** `setUserReview(kind, refId, params)` at time `now`. */
  function SetUserReview(docs: seq<ReviewDoc>, kind: Kind, refId: int, p: ReviewParams, now: nat): (r: seq<ReviewDoc>)
    requires UniqueKeys(docs, DocId)
    ensures UniqueKeys(r, DocId)
    ensures NewReviewDoc(kind, refId, p, now) in r
    ensures |r| >= |docs|
    ensures forall i :: 0 <= i < |docs| && docs[i].docId != BuildReviewId(kind, refId, p.userId) ==> r[i] == docs[i]
    ensures forall i :: |docs| <= i < |r| ==> r[i] == NewReviewDoc(kind, refId, p, now)
  {
    Upsert(docs, NewReviewDoc(kind, refId, p, now))
  }

  /** A user reviewing the same title twice leaves one document, holding the
      later rating, body and time. */
  lemma SetUserReviewTwice(docs: seq<ReviewDoc>, kind: Kind, refId: int, p1: ReviewParams, t1: nat, p2: ReviewParams, t2: nat)
    requires UniqueKeys(docs, DocId)
    requires p1.userId == p2.userId
    ensures SetUserReview(SetUserReview(docs, kind, refId, p1, t1), kind, refId, p2, t2)
         == SetUserReview(docs, kind, refId, p2, t2)
  {
    UpsertTwice(docs, NewReviewDoc(kind, refId, p1, t1), NewReviewDoc(kind, refId, p2, t2));
  }

  /** Exactly one document carries the id of the triple after a write. */
  lemma SetUserReviewSingle(docs: seq<ReviewDoc>, kind: Kind, refId: int, p: ReviewParams, now: nat)
    requires UniqueKeys(docs, DocId)
    ensures var r := SetUserReview(docs, kind, refId, p, now);
      CountWhere(HasId(BuildReviewId(kind, refId, p.userId)), r) == 1
  {
    var r := SetUserReview(docs, kind, refId, p, now);
    var i :| 0 <= i < |r| && r[i] == NewReviewDoc(kind, refId, p, now);
    FilterUniqueId(r, BuildReviewId(kind, refId, p.userId), i);
  }

  /** In a collection with distinct ids, the query for one present id
      finds exactly that document. */
  lemma {:induction false} FilterUniqueId(r: seq<ReviewDoc>, id: string, i: int)
    requires UniqueKeys(r, DocId)
    requires 0 <= i < |r| && r[i].docId == id
    ensures Filter(HasId(id), r) == [r[i]]
    decreases |r|
  {
    var r' := r[..|r| - 1];
    assert UniqueKeys(r', DocId);
    if i == |r| - 1 {
      assert forall j :: 0 <= j < |r'| ==> !HasId(id)(r'[j]) by {
        forall j | 0 <= j < |r'| ensures !HasId(id)(r'[j]) {
          assert DocId(r[j]) != DocId(r[i]);
        }
      }
      FilterNone(HasId(id), r');
    } else {
      FilterUniqueId(r', id, i);
      assert DocId(r[i]) != DocId(r[|r| - 1]);
    }
  }

  function HasId(id: string): ReviewDoc -> bool
  {
    (d: ReviewDoc) => d.docId == id
  }

  /** A document as delivered to the page, with the field defaults of the
      listeners: "Usuario anónimo", a null photo, an empty body, and the
      reading time `now` for a missing timestamp. */
  function ToReview(d: ReviewDoc, now: nat): (r: Review)
    ensures r.id == d.docId && r.kind == d.kind && r.refId == d.refId && r.userId == d.userId && r.rating == d.rating
    ensures r.userName == if d.userName.Some? then d.userName.value else "Usuario anónimo"
    ensures r.userPhotoUrl == d.userPhotoUrl
    ensures r.body == if d.body.Some? then d.body.value else ""
    ensures r.createdAt == if d.createdAt.Some? then d.createdAt.value else now
  {
    Review(d.docId, d.kind, d.refId, d.userId, d.userName.GetOr("Usuario anónimo"),
      d.userPhotoUrl, d.rating, d.body.GetOr(""), d.createdAt.GetOr(now))
  }

  /** A review written by `setUserReview` reads back with the values it was
      given. */
  lemma ReadBack(kind: Kind, refId: int, p: ReviewParams, t: nat, now: nat)
    ensures ToReview(NewReviewDoc(kind, refId, p, t), now)
         == Review(BuildReviewId(kind, refId, p.userId), kind, refId, p.userId, p.userName, p.userPhotoUrl, p.rating, p.body, t)
  {
  }

  /** Position in `orderBy("createdAt", "desc")`: null is the lowest value
      in Firestore's ordering, so an explicit null sorts after every
      timestamp. */
  function DocOrder(d: ReviewDoc): real
  {
    match d.createdAt
    case Some(t) => t as real
    case None => -1.0
  }

  /** Newest first, null timestamps last. */
  ghost predicate NewestFirst(q: seq<ReviewDoc>)
  {
    forall i, j :: 0 <= i < j < |q| && q[j].createdAt.Some? ==>
      q[i].createdAt.Some? && q[i].createdAt.value >= q[j].createdAt.value
  }

  /** The documents satisfying `keep`, newest first. */
  function Query(docs: seq<ReviewDoc>, keep: ReviewDoc -> bool): (q: seq<ReviewDoc>)
    ensures multiset(q) == multiset(Filter(keep, docs))
    ensures forall i :: 0 <= i < |q| ==> keep(q[i])
    ensures NewestFirst(q)
  {
    var f := Filter(keep, docs);
    var q := SortDesc(f, DocOrder);
    SubMultisetAll(q, f, keep);
    assert forall i, j :: 0 <= i < j < |q| ==> DocOrder(q[i]) >= DocOrder(q[j]);
    q
  }

  function AboutTitle(kind: Kind, refId: int): ReviewDoc -> bool
  {
    (d: ReviewDoc) => d.kind == kind && d.refId == refId
  }

  function ByUser(userId: string): ReviewDoc -> bool
  {
    (d: ReviewDoc) => d.userId == userId
  }

  /** `listenReviews(kind, refId)`: the title's reviews, newest first. */
  function ListenReviews(docs: seq<ReviewDoc>, kind: Kind, refId: int, now: nat): (r: seq<Review>)
    ensures |r| == CountWhere(AboutTitle(kind, refId), docs)
    ensures forall i :: 0 <= i < |r| ==> r[i].kind == kind && r[i].refId == refId
    ensures var q := Query(docs, AboutTitle(kind, refId));
      |r| == |q| && forall i :: 0 <= i < |r| ==> r[i] == ToReview(q[i], now)
  {
    var q := Query(docs, AboutTitle(kind, refId));
    MapSeq((d: ReviewDoc) => ToReview(d, now), q)
  }

  /** `listenUserReviews(userId)`: the user's reviews, newest first. */
  function ListenUserReviews(docs: seq<ReviewDoc>, userId: string, now: nat): (r: seq<Review>)
    ensures |r| == CountWhere(ByUser(userId), docs)
    ensures forall i :: 0 <= i < |r| ==> r[i].userId == userId
    ensures var q := Query(docs, ByUser(userId));
      |r| == |q| && forall i :: 0 <= i < |r| ==> r[i] == ToReview(q[i], now)
  {
    var q := Query(docs, ByUser(userId));
    MapSeq((d: ReviewDoc) => ToReview(d, now), q)
  }
}

=== FILE: series_page.dfy ===
/** The series page: three shelves of series under four chips, a hero,
    and the series watchlist the shelves' buttons toggle. */
module SeriesPage {
  import opened Base
  import opened Catalog
  import opened Storage
  import Home

  /** The ids the shelves mark: the user's series list, or none. */
  function SeriesIds(st: Store, user: Option<string>): (ids: seq<int>)
    ensures user.None? ==> ids == []
    ensures user.Some? ==> ids == GetWatchlistSeries(st, user.value)
  {
    match user
    case None => []
    case Some(uid) => GetWatchlistSeries(st, uid)
  }

  /** `handleToggleWatchlist(showId)`: nothing without a user; otherwise
      the stored series list is toggled and the page's copy updated. */
  function SeriesToggle(st: Store, ids: seq<int>, user: Option<string>, id: int): (r: (Store, seq<int>))
    ensures user.None? ==> r == (st, ids)
    ensures user.Some? ==> GetWatchlistSeries(r.0, user.value) == SetToggle(GetWatchlistSeries(st, user.value), id)
    ensures id in r.1 <==> (user.Some? <==> id !in ids)
    ensures user.Some? && id !in ids ==> r.1 == ids + [id]
    ensures forall x :: x != id ==> (x in r.1 <==> x in ids)
  {
    match user
    case None => (st, ids)
    case Some(uid) => (ToggleWatchSeries(st, uid, id), Home.ListToggle(ids, id))
  }

  /** Starting from the stored list, the page's copy stays equal to it,
      and no movie list changes. */
  lemma SeriesToggleInSync(st: Store, uid: string, id: int, v: string)
    requires NoDup(GetWatchlistSeries(st, uid))
    ensures var r := SeriesToggle(st, SeriesIds(st, Some(uid)), Some(uid), id);
      r.1 == GetWatchlistSeries(r.0, uid) && NoDup(r.1)
      && GetWatchlist(r.0, v) == GetWatchlist(st, v)
  {
    SetToggleOnNoDup(GetWatchlistSeries(st, uid), id);
    WatchlistsIndependent(st, uid, id, v);
  }

  /** `popular[0] || onAir[0]` */
  function Hero(popular: seq<Media>, onAir: seq<Media>): (h: Option<Media>)
    ensures |popular| > 0 ==> h == Some(popular[0])
    ensures |popular| == 0 && |onAir| > 0 ==> h == Some(onAir[0])
    ensures h.None? <==> |popular| == 0 && |onAir| == 0
  {
    if |popular| > 0 then Some(popular[0])
    else if |onAir| > 0 then Some(onAir[0])
    else None
  }

  datatype SeriesChip = AllSeries | OnAirChip | PopularChip | TopChip

  datatype SeriesShelf = OnAirShelf | PopularShelf | TopRatedShelf

  function ShelfChip(s: SeriesShelf): SeriesChip
  {
    match s
    case OnAirShelf => OnAirChip
    case PopularShelf => PopularChip
    case TopRatedShelf => TopChip
  }

  /** A shelf shows under "all" and under its own chip. */
  predicate ShelfVisible(active: SeriesChip, s: SeriesShelf)
  {
    active == AllSeries || active == ShelfChip(s)
  }

  /** "All" shows every shelf; any other chip shows exactly one. */
  lemma ShelvesByChip(active: SeriesChip, s: SeriesShelf, t: SeriesShelf)
    ensures active == AllSeries ==> ShelfVisible(active, s)
    ensures active != AllSeries && ShelfVisible(active, s) && ShelfVisible(active, t) ==> s == t
    ensures active != AllSeries ==> exists u :: ShelfVisible(active, u)
  {
    if active == OnAirChip { assert ShelfVisible(active, OnAirShelf); }
    if active == PopularChip { assert ShelfVisible(active, PopularShelf); }
    if active == TopChip { assert ShelfVisible(active, TopRatedShelf); }
  }
}

=== FILE: shelf.dfy ===
/** A shelf of cards and the card itself: the shelf shows at most twenty
    cards and marks the ones on the watchlist; a card shows a year, a genre
    label, a rating badge, a link and a watch button. */
module Shelf {
  import opened Base
  import opened Text
  import opened Catalog

  const ShelfCap: nat := 20

  /** What a shelf hands to each card: the record, whether it is on the
      watchlist, the id its button reports, and the card's settings. */
  datatype Card = Card(movie: Media, inWatchlist: bool, toggleId: int, userCanEdit: bool, kind: Kind, linkBase: Option<string>)

  function CardFor(watchlistIds: seq<int>, userCanEdit: bool, kind: Kind, linkBase: Option<string>): Media -> Card
  {
    (m: Media) => Card(m, m.id in watchlistIds, m.id, userCanEdit, kind, linkBase)
  }

  /** `Shelf`: nothing for absent or empty items; otherwise one card for
      each of the first twenty items, in order, marked when its id is on
      the watchlist, reporting its own id, and of kind "movie" unless told
      otherwise. */
  function ShelfCards(items: Option<seq<Media>>, watchlistIds: seq<int>, userCanEdit: bool, kind: Option<Kind>, linkBase: Option<string>): (r: Option<seq<Card>>)
    ensures r.None? <==> items.None? || |items.value| == 0
    ensures r.Some? ==> |r.value| == if |items.value| < ShelfCap then |items.value| else ShelfCap
    ensures r.Some? ==> forall i :: 0 <= i < |r.value| ==>
      r.value[i].movie == items.value[i]
      && (r.value[i].inWatchlist <==> items.value[i].id in watchlistIds)
      && r.value[i].toggleId == items.value[i].id
      && r.value[i].kind == kind.GetOr(MovieKind)
      && r.value[i].userCanEdit == userCanEdit
  {
    match items
    case None => None
    case Some(ms) =>
      if |ms| == 0 then None
      else
        var shown := Take(ms, ShelfCap);
        Some(MapSeq(CardFor(watchlistIds, userCanEdit, kind.GetOr(MovieKind), linkBase), shown))
  }

  /** A card's button reports the id of the record it shows, so the ids a
      shelf can report are exactly the ids of its first twenty items. */
  lemma ShelfReportsOwnIds(items: seq<Media>, watchlistIds: seq<int>, userCanEdit: bool, kind: Option<Kind>, id: int)
    requires |items| > 0
    ensures var cards := ShelfCards(Some(items), watchlistIds, userCanEdit, kind, None).value;
      (exists i :: 0 <= i < |cards| && cards[i].toggleId == id)
      <==> (exists i :: 0 <= i < |Take(items, ShelfCap)| && Take(items, ShelfCap)[i].id == id)
  {
    var cards := ShelfCards(Some(items), watchlistIds, userCanEdit, kind, None).value;
    var shown := Take(items, ShelfCap);
    assert |cards| == |shown|;
    assert forall i :: 0 <= i < |cards| ==> cards[i].toggleId == shown[i].id;
  }

  /* ---------- the card ---------- */

  /* The card's year is `MediaYear`, its poster `PosterUrl` at width 342. */

  /** `typeof genre_ids?.[0] === "number" ? GENRE_LABELS[id] ?? "" : ""` */
  function CardGenre(m: Media): (g: string)
    ensures (m.genreIds.None? || |m.genreIds.value| == 0) ==> g == ""
    ensures m.genreIds.Some? && |m.genreIds.value| > 0 ==>
      (g != "" <==> m.genreIds.value[0] in KnownGenreIds)
      && (g != "" ==> GenreLabel(m.genreIds.value[0]) == Some(g))
  {
    if m.genreIds.Some? && |m.genreIds.value| > 0 then GenreLabel(m.genreIds.value[0]).GetOr("")
    else ""
  }

  /** `linkBasePath ?? (kind === "tv" ? "/series" : "/movie")` */
  function LinkBase(kind: Kind, linkBase: Option<string>): string
  {
    match linkBase
    case Some(b) => b
    case None => if kind == TvKind then "/series" else "/movie"
  }

  /** `${base}/${movie.id}` */
  function CardHref(m: Media, kind: Kind, linkBase: Option<string>): (h: string)
    ensures |h| > |LinkBase(kind, linkBase)| + 1
    ensures h[..|LinkBase(kind, linkBase)|] == LinkBase(kind, linkBase)
    ensures h[|LinkBase(kind, linkBase)|] == '/'
  {
    LinkBase(kind, linkBase) + "/" + IntToString(m.id)
  }

  /** The id can be read back from the link: what follows the base and the
      slash parses to the record's id, so two records with different ids
      never share a link. */
  lemma CardHrefId(m: Media, kind: Kind, linkBase: Option<string>)
    ensures var b := LinkBase(kind, linkBase); var h := CardHref(m, kind, linkBase);
      ParseInt(h[|b| + 1..]) == Some(m.id)
  {
    var b := LinkBase(kind, linkBase);
    var h := CardHref(m, kind, linkBase);
    assert h[|b| + 1..] == IntToString(m.id);
    ParseIntToString(m.id);
  }

  /** `vote_average ? vote_average.toFixed(1) : null`, before formatting. */
  function Badge(m: Media): (b: Option<real>)
    ensures b.None? <==> m.voteAverage.None? || m.voteAverage.value == 0.0
    ensures b.Some? ==> b.value == m.voteAverage.value
  {
    match m.voteAverage
    case None => None
    case Some(v) => if v == 0.0 then None else Some(v)
  }

  /** The watch button: only for a user who can edit; "✓" when on the
      watchlist and "+" otherwise. */
  function WatchLabel(userCanEdit: bool, inWatchlist: bool): (b: Option<string>)
    ensures b.Some? <==> userCanEdit
    ensures b.Some? ==> (b.value == "✓" <==> inWatchlist) && (b.value == "+" <==> !inWatchlist)
  {
    if !userCanEdit then None else if inWatchlist then Some("✓") else Some("+")
  }
}

=== FILE: sorting.dfy ===
/** The stable sort behind every `Array.prototype.sort((a, b) => key(b) - key(a))`
    of the application.

    JavaScript's sort is stable and a comparator of the form `key(b) - key(a)`
    is a consistent total preorder, so the array it produces is unique: the
    elements ordered by non-increasing key, elements with equal keys kept in
    their input order. `SortDesc` is that function, written as an insertion
    sort. Ascending sorts (`a.x - b.x`) are `SortDesc` on the negated key. */
module Sorting {
  import opened Base

  /** Keys never increase along `s`. */
  ghost predicate SortedDesc<T>(s: seq<T>, key: T -> real)
  {
    forall i, j :: 0 <= i < j < |s| ==> key(s[i]) >= key(s[j])
  }

  /** Inserts `x`, which comes after every element of `t` in the input, behind
      every element whose key is at least its own. */
  function Insert<T>(t: seq<T>, x: T, key: T -> real): (r: seq<T>)
    ensures |r| == |t| + 1
    ensures multiset(r) == multiset(t) + multiset{x}
  {
    if |t| == 0 then [x]
    else if key(t[0]) >= key(x) then
      assert t == [t[0]] + t[1..];
      [t[0]] + Insert(t[1..], x, key)
    else [x] + t
  }

  lemma {:induction false} InsertSorted<T>(t: seq<T>, x: T, key: T -> real)
    requires SortedDesc(t, key)
    ensures SortedDesc(Insert(t, x, key), key)
    ensures |t| > 0 && key(t[0]) >= key(x) ==> Insert(t, x, key)[0] == t[0]
    ensures |t| == 0 || key(t[0]) < key(x) ==> Insert(t, x, key)[0] == x
    decreases |t|
  {
    var r := Insert(t, x, key);
    if |t| > 0 && key(t[0]) >= key(x) {
      var rest := Insert(t[1..], x, key);
      InsertSorted(t[1..], x, key);
      InsertBounded(t[1..], x, key, key(t[0]));
      assert r == [t[0]] + rest;
      SortedCons(t[0], rest, key);
    } else if |t| > 0 {
      assert r == [x] + t;
      assert forall i :: 0 <= i < |t| ==> key(t[i]) <= key(t[0]);
      SortedCons(x, t, key);
    }
  }

  /** A head whose key bounds a sorted tail makes a sorted sequence. */
  lemma SortedCons<T>(h: T, rest: seq<T>, key: T -> real)
    requires SortedDesc(rest, key)
    requires forall i :: 0 <= i < |rest| ==> key(rest[i]) <= key(h)
    ensures SortedDesc([h] + rest, key)
  {
    var r := [h] + rest;
    forall i, j | 0 <= i < j < |r| ensures key(r[i]) >= key(r[j]) {
      assert r[j] == rest[j - 1];
      if i > 0 {
        assert r[i] == rest[i - 1];
      }
    }
  }

  /** Inserting keeps every key under a common bound. */
  lemma {:induction false} InsertBounded<T>(t: seq<T>, x: T, key: T -> real, k: real)
    requires forall i :: 0 <= i < |t| ==> key(t[i]) <= k
    requires key(x) <= k
    ensures forall i :: 0 <= i < |Insert(t, x, key)| ==> key(Insert(t, x, key)[i]) <= k
    decreases |t|
  {
    if |t| > 0 && key(t[0]) >= key(x) {
      InsertBounded(t[1..], x, key, k);
      var r := Insert(t, x, key);
      var rest := Insert(t[1..], x, key);
      assert r == [t[0]] + rest;
      forall i | 0 < i < |r| ensures key(r[i]) <= k {
        assert r[i] == rest[i - 1];
      }
    }
  }

  /** The stable sort by non-increasing key. */
  function SortDesc<T>(s: seq<T>, key: T -> real): (r: seq<T>)
    ensures |r| == |s|
    ensures multiset(r) == multiset(s)
    ensures SortedDesc(r, key)
  {
    if |s| == 0 then []
    else
      var s' := s[..|s| - 1];
      assert s == s' + [s[|s| - 1]];
      InsertSorted(SortDesc(s', key), s[|s| - 1], key);
      Insert(SortDesc(s', key), s[|s| - 1], key)
  }

  /** The elements of `s` whose key is exactly `k`, in order: one "tie
      class" of the sort. */
  function TieClass<T>(s: seq<T>, key: T -> real, k: real): (r: seq<T>)
  {
    if |s| == 0 then []
    else TieClass(s[..|s| - 1], key, k) + (if key(s[|s| - 1]) == k then [s[|s| - 1]] else [])
  }

  lemma {:induction false} TieClassConcat<T>(a: seq<T>, b: seq<T>, key: T -> real, k: real)
    ensures TieClass(a + b, key, k) == TieClass(a, key, k) + TieClass(b, key, k)
    decreases |b|
  {
    if |b| == 0 {
      assert a + b == a;
    } else {
      var b' := b[..|b| - 1];
      assert (a + b)[..|a + b| - 1] == a + b';
      TieClassConcat(a, b', key, k);
    }
  }

  lemma {:induction false} TieClassEmpty<T>(s: seq<T>, key: T -> real, k: real)
    requires forall i :: 0 <= i < |s| ==> key(s[i]) != k
    ensures TieClass(s, key, k) == []
    decreases |s|
  {
    if |s| > 0 {
      TieClassEmpty(s[..|s| - 1], key, k);
    }
  }

  lemma TieClassSingleton<T>(x: T, key: T -> real, k: real)
    ensures TieClass([x], key, k) == if key(x) == k then [x] else []
  {
    assert [x][..0] == [];
  }

  lemma {:induction false} InsertTieClass<T>(t: seq<T>, x: T, key: T -> real, k: real)
    requires SortedDesc(t, key)
    ensures TieClass(Insert(t, x, key), key, k) == TieClass(t, key, k) + TieClass([x], key, k)
    decreases |t|
  {
    if |t| == 0 {
      assert Insert(t, x, key) == [x];
    } else if key(t[0]) >= key(x) {
      InsertTieClass(t[1..], x, key, k);
      InsertTieClassStep(t, x, key, k);
    } else {
      InsertTieClassFront(t, x, key, k);
    }
  }

  lemma InsertTieClassStep<T>(t: seq<T>, x: T, key: T -> real, k: real)
    requires |t| > 0 && key(t[0]) >= key(x)
    requires TieClass(Insert(t[1..], x, key), key, k) == TieClass(t[1..], key, k) + TieClass([x], key, k)
    ensures TieClass(Insert(t, x, key), key, k) == TieClass(t, key, k) + TieClass([x], key, k)
  {
    var rest := t[1..];
    var ins := Insert(rest, x, key);
    var head, mine := TieClass([t[0]], key, k), TieClass([x], key, k);
    calc {
      TieClass(Insert(t, x, key), key, k);
      { assert Insert(t, x, key) == [t[0]] + ins; }
      TieClass([t[0]] + ins, key, k);
      { TieClassConcat([t[0]], ins, key, k); }
      head + TieClass(ins, key, k);
      head + (TieClass(rest, key, k) + mine);
      (head + TieClass(rest, key, k)) + mine;
      { TieClassConcat([t[0]], rest, key, k); assert [t[0]] + rest == t; }
      TieClass(t, key, k) + mine;
    }
  }

  lemma InsertTieClassFront<T>(t: seq<T>, x: T, key: T -> real, k: real)
    requires SortedDesc(t, key)
    requires |t| > 0 && key(t[0]) < key(x)
    ensures TieClass(Insert(t, x, key), key, k) == TieClass(t, key, k) + TieClass([x], key, k)
  {
    TieClassSingleton(x, key, k);
    assert Insert(t, x, key) == [x] + t;
    TieClassConcat([x], t, key, k);
    if key(x) == k {
      TieClassEmpty(t, key, k);
    }
  }

  /** Stability: inside every tie class the sorted sequence keeps the input
      order. With `SortedDesc` and the multiset equality this determines the
      result of the sort uniquely. */
  lemma {:induction false} SortDescStable<T>(s: seq<T>, key: T -> real, k: real)
    ensures TieClass(SortDesc(s, key), key, k) == TieClass(s, key, k)
    decreases |s|
  {
    if |s| > 0 {
      var s' := s[..|s| - 1];
      var x := s[|s| - 1];
      SortDescStable(s', key, k);
      InsertTieClass(SortDesc(s', key), x, key, k);
      TieClassSingleton(x, key, k);
    }
  }

  /** A sequence that is already sorted comes back unchanged. */
  lemma {:induction false} SortDescOfSorted<T>(s: seq<T>, key: T -> real)
    requires SortedDesc(s, key)
    ensures SortDesc(s, key) == s
    decreases |s|
  {
    if |s| > 0 {
      var s' := s[..|s| - 1];
      var x := s[|s| - 1];
      assert SortedDesc(s', key) by {
        forall i, j | 0 <= i < j < |s'| ensures key(s'[i]) >= key(s'[j]) {
          assert s'[i] == s[i] && s'[j] == s[j];
        }
      }
      forall i | 0 <= i < |s'| ensures key(s'[i]) >= key(x) {
        assert s'[i] == s[i];
      }
      calc {
        SortDesc(s, key);
        Insert(SortDesc(s', key), x, key);
        { SortDescOfSorted(s', key); }
        Insert(s', x, key);
        { InsertAtEnd(s', x, key); }
        s' + [x];
        s;
      }
    }
  }

  lemma {:induction false} InsertAtEnd<T>(t: seq<T>, x: T, key: T -> real)
    requires forall i :: 0 <= i < |t| ==> key(t[i]) >= key(x)
    ensures Insert(t, x, key) == t + [x]
    decreases |t|
  {
    if |t| > 0 {
      InsertAtEnd(t[1..], x, key);
      assert t == [t[0]] + t[1..];
    }
  }

  /** Position of the first element carrying the greatest key. */
  function FirstMaxIndex<T>(s: seq<T>, key: T -> real): (i: nat)
    requires |s| > 0
    ensures i < |s|
    ensures forall j :: 0 <= j < |s| ==> key(s[j]) <= key(s[i])
    ensures forall j :: 0 <= j < i ==> key(s[j]) < key(s[i])
  {
    if |s| == 1 then 0
    else
      var m := FirstMaxIndex(s[..|s| - 1], key);
      if key(s[|s| - 1]) > key(s[m]) then |s| - 1 else m
  }

  /** The head of the sorted sequence is the earliest element with the
      greatest key: ties are won by the earlier position. */
  lemma {:induction false} SortDescHead<T>(s: seq<T>, key: T -> real)
    requires |s| > 0
    ensures SortDesc(s, key)[0] == s[FirstMaxIndex(s, key)]
    decreases |s|
  {
    if |s| > 1 {
      var s' := s[..|s| - 1];
      var x := s[|s| - 1];
      SortDescHead(s', key);
      InsertSorted(SortDesc(s', key), x, key);
    }
  }

  /** Position `k` of `s` holds the first element satisfying `p` with the
      greatest key among those that satisfy `p`. */
  ghost predicate FirstMaxWhere<T>(p: T -> bool, s: seq<T>, key: T -> real, k: nat)
  {
    && k < |s| && p(s[k])
    && (forall j :: 0 <= j < |s| && p(s[j]) ==> key(s[j]) <= key(s[k]))
    && (forall j :: 0 <= j < k && p(s[j]) ==> key(s[j]) < key(s[k]))
  }

  /** Where the winner of `FirstMaxIndex` over a filtered sequence sits in
      the unfiltered one: at the first position, among those satisfying
      `p`, that carries the greatest key. */
  lemma FilterFirstMax<T>(p: T -> bool, s: seq<T>, key: T -> real) returns (k: nat)
    requires |Filter(p, s)| > 0
    ensures FirstMaxWhere(p, s, key, k)
    ensures s[k] == Filter(p, s)[FirstMaxIndex(Filter(p, s), key)]
  {
    var f := Filter(p, s);
    assert f[0] in multiset(s);
    var i :| 0 <= i < |s| && s[i] == f[0];
    k := FirstMaxWhereExists(p, s, key, i);
    FirstMaxWhereIsFilterMax(p, s, key, k);
  }

  /** Some position satisfies `FirstMaxWhere` as soon as one element
      satisfies `p`. */
  lemma {:induction false} FirstMaxWhereExists<T>(p: T -> bool, s: seq<T>, key: T -> real, i: nat) returns (k: nat)
    requires i < |s| && p(s[i])
    ensures FirstMaxWhere(p, s, key, k)
    decreases |s|
  {
    var s', x := s[..|s| - 1], s[|s| - 1];
    assert s == s' + [x];
    if i == |s'| && forall j :: 0 <= j < |s'| ==> !p(s'[j]) {
      k := |s'|;
      forall j | 0 <= j < |s'| ensures !p(s[j]) {
        assert s[j] == s'[j];
      }
    } else {
      var i' := i;
      if i == |s'| {
        i' :| 0 <= i' < |s'| && p(s'[i']);
      }
      assert s[i'] == s'[i'];
      var k' := FirstMaxWhereExists(p, s', key, i');
      if p(x) && key(x) > key(s'[k']) {
        k := |s'|;
        forall j | 0 <= j < |s| && p(s[j]) ensures key(s[j]) <= key(x) {
          if j < |s'| { assert s[j] == s'[j]; }
        }
        forall j | 0 <= j < k && p(s[j]) ensures key(s[j]) < key(x) {
          assert s[j] == s'[j];
        }
      } else {
        k := k';
        assert s[k] == s'[k];
        forall j | 0 <= j < |s| && p(s[j]) ensures key(s[j]) <= key(s[k]) {
          if j < |s'| { assert s[j] == s'[j]; }
        }
        forall j | 0 <= j < k && p(s[j]) ensures key(s[j]) < key(s[k]) {
          assert s[j] == s'[j];
        }
      }
    }
  }

  /** The position `FirstMaxWhere` describes holds the element that
      `FirstMaxIndex` picks from the filtered sequence. */
  lemma {:induction false} FirstMaxWhereIsFilterMax<T>(p: T -> bool, s: seq<T>, key: T -> real, k: nat)
    requires FirstMaxWhere(p, s, key, k)
    ensures |Filter(p, s)| > 0 && s[k] == Filter(p, s)[FirstMaxIndex(Filter(p, s), key)]
    decreases |s|
  {
    var s', x := s[..|s| - 1], s[|s| - 1];
    assert s == s' + [x];
    var f' := Filter(p, s');
    FilterSnoc(p, s', x);
    if k < |s'| {
      FirstMaxWhereInit(p, s, s', x, key, k);
      FirstMaxWhereIsFilterMax(p, s', key, k);
      MaxAfterSnoc(f', Filter(p, s), x, key, p(x), s[k]);
    } else {
      FirstMaxWhereLast(p, s, s', x, key, f');
      MaxAfterSnocNew(f', Filter(p, s), x, key);
    }
  }

  /** A first maximum before the last element is one of the prefix too. */
  lemma FirstMaxWhereInit<T>(p: T -> bool, s: seq<T>, s': seq<T>, x: T, key: T -> real, k: nat)
    requires s == s' + [x] && k < |s'| && FirstMaxWhere(p, s, key, k)
    ensures FirstMaxWhere(p, s', key, k) && s[k] == s'[k]
    ensures p(x) ==> key(x) <= key(s[k])
  {
    assert s[k] == s'[k] && s[|s'|] == x;
    forall j | 0 <= j < |s'| && p(s'[j]) ensures key(s'[j]) <= key(s'[k]) {
      assert s[j] == s'[j];
    }
    forall j | 0 <= j < k && p(s'[j]) ensures key(s'[j]) < key(s'[k]) {
      assert s[j] == s'[j];
    }
  }

  /** A first maximum at the last element beats everything kept before it. */
  lemma FirstMaxWhereLast<T>(p: T -> bool, s: seq<T>, s': seq<T>, x: T, key: T -> real, f': seq<T>)
    requires s == s' + [x] && FirstMaxWhere(p, s, key, |s'|)
    requires multiset(f') <= multiset(s') && forall i :: 0 <= i < |f'| ==> p(f'[i])
    ensures p(x)
    ensures |f'| > 0 ==> key(f'[FirstMaxIndex(f', key)]) < key(x)
  {
    assert s[|s'|] == x;
    if |f'| > 0 {
      var m := FirstMaxIndex(f', key);
      assert f'[m] in multiset(s');
      var j :| 0 <= j < |s'| && s'[j] == f'[m];
      assert s[j] == s'[j];
    }
  }

  /** Appending an element no greater than the winner keeps the winner. */
  lemma MaxAfterSnoc<T>(f': seq<T>, f: seq<T>, x: T, key: T -> real, px: bool, v: T)
    requires f == f' + (if px then [x] else [])
    requires |f'| > 0 && v == f'[FirstMaxIndex(f', key)]
    requires px ==> key(x) <= key(v)
    ensures |f| > 0 && f[FirstMaxIndex(f, key)] == v
  {
    if px {
      FirstMaxSnoc(f', x, key);
      assert f[FirstMaxIndex(f', key)] == v;
    } else {
      assert f == f';
    }
  }

  /** Appending an element greater than the winner makes it the winner. */
  lemma MaxAfterSnocNew<T>(f': seq<T>, f: seq<T>, x: T, key: T -> real)
    requires f == f' + [x]
    requires |f'| > 0 ==> key(f'[FirstMaxIndex(f', key)]) < key(x)
    ensures |f| > 0 && f[FirstMaxIndex(f, key)] == x
  {
    if |f'| > 0 {
      FirstMaxSnoc(f', x, key);
    } else {
      assert f == [x];
    }
  }

  lemma FirstMaxSnoc<T>(f: seq<T>, x: T, key: T -> real)
    requires |f| > 0
    ensures var m := FirstMaxIndex(f, key);
      FirstMaxIndex(f + [x], key) == if key(x) > key(f[m]) then |f| else m
  {
    assert (f + [x])[..|f|] == f;
  }

  /** `s.filter(p).sort(byKeyDesc).slice(0, n)`: the kept elements satisfy
      `p`, come from `s` and are in non-increasing key order. */
  function TopFiltered<T>(p: T -> bool, s: seq<T>, key: T -> real, n: nat): (r: seq<T>)
    ensures |r| <= n
    ensures forall i :: 0 <= i < |r| ==> p(r[i])
    ensures multiset(r) <= multiset(s)
    ensures forall i, j :: 0 <= i < j < |r| ==> key(r[i]) >= key(r[j])
  {
    var f := Filter(p, s);
    var r := Take(SortDesc(f, key), n);
    TopOf(f, key, n);
    SubMultisetAll(r, f, p);
    r
  }

  /** Nothing satisfying `p` is left off `TopFiltered`'s result unless the
      result is full and everything on it has at least its key. */
  lemma TopFilteredComplete<T>(p: T -> bool, s: seq<T>, key: T -> real, n: nat, m: T)
    requires m in s && p(m)
    ensures var r := TopFiltered(p, s, key, n);
      m !in r ==> |r| == n && forall i :: 0 <= i < |r| ==> key(m) <= key(r[i])
  {
    var f := Filter(p, s);
    var sorted := SortDesc(f, key);
    var r := Take(sorted, n);
    var i :| 0 <= i < |s| && s[i] == m;
    FilterKeeps(p, s);
    assert m in multiset(sorted);
    var j :| 0 <= j < |sorted| && sorted[j] == m;
    if m !in r {
      assert j >= |r|;
      forall k | 0 <= k < |r| ensures key(m) <= key(r[k]) {
        assert r[k] == sorted[k];
      }
    }
  }

  /** `[...s].sort(byKeyDesc).slice(0, n)`: at most `n` elements of `s`,
      in non-increasing key order, and a true top `n`: every element cut
      off has a key no greater than any element kept. */
  /** Cutting a stable sort at `n` keeps, of every tie class, the items
      met first in `s`, in their order there: the kept ties are a prefix
      of the tie class of `s`. */
  lemma TakeSortedTies<T>(s: seq<T>, key: T -> real, n: nat, k: real)
    ensures TieClass(Take(SortDesc(s, key), n), key, k) <= TieClass(s, key, k)
  {
    var sorted := SortDesc(s, key);
    var r := Take(sorted, n);
    assert sorted == r + sorted[|r|..];
    TieClassConcat(r, sorted[|r|..], key, k);
    SortDescStable(s, key, k);
  }

  /** The same for `TopFiltered`, against the filtered sequence. */
  lemma TopFilteredTies<T>(p: T -> bool, s: seq<T>, key: T -> real, n: nat, k: real)
    ensures TieClass(TopFiltered(p, s, key, n), key, k) <= TieClass(Filter(p, s), key, k)
  {
    TakeSortedTies(Filter(p, s), key, n, k);
  }

  lemma TopOf<T>(s: seq<T>, key: T -> real, n: nat)
    ensures var sorted := SortDesc(s, key); var r := Take(sorted, n);
      && multiset(r) <= multiset(s)
      && (forall i, j :: 0 <= i < j < |r| ==> key(r[i]) >= key(r[j]))
      && (forall i, j :: 0 <= i < |r| <= j < |sorted| ==> key(sorted[j]) <= key(r[i]))
  {
    var sorted := SortDesc(s, key);
    TakeMultiset(sorted, n);
    assert forall i :: 0 <= i < |Take(sorted, n)| ==> Take(sorted, n)[i] == sorted[i];
  }
}

=== FILE: star_rating.dfy ===
/** The star widget: `max` buttons, the first `value` of them filled, and
    a click on star k reporting k. */
module StarRating {
  import opened Base

  datatype Star = Star(value: int, filled: bool)

  /** The buttons drawn for `value` (0 by default) and `max` (5 by
      default): star k, counting from 1, is filled exactly when k is at
      most the value. */
  function Stars(value: Option<real>, max: Option<nat>): (r: seq<Star>)
    ensures |r| == max.GetOr(5)
    ensures forall i :: 0 <= i < |r| ==> r[i].value == i + 1
    ensures forall i :: 0 <= i < |r| ==> (r[i].filled <==> (i + 1) as real <= value.GetOr(0.0))
  {
    var v := value.GetOr(0.0);
    seq(max.GetOr(5), i => Star(i + 1, (i + 1) as real <= v))
  }

  /** With no value given nothing is filled, and the filled stars always
      come before the empty ones. */
  lemma StarsFilledPrefix(value: Option<real>, max: Option<nat>)
    ensures var r := Stars(value, max);
      forall i, j :: 0 <= i < j < |r| && r[j].filled ==> r[i].filled
    ensures value.None? ==> forall i :: 0 <= i < |Stars(value, max)| ==> !Stars(value, max)[i].filled
  {
  }

  /** `handleClick(starValue)` on the button at position `i`: the value
      reported to `onChange`, or nothing without one. */
  function Click(hasOnChange: bool, max: nat, i: nat): (r: Option<int>)
    requires i < max
    ensures r.Some? <==> hasOnChange
    ensures r.Some? ==> 1 <= r.value <= max && r.value == Stars(None, Some(max))[i].value
  {
    if hasOnChange then Some(i + 1) else None
  }

  /** A click on a star, fed back as the value, fills that star and every
      star before it, and no other. */
  lemma ClickThenShow(max: nat, i: nat)
    requires i < max
    ensures var k := Click(true, max, i).value;
      var r := Stars(Some(k as real), Some(max));
      forall j :: 0 <= j < |r| ==> (r[j].filled <==> j <= i)
  {
  }
}

=== FILE: storage.dfy ===
/** The browser-local store: watchlists, ratings, reviews, review likes and
    like counters kept under string keys. The store is a map from the keys
    (each standing for its exact string) to the decoded JSON values; a
    missing key, or a key holding a value of another shape, reads as the
    operation's default. */
module Storage {
  import opened Base
  import opened Sorting
  import opened Text

  /** A star rating of one movie by one user. */
  datatype Rating = Rating(userId: string, movieId: int, stars: real, createdAt: int)

  /** A locally stored review. `createdAt` is the instant of an ISO-8601
      timestamp; these strings have a fixed width, so their text order is
      their time order. */
  datatype Review = Review(
    id: string, userId: string, movieId: int, title: string, body: string,
    spoiler: bool, createdAt: int)

  /** The decoded value stored under one key. */
  datatype Stored =
    | Ids(ids: seq<int>)
    | Ratings(ratings: seq<Rating>)
    | Reviews(reviews: seq<Review>)
    | Strings(strings: seq<string>)
    | Count(count: int)

  /* ---------- keys ---------- */

  /** The keys the store uses, one constructor per family. `KeyText` gives
      the exact string each one stands for; `KeyTextInjective` shows that
      distinct keys are distinct strings, so keying the store by this
      datatype loses nothing. */
  datatype StoreKey =
    | WatchKey(uid: string)
    | SeriesKey(uid: string)
    | RatingsKey(uid: string)
    | ReviewsKey
    | LikesKey(uid: string)
    | CountKey(reviewId: string)

  type Store = map<StoreKey, Stored>

  /** `K(k)` prefixes "cinebox:"; the like keys spell the prefix out. */
  function KeyText(k: StoreKey): string
  {
    match k
    case WatchKey(uid) => "cinebox:wl:" + uid
    case SeriesKey(uid) => "cinebox:wlSeries:" + uid
    case RatingsKey(uid) => "cinebox:rt:" + uid
    case ReviewsKey => "cinebox:reviews"
    case LikesKey(uid) => "cinebox:reviewlikes:" + uid
    case CountKey(reviewId) => "cinebox:reviewlikecount:" + reviewId
  }

  predicate StartsWith(s: string, p: string)
  {
    |p| <= |s| && s[..|p|] == p
  }

  /** Reads a key string back: the inverse of `KeyText`. */
  function ParseKey(s: string): (r: Option<StoreKey>)
    ensures r.Some? ==> KeyText(r.value) == s
  {
    if StartsWith(s, "cinebox:wl:") then
      assert s == s[..11] + s[11..];
      Some(WatchKey(s[11..]))
    else if StartsWith(s, "cinebox:wlSeries:") then
      assert s == s[..17] + s[17..];
      Some(SeriesKey(s[17..]))
    else if StartsWith(s, "cinebox:rt:") then
      assert s == s[..11] + s[11..];
      Some(RatingsKey(s[11..]))
    else if s == "cinebox:reviews" then
      Some(ReviewsKey)
    else if StartsWith(s, "cinebox:reviewlikes:") then
      assert s == s[..20] + s[20..];
      Some(LikesKey(s[20..]))
    else if StartsWith(s, "cinebox:reviewlikecount:") then
      assert s == s[..24] + s[24..];
      Some(CountKey(s[24..]))
    else
      None
  }

  /** Every key string reads back as the key it was made from. */
  lemma ParseKeyText(k: StoreKey)
    ensures ParseKey(KeyText(k)) == Some(k)
  {
    var s := KeyText(k);
    match k
    case WatchKey(uid) =>
      assert s[..11] == "cinebox:wl:";
    case SeriesKey(uid) =>
      assert s[10] == 'S';
      assert s[..17] == "cinebox:wlSeries:";
    case RatingsKey(uid) =>
      assert s[8] == 'r';
      assert s[..11] == "cinebox:rt:";
    case ReviewsKey =>
      assert s[8] == 'r' && s[9] == 'e';
    case LikesKey(uid) =>
      assert s[8] == 'r' && s[9] == 'e' && s[14] == 'l';
      assert s[..20] == "cinebox:reviewlikes:";
    case CountKey(id) =>
      assert s[8] == 'r' && s[9] == 'e' && s[14] == 'l' && s[18] == 'c';
      assert s[..24] == "cinebox:reviewlikecount:";
  }

  /** Two keys share a string exactly when they are the same key: the
      families never collide and each is injective in its id. */
  lemma KeyTextInjective(a: StoreKey, b: StoreKey)
    ensures KeyText(a) == KeyText(b) <==> a == b
  {
    ParseKeyText(a);
    ParseKeyText(b);
  }

  /* ---------- set toggles ---------- */

  /** `const s = new Set(xs); s.has(x) ? s.delete(x) : s.add(x); [...s]`. */
  function SetToggle<T(==)>(xs: seq<T>, x: T): (r: seq<T>)
    ensures x in r <==> x !in xs
    ensures forall i :: 0 <= i < |xs| && xs[i] != x ==> xs[i] in r
    ensures forall i :: 0 <= i < |r| && r[i] != x ==> r[i] in xs
    ensures NoDup(r)
  {
    var d := Dedup(xs);
    DedupElements(xs);
    if x in d then
      RemoveAll(d, x);
      Filter(NotEqualTo(x), d)
    else
      d + [x]
  }

  /** Every other element keeps its place relative to the others: with `x`
      filtered out, the result is the de-duplicated input. */
  lemma SetToggleKeepsOrder<T>(xs: seq<T>, x: T)
    ensures Filter(NotEqualTo(x), SetToggle(xs, x)) == Filter(NotEqualTo(x), Dedup(xs))
  {
    var d := Dedup(xs);
    KeySetIdentity(xs);
    KeySetIdentity(d);
    if x in d {
      FilterKeepsAll(NotEqualTo(x), Filter(NotEqualTo(x), d));
    } else {
      FilterConcat(NotEqualTo(x), d, [x]);
      FilterSingleton(NotEqualTo(x), x);
    }
  }

  /** Toggling an absent element twice gives back the de-duplicated list;
      toggling a present one twice keeps the same elements but moves it to
      the end. */
  lemma SetToggleTwice<T>(xs: seq<T>, x: T)
    ensures x !in xs ==> SetToggle(SetToggle(xs, x), x) == Dedup(xs)
    ensures x in xs ==> SetToggle(SetToggle(xs, x), x) == Filter(NotEqualTo(x), Dedup(xs)) + [x]
  {
    var d := Dedup(xs);
    var t := SetToggle(xs, x);
    KeySetIdentity(xs);
    KeySetIdentity(d);
    KeySetIdentity(t);
    assert UniqueKeys(t, Identity);
    DedupByUnique(t, Identity);
    if x !in xs {
      assert t == d + [x];
      FilterConcat(NotEqualTo(x), d, [x]);
      FilterSingleton(NotEqualTo(x), x);
      FilterKeepsAll(NotEqualTo(x), d);
    } else {
      assert t == Filter(NotEqualTo(x), d);
    }
  }

  /** A list that is the result of a toggle is de-duplicated already, so
      toggles act on it as plain insertion and removal. */
  lemma SetToggleOnNoDup<T>(xs: seq<T>, x: T)
    requires NoDup(xs)
    ensures SetToggle(xs, x) == if x in xs then Filter(NotEqualTo(x), xs) else xs + [x]
  {
    assert UniqueKeys(xs, Identity);
    DedupByUnique(xs, Identity);
  }

  /* ---------- watchlists ---------- */

  function GetIds(st: Store, k: StoreKey): seq<int>
  {
    if k in st && st[k].Ids? then st[k].ids else []
  }

  /** `getWatchlist(uid)` */
  function GetWatchlist(st: Store, uid: string): seq<int> { GetIds(st, WatchKey(uid)) }

  /** `getWatchlistSeries(uid)` */
  function GetWatchlistSeries(st: Store, uid: string): seq<int> { GetIds(st, SeriesKey(uid)) }

  /** `toggleWatch(uid, movieId)`: flips the movie's membership in the
      user's movie watchlist and writes nothing else. */
  function ToggleWatch(st: Store, uid: string, movieId: int): (r: Store)
    ensures GetWatchlist(r, uid) == SetToggle(GetWatchlist(st, uid), movieId)
    ensures movieId in GetWatchlist(r, uid) <==> movieId !in GetWatchlist(st, uid)
    ensures NoDup(GetWatchlist(r, uid))
    ensures forall k :: k != WatchKey(uid) ==> (k in r <==> k in st) && (k in st ==> r[k] == st[k])
  {
    st[WatchKey(uid) := Ids(SetToggle(GetWatchlist(st, uid), movieId))]
  }

  /** `toggleWatchSeries(uid, showId)`: the same on the series watchlist. */
  function ToggleWatchSeries(st: Store, uid: string, showId: int): (r: Store)
    ensures GetWatchlistSeries(r, uid) == SetToggle(GetWatchlistSeries(st, uid), showId)
    ensures showId in GetWatchlistSeries(r, uid) <==> showId !in GetWatchlistSeries(st, uid)
    ensures forall k :: k != SeriesKey(uid) ==> (k in r <==> k in st) && (k in st ==> r[k] == st[k])
  {
    st[SeriesKey(uid) := Ids(SetToggle(GetWatchlistSeries(st, uid), showId))]
  }

  /** A write of one key changes no other key. */
  lemma Written(st: Store, k: StoreKey, v: Stored, r: Store)
    requires r == st[k := v]
    ensures k in r && r[k] == v
    ensures forall k' :: k' != k ==> (k' in r <==> k' in st) && (k' in st ==> r[k'] == st[k'])
  {
  }

  /** A write that keeps every key but one reads the same under any other
      key. */
  lemma OtherKeyUnchanged(st: Store, r: Store, written: StoreKey, k: StoreKey)
    requires forall k :: k != written ==> (k in r <==> k in st) && (k in st ==> r[k] == st[k])
    requires k != written
    ensures GetIds(r, k) == GetIds(st, k)
  {
  }

  /** The two watchlists are independent: toggling a series never changes
      any user's movie watchlist, and toggling a movie never changes any
      user's series watchlist. */
  lemma WatchlistsIndependent(st: Store, uid: string, id: int, v: string)
    ensures GetWatchlist(ToggleWatchSeries(st, uid, id), v) == GetWatchlist(st, v)
    ensures GetWatchlistSeries(ToggleWatch(st, uid, id), v) == GetWatchlistSeries(st, v)
  {
    OtherKeyUnchanged(st, ToggleWatchSeries(st, uid, id), SeriesKey(uid), WatchKey(v));
    OtherKeyUnchanged(st, ToggleWatch(st, uid, id), WatchKey(uid), SeriesKey(v));
  }

  /** One user's toggle never changes another user's watchlist. */
  lemma ToggleWatchOtherUser(st: Store, uid: string, id: int, v: string)
    requires v != uid
    ensures GetWatchlist(ToggleWatch(st, uid, id), v) == GetWatchlist(st, v)
  {
  }

  /* ---------- ratings ---------- */

  function GetRatings(st: Store, uid: string): seq<Rating>
  {
    var k := RatingsKey(uid);
    if k in st && st[k].Ratings? then st[k].ratings else []
  }

  /** The predicate `x.movieId !== movieId`. */
  function NotForMovie(movieId: int): Rating -> bool
  {
    (x: Rating) => x.movieId != movieId
  }

  /** The list `setRating` writes: the earlier ratings of other movies, in
      their order, then `rt`. */
  function Rerated(rs: seq<Rating>, rt: Rating): (r: seq<Rating>)
    ensures |r| > 0 && r[|r| - 1] == rt
    ensures forall i :: 0 <= i < |r| - 1 ==> r[i].movieId != rt.movieId
    ensures Filter(NotForMovie(rt.movieId), r) == Filter(NotForMovie(rt.movieId), rs)
  {
    var p := NotForMovie(rt.movieId);
    var kept := Filter(p, rs);
    FilterSnoc(p, kept, rt);
    FilterIdempotent(p, rs);
    kept + [rt]
  }

  /** `setRating(uid, r)`: drops the user's earlier ratings of the movie
      and appends `r`; exactly one rating of the movie remains, the new one,
      last; the others are unchanged and keep their order. */
  function SetRating(st: Store, uid: string, rt: Rating): (r: Store)
    ensures GetRatings(r, uid) == Rerated(GetRatings(st, uid), rt)
    ensures forall k :: k != RatingsKey(uid) ==> (k in r <==> k in st) && (k in st ==> r[k] == st[k])
  {
    var r := st[RatingsKey(uid) := Ratings(Rerated(GetRatings(st, uid), rt))];
    Written(st, RatingsKey(uid), r[RatingsKey(uid)], r);
    r
  }

  /** Rating a movie twice keeps only the later rating. */
  lemma SetRatingTwice(st: Store, uid: string, a: Rating, b: Rating)
    requires a.movieId == b.movieId
    ensures GetRatings(SetRating(SetRating(st, uid, a), uid, b), uid)
         == GetRatings(SetRating(st, uid, b), uid)
  {
    var p := NotForMovie(a.movieId);
    var kept := Filter(p, GetRatings(st, uid));
    FilterConcat(p, kept, [a]);
    FilterSingleton(p, a);
    FilterKeepsAll(p, kept);
  }

  /* ---------- reviews ---------- */

  function GetAllReviews(st: Store): seq<Review>
  {
    if ReviewsKey in st && st[ReviewsKey].Reviews? then st[ReviewsKey].reviews else []
  }

  /** `addReview(rv)`: always appends, with no de-duplication. */
  function AddReview(st: Store, rv: Review): (r: Store)
    ensures |GetAllReviews(r)| == |GetAllReviews(st)| + 1
    ensures GetAllReviews(r)[..|GetAllReviews(st)|] == GetAllReviews(st)
    ensures GetAllReviews(r)[|GetAllReviews(st)|] == rv
  {
    st[ReviewsKey := Reviews(GetAllReviews(st) + [rv])]
  }

  function ForMovie(movieId: int): Review -> bool
  {
    (r: Review) => r.movieId == movieId
  }

  function ReviewTime(r: Review): real { r.createdAt as real }

  /** `getMovieReviews(movieId)`: the reviews of the movie, newest first;
      equal timestamps keep their stored order. */
  function GetMovieReviews(st: Store, movieId: int): (r: seq<Review>)
    ensures multiset(r) == multiset(Filter(ForMovie(movieId), GetAllReviews(st)))
    ensures forall i :: 0 <= i < |r| ==> r[i].movieId == movieId
    ensures forall i, j :: 0 <= i < j < |r| ==> r[i].createdAt >= r[j].createdAt
  {
    var mine := Filter(ForMovie(movieId), GetAllReviews(st));
    var r := SortDesc(mine, ReviewTime);
    SubMultisetAll(r, mine, ForMovie(movieId));
    r
  }

  /** Every review of the movie is listed, and no other. */
  lemma GetMovieReviewsComplete(st: Store, movieId: int, rv: Review)
    ensures rv in GetMovieReviews(st, movieId) <==> rv in GetAllReviews(st) && rv.movieId == movieId
  {
    var all := GetAllReviews(st);
    var mine := Filter(ForMovie(movieId), all);
    assert rv in GetMovieReviews(st, movieId) <==> rv in multiset(mine);
    if rv in all && rv.movieId == movieId {
      var i :| 0 <= i < |all| && all[i] == rv;
      assert ForMovie(movieId)(all[i]);
      FilterKeeps(ForMovie(movieId), all);
    }
    if rv in mine {
      assert rv in multiset(all);
    }
  }

  /* ---------- review likes ---------- */

  function GetReviewLikes(st: Store, uid: string): seq<string>
  {
    var k := LikesKey(uid);
    if k in st && st[k].Strings? then st[k].strings else []
  }

  /** `toggleReviewLike(uid, reviewId)`: flips the review's membership in
      the user's set of liked reviews. */
  function ToggleReviewLike(st: Store, uid: string, reviewId: string): (r: Store)
    ensures reviewId in GetReviewLikes(r, uid) <==> reviewId !in GetReviewLikes(st, uid)
    ensures forall x: string :: x != reviewId ==> (x in GetReviewLikes(r, uid) <==> x in GetReviewLikes(st, uid))
    ensures NoDup(GetReviewLikes(r, uid))
    ensures forall k :: k != LikesKey(uid) ==> (k in r <==> k in st) && (k in st ==> r[k] == st[k])
  {
    st[LikesKey(uid) := Strings(SetToggle(GetReviewLikes(st, uid), reviewId))]
  }

  /** `getReviewLikeCount(reviewId)`: an absent counter reads as 0. */
  function GetReviewLikeCount(st: Store, reviewId: string): (n: int)
    ensures CountKey(reviewId) !in st ==> n == 0
  {
    var k := CountKey(reviewId);
    if k in st && st[k].Count? then st[k].count else 0
  }

  /** `bumpReviewLikeCount(reviewId, inc)`: adds `inc`, clamped at 0. */
  function BumpReviewLikeCount(st: Store, reviewId: string, inc: int): (r: Store)
    ensures GetReviewLikeCount(r, reviewId) >= 0
    ensures GetReviewLikeCount(st, reviewId) + inc >= 0 ==> GetReviewLikeCount(r, reviewId) == GetReviewLikeCount(st, reviewId) + inc
    ensures GetReviewLikeCount(st, reviewId) + inc < 0 ==> GetReviewLikeCount(r, reviewId) == 0
    ensures forall k :: k != CountKey(reviewId) ==> (k in r <==> k in st) && (k in st ==> r[k] == st[k])
  {
    var n := GetReviewLikeCount(st, reviewId) + inc;
    st[CountKey(reviewId) := Count(if n < 0 then 0 else n)]
  }

  /** A like followed by an unlike restores a non-negative counter; an
      unlike of a counter at 0 followed by a like leaves it at 1, because
      the clamp lost the decrement. */
  lemma BumpUpDown(st: Store, reviewId: string)
    requires GetReviewLikeCount(st, reviewId) >= 0
    ensures GetReviewLikeCount(BumpReviewLikeCount(BumpReviewLikeCount(st, reviewId, 1), reviewId, -1), reviewId)
         == GetReviewLikeCount(st, reviewId)
    ensures GetReviewLikeCount(st, reviewId) == 0 ==>
      GetReviewLikeCount(BumpReviewLikeCount(BumpReviewLikeCount(st, reviewId, -1), reviewId, 1), reviewId) == 1
  {
  }

  /* ---------- each write keeps to its own key ---------- */

  /** Rating a movie leaves the reviews as they were. */
  lemma RatingKeepsReviews(st: Store, uid: string, rt: Rating)
    ensures GetAllReviews(SetRating(st, uid, rt)) == GetAllReviews(st)
  {
  }

  /** Adding a review leaves every user's ratings as they were. */
  lemma ReviewKeepsRatings(st: Store, rv: Review, uid: string)
    ensures GetRatings(AddReview(st, rv), uid) == GetRatings(st, uid)
  {
  }

  /** Liking a review leaves every like count as it was. */
  lemma LikeKeepsCounts(st: Store, uid: string, reviewId: string, id: string)
    ensures GetReviewLikeCount(ToggleReviewLike(st, uid, reviewId), id) == GetReviewLikeCount(st, id)
  {
  }

  /** Bumping a count leaves every user's likes as they were. */
  lemma CountKeepsLikes(st: Store, id: string, inc: int, uid: string)
    ensures GetReviewLikes(BumpReviewLikeCount(st, id, inc), uid) == GetReviewLikes(st, uid)
  {
  }
}

=== FILE: tally.dfy ===
/** Occurrence counting with the iteration order of a JavaScript `Map` (or of a
    plain object with non-numeric keys): keys in first-insertion order, each
    with the number of times it was seen. This is `genreScores` on the home
    page and `genreCount` / `yearCount` on the profile. */
module Counting {
  import opened Base
  import opened Sorting

  /** How many times `k` occurs in `xs`. */
  ghost function CountOf<K>(xs: seq<K>, k: K): nat
  {
    if |xs| == 0 then 0
    else CountOf(xs[..|xs| - 1], k) + (if xs[|xs| - 1] == k then 1 else 0)
  }

  function EntryKey<K>(e: (K, nat)): K { e.0 }

  /** The count of an entry, as a sort key. */
  function EntryCount<K>(e: (K, nat)): real { e.1 as real }

  /** `m.set(k, (m.get(k) ?? 0) + 1)` on the entries of a map. */
  function Bump<K(==)>(e: seq<(K, nat)>, k: K): (r: seq<(K, nat)>)
    requires UniqueKeys(e, EntryKey)
    ensures |r| == |e| + (if k in KeySet(e, EntryKey) then 0 else 1)
    ensures forall i :: 0 <= i < |e| ==> r[i].0 == e[i].0 && r[i].1 == e[i].1 + (if e[i].0 == k then 1 else 0)
    ensures k !in KeySet(e, EntryKey) ==> r[|e|] == (k, 1)
    decreases |e|
  {
    if |e| == 0 then [(k, 1)]
    else if e[0].0 == k then
      assert forall i :: 1 <= i < |e| ==> EntryKey(e[i]) != EntryKey(e[0]);
      assert k in KeySet(e, EntryKey) by { KeySetMember(e, EntryKey, 0); }
      [(k, e[0].1 + 1)] + e[1..]
    else
      KeySetCons(e, EntryKey);
      [e[0]] + Bump(e[1..], k)
  }

  lemma KeySetCons<T, K>(s: seq<T>, key: T -> K)
    requires |s| > 0
    ensures KeySet(s, key) == {key(s[0])} + KeySet(s[1..], key)
  {
    var l := KeySet(s, key);
    var r := {key(s[0])} + KeySet(s[1..], key);
    forall k | k in l ensures k in r {
      var i :| 0 <= i < |s| && key(s[i]) == k;
      if i > 0 { assert key(s[1..][i - 1]) == k; }
    }
    forall k | k in r ensures k in l {
      if k != key(s[0]) {
        var i :| 0 <= i < |s[1..]| && key(s[1..][i]) == k;
        assert key(s[i + 1]) == k;
      }
    }
  }

  /** The entries of the counting map after visiting `xs` left to right. */
  function Tally<K(==)>(xs: seq<K>): (r: seq<(K, nat)>)
    ensures UniqueKeys(r, EntryKey)
    ensures |r| == |Dedup(xs)|
    ensures forall i :: 0 <= i < |r| ==> r[i].0 == Dedup(xs)[i] && r[i].1 == CountOf(xs, r[i].0)
  {
    if |xs| == 0 then []
    else
      var xs' := xs[..|xs| - 1];
      var x := xs[|xs| - 1];
      var t := Tally(xs');
      TallyKeySet(t, xs');
      assert xs == xs' + [x];
      TallyStep(t, xs', x);
      KeysFollowUnique(Bump(t, x), Dedup(xs));
      Bump(t, x)
  }

  /** Entries whose keys are, position by position, those of a
      duplicate-free sequence have unique keys. */
  lemma KeysFollowUnique<K>(r: seq<(K, nat)>, d: seq<K>)
    requires |r| == |d| && UniqueKeys(d, Identity)
    requires forall i :: 0 <= i < |r| ==> r[i].0 == d[i]
    ensures UniqueKeys(r, EntryKey)
  {
    forall i, j | 0 <= i < j < |r| ensures EntryKey(r[i]) != EntryKey(r[j]) {
      assert Identity(d[i]) != Identity(d[j]);
    }
  }

  /** What one more `m.set(x, (m.get(x) ?? 0) + 1)` does to the tally of a prefix. */
  lemma TallyStep<K>(t: seq<(K, nat)>, xs: seq<K>, x: K)
    requires UniqueKeys(t, EntryKey)
    requires |t| == |Dedup(xs)|
    requires forall i :: 0 <= i < |t| ==> t[i].0 == Dedup(xs)[i] && t[i].1 == CountOf(xs, t[i].0)
    ensures var r := Bump(t, x); var d := Dedup(xs + [x]);
      && |r| == |d|
      && forall i :: 0 <= i < |r| ==> r[i].0 == d[i] && r[i].1 == CountOf(xs + [x], r[i].0)
  {
    var s := xs + [x];
    assert s[..|s| - 1] == xs;
    TallyKeySet(t, xs);
    var r := Bump(t, x);
    var d := Dedup(s);
    assert d == DedupBy(s, Identity);
    if x in KeySet(xs, Identity) {
      assert d == Dedup(xs);
    } else {
      assert d == Dedup(xs) + [x];
    }
    forall i | 0 <= i < |r| ensures r[i].0 == d[i] && r[i].1 == CountOf(s, r[i].0) {
      assert CountOf(s, r[i].0) == CountOf(xs, r[i].0) + (if x == r[i].0 then 1 else 0);
      if i == |t| {
        CountOfAbsent(xs, x);
      }
    }
  }

  lemma {:induction false} CountOfAbsent<K>(xs: seq<K>, k: K)
    requires k !in KeySet(xs, Identity)
    ensures CountOf(xs, k) == 0
    decreases |xs|
  {
    if |xs| > 0 {
      var xs' := xs[..|xs| - 1];
      KeySetSnoc(xs', xs[|xs| - 1], Identity);
      assert xs == xs' + [xs[|xs| - 1]];
      CountOfAbsent(xs', k);
    }
  }

  lemma TallyKeySet<K>(t: seq<(K, nat)>, xs: seq<K>)
    requires |t| == |Dedup(xs)|
    requires forall i :: 0 <= i < |t| ==> t[i].0 == Dedup(xs)[i]
    ensures KeySet(t, EntryKey) == KeySet(xs, Identity)
  {
    var d := Dedup(xs);
    forall k | k in KeySet(t, EntryKey) ensures k in KeySet(d, Identity) {
      var i :| 0 <= i < |t| && EntryKey(t[i]) == k;
      assert Identity(d[i]) == k;
    }
    forall k | k in KeySet(d, Identity) ensures k in KeySet(t, EntryKey) {
      var i :| 0 <= i < |d| && Identity(d[i]) == k;
      assert EntryKey(t[i]) == k;
    }
  }

  /** A key is listed exactly when it occurs in the input, and then with its
      number of occurrences; the keys come in first-seen order. */
  lemma TallyCounts<K>(xs: seq<K>)
    ensures var t := Tally(xs);
      && KeySet(t, EntryKey) == KeySet(xs, Identity)
      && (forall i :: 0 <= i < |t| ==> t[i].1 == CountOf(xs, t[i].0) && t[i].1 >= 1)
      && (forall i, j :: 0 <= i < j < |t| ==>
            FirstIndex(xs, Identity, t[i].0) < FirstIndex(xs, Identity, t[j].0))
  {
    var t := Tally(xs);
    var d := Dedup(xs);
    TallyKeySet(t, xs);
    DedupByFirstOccurrences(xs, Identity);
    forall i | 0 <= i < |t| ensures t[i].1 >= 1 {
      assert t[i].0 == d[i] == xs[FirstIndex(xs, Identity, d[i])];
      CountOfPositive(xs, FirstIndex(xs, Identity, d[i]));
    }
  }

  lemma {:induction false} CountOfPositive<K>(xs: seq<K>, i: int)
    requires 0 <= i < |xs|
    ensures CountOf(xs, xs[i]) >= 1
    decreases |xs|
  {
    if i < |xs| - 1 {
      CountOfPositive(xs[..|xs| - 1], i);
    }
  }

  /** Sum of the counts of a list of entries. */
  function SumCounts<K>(e: seq<(K, nat)>): nat
  {
    if |e| == 0 then 0 else e[0].1 + SumCounts(e[1..])
  }

  lemma {:induction false} BumpSum<K>(e: seq<(K, nat)>, k: K)
    requires UniqueKeys(e, EntryKey)
    ensures SumCounts(Bump(e, k)) == SumCounts(e) + 1
    decreases |e|
  {
    if |e| > 0 && e[0].0 != k {
      BumpSum(e[1..], k);
      assert Bump(e, k)[1..] == Bump(e[1..], k);
    } else if |e| > 0 {
      assert Bump(e, k)[1..] == e[1..];
    }
  }

  /** Every visited element is counted exactly once. */
  lemma {:induction false} TallySum<K>(xs: seq<K>)
    ensures SumCounts(Tally(xs)) == |xs|
    decreases |xs|
  {
    if |xs| > 0 {
      TallySum(xs[..|xs| - 1]);
      BumpSum(Tally(xs[..|xs| - 1]), xs[|xs| - 1]);
    }
  }

  lemma {:induction false} SumCountsSnoc<K>(e: seq<(K, nat)>, x: (K, nat))
    ensures SumCounts(e + [x]) == SumCounts(e) + x.1
    decreases |e|
  {
    if |e| > 0 {
      assert (e + [x])[1..] == e[1..] + [x];
      SumCountsSnoc(e[1..], x);
    }
  }

  lemma {:induction false} SumCountsInsert<K>(t: seq<(K, nat)>, x: (K, nat), key: ((K, nat)) -> real)
    ensures SumCounts(Insert(t, x, key)) == SumCounts(t) + x.1
    decreases |t|
  {
    if |t| > 0 && key(t[0]) >= key(x) {
      SumCountsInsert(t[1..], x, key);
      assert Insert(t, x, key)[1..] == Insert(t[1..], x, key);
    } else if |t| > 0 {
      assert ([x] + t)[1..] == t;
    }
  }

  /** Sorting the entries keeps the total of their counts. */
  lemma {:induction false} SumCountsSort<K>(e: seq<(K, nat)>, key: ((K, nat)) -> real)
    ensures SumCounts(SortDesc(e, key)) == SumCounts(e)
    decreases |e|
  {
    if |e| > 0 {
      var e' := e[..|e| - 1];
      var x := e[|e| - 1];
      assert e == e' + [x];
      calc {
        SumCounts(SortDesc(e, key));
        SumCounts(Insert(SortDesc(e', key), x, key));
        { SumCountsInsert(SortDesc(e', key), x, key); }
        SumCounts(SortDesc(e', key)) + x.1;
        { SumCountsSort(e', key); }
        SumCounts(e') + x.1;
        { SumCountsSnoc(e', x); }
        SumCounts(e);
      }
    }
  }

  /** `[...m.entries()].sort((a, b) => b[1] - a[1]).slice(0, n)`: the `n` most
      frequent keys; among equal counts the first-seen key comes first. */
  function TopEntries<K>(e: seq<(K, nat)>, n: nat): (r: seq<(K, nat)>)
    ensures |r| <= n && |r| <= |e|
    ensures forall i, j :: 0 <= i < j < |r| ==> r[i].1 >= r[j].1
    ensures multiset(r) <= multiset(e)
  {
    var r := Take(SortDesc(e, EntryCount), n);
    TopOf(e, EntryCount, n);
    forall i, j | 0 <= i < j < |r| ensures r[i].1 >= r[j].1 {
      assert EntryCount(r[i]) >= EntryCount(r[j]);
    }
    r
  }

  /** Ties keep first-seen order and nothing cut off outranks what is kept. */
  lemma TopEntriesOrder<K>(e: seq<(K, nat)>, n: nat, c: real)
    ensures var sorted := SortDesc(e, EntryCount);
      && TopEntries(e, n) == Take(sorted, n)
      && TieClass(sorted, EntryCount, c) == TieClass(e, EntryCount, c)
      && (forall i, j :: 0 <= i < |TopEntries(e, n)| <= j < |sorted| ==> sorted[j].1 <= TopEntries(e, n)[i].1)
  {
    var sorted := SortDesc(e, EntryCount);
    SortDescStable(e, EntryCount, c);
    forall i, j | 0 <= i < |TopEntries(e, n)| <= j < |sorted|
      ensures sorted[j].1 <= TopEntries(e, n)[i].1
    {
      assert EntryCount(sorted[i]) >= EntryCount(sorted[j]);
    }
  }
}

=== FILE: text.dfy ===
/** The JavaScript string operations the pages rely on: `trim`, truthiness
    fall-backs (`a || b || c`), `parseInt`, `String(n)` for integers,
    `split(sep)[0]`, `join` and the first-letter capital. */
module Text {
  import opened Base

  /** ECMAScript WhiteSpace and LineTerminator code points: what `trim`
      removes and what `parseInt` skips. */
  predicate IsSpace(c: char)
  {
    || c == '\t' || c == '\n' || c == '\U{B}' || c == '\U{C}' || c == '\r' || c == ' '
    || c == '\U{A0}' || c == '\U{1680}' || ('\U{2000}' <= c <= '\U{200A}')
    || c == '\U{2028}' || c == '\U{2029}' || c == '\U{202F}' || c == '\U{205F}'
    || c == '\U{3000}' || c == '\U{FEFF}'
  }

  /** Only white space: `!s.trim()` holds. */
  ghost predicate Blank(s: string)
  {
    forall i :: 0 <= i < |s| ==> IsSpace(s[i])
  }

  /** `s.trimStart()` */
  function TrimStart(s: string): (r: string)
    ensures |r| <= |s| && r == s[|s| - |r|..]
    ensures Blank(s[..|s| - |r|])
    ensures |r| > 0 ==> !IsSpace(r[0])
  {
    if |s| == 0 || !IsSpace(s[0]) then s
    else
      var r := TrimStart(s[1..]);
      assert s[..|s| - |r|] == [s[0]] + s[1..][..|s[1..]| - |r|];
      r
  }

  /** `s.trimEnd()` */
  function TrimEnd(s: string): (r: string)
    ensures |r| <= |s| && r == s[..|r|]
    ensures Blank(s[|r|..])
    ensures |r| > 0 ==> !IsSpace(r[|r| - 1])
  {
    if |s| == 0 || !IsSpace(s[|s| - 1]) then s
    else
      var r := TrimEnd(s[..|s| - 1]);
      assert s[|r|..] == s[..|s| - 1][|r|..] + [s[|s| - 1]];
      r
  }

  /** `r` stands in `s` at `k` with only white space around it. */
  ghost predicate InfixAt(s: string, r: string, k: int)
  {
    0 <= k <= |s| - |r| && r == s[k..k + |r|] && Blank(s[..k]) && Blank(s[k + |r|..])
  }

  /** `s.trim()`: the infix of `s` left after removing white space at both
      ends; it neither starts nor ends with white space. */
  function Trim(s: string): (r: string)
    ensures |r| <= |s|
    ensures exists k :: InfixAt(s, r, k)
    ensures |r| > 0 ==> !IsSpace(r[0]) && !IsSpace(r[|r| - 1])
  {
    var t := TrimStart(s);
    var r := TrimEnd(t);
    TrimInfix(s, t, r);
    r
  }

  /** A suffix `t` of `s` after leading white space, and a prefix `r` of
      `t` before trailing white space, sit inside `s` with white space on
      both sides. */
  lemma TrimInfix(s: string, t: string, r: string)
    requires |t| <= |s| && t == s[|s| - |t|..] && Blank(s[..|s| - |t|])
    requires |t| > 0 ==> !IsSpace(t[0])
    requires |r| <= |t| && r == t[..|r|] && Blank(t[|r|..])
    requires |r| > 0 ==> !IsSpace(r[|r| - 1])
    ensures |r| <= |s|
    ensures exists k :: InfixAt(s, r, k)
    ensures |r| > 0 ==> !IsSpace(r[0]) && !IsSpace(r[|r| - 1])
  {
    var k := |s| - |t|;
    assert r == s[k..k + |r|];
    assert s[k + |r|..] == t[|r|..];
    assert InfixAt(s, r, k);
  }

  /** The trimmed string is empty exactly when the string is blank. */
  lemma TrimEmptyIffBlank(s: string)
    ensures Trim(s) == "" <==> Blank(s)
  {
  }

  /** Trimming twice is trimming once. */
  lemma TrimIdempotent(s: string)
    ensures Trim(Trim(s)) == Trim(s)
  {
    var r := Trim(s);
    var r2 := Trim(r);
    if |r| > 0 {
      assert TrimStart(r) == r;
      assert TrimEnd(r) == r;
    }
  }

  /** JavaScript truthiness of an optional string: present and non-empty. */
  predicate Truthy(o: Option<string>)
  {
    o.Some? && o.value != ""
  }

  /** `a || b || … || fallback` over optional strings: the first truthy
      value, else the fallback. */
  function FirstTruthy(opts: seq<Option<string>>, fallback: string): (r: string)
    ensures (forall i :: 0 <= i < |opts| ==> !Truthy(opts[i])) ==> r == fallback
    ensures forall i :: 0 <= i < |opts| && Truthy(opts[i]) && (forall j :: 0 <= j < i ==> !Truthy(opts[j])) ==> r == opts[i].value
  {
    if |opts| == 0 then fallback
    else if Truthy(opts[0]) then opts[0].value
    else
      var r := FirstTruthy(opts[1..], fallback);
      assert forall i :: 1 <= i < |opts| ==> opts[i] == opts[1..][i - 1];
      r
  }

  /** `a ?? b ?? … ?? fallback`: the first present value, empty or not. */
  function FirstPresent<T>(opts: seq<Option<T>>, fallback: T): (r: T)
    ensures (forall i :: 0 <= i < |opts| ==> opts[i].None?) ==> r == fallback
    ensures forall i :: 0 <= i < |opts| && opts[i].Some? && (forall j :: 0 <= j < i ==> opts[j].None?) ==> r == opts[i].value
  {
    if |opts| == 0 then fallback
    else if opts[0].Some? then opts[0].value
    else
      var r := FirstPresent(opts[1..], fallback);
      assert forall i :: 1 <= i < |opts| ==> opts[i] == opts[1..][i - 1];
      r
  }

  /** The value of `c` as a digit in radix 36 ('0'-'9', then 'a'-'z' and
      'A'-'Z' from 10); 36 for any other character. */
  function DigitValue(c: char): (d: nat)
    ensures d <= 36
    ensures '0' <= c <= '9' <==> d < 10
  {
    if '0' <= c <= '9' then c as nat - '0' as nat
    else if 'a' <= c <= 'z' then c as nat - 'a' as nat + 10
    else if 'A' <= c <= 'Z' then c as nat - 'A' as nat + 10
    else 36
  }

  /** Length of the longest prefix of `s` made of radix-`radix` digits. */
  function DigitRun(s: string, radix: nat): (n: nat)
    ensures n <= |s|
    ensures forall i :: 0 <= i < n ==> DigitValue(s[i]) < radix
    ensures n < |s| ==> DigitValue(s[n]) >= radix
  {
    if |s| == 0 || DigitValue(s[0]) >= radix then 0
    else
      var n := DigitRun(s[1..], radix);
      assert forall i :: 1 <= i <= n ==> s[i] == s[1..][i - 1];
      1 + n
  }

  /** Positional value of a digit string, most significant digit first. */
  function ValueOf(ds: string, radix: nat): nat
  {
    if |ds| == 0 then 0
    else ValueOf(ds[..|ds| - 1], radix) * radix + DigitValue(ds[|ds| - 1])
  }

  /** The sign and the remainder after `parseInt`'s leading white space and
      optional sign. */
  function SignAndBody(s: string): (int, string)
  {
    var t := TrimStart(s);
    if |t| > 0 && t[0] == '-' then (-1, t[1..])
    else if |t| > 0 && t[0] == '+' then (1, t[1..])
    else (1, t)
  }

  /** The digits `parseInt` reads after the sign: an optional `0x`/`0X`
      prefix selects radix 16, otherwise radix 10; `None` when the run of
      digits is empty. */
  function ParseDigits(body: string): Option<nat>
  {
    var hex := |body| >= 2 && body[0] == '0' && (body[1] == 'x' || body[1] == 'X');
    var radix := if hex then 16 else 10;
    var digits := if hex then body[2..] else body;
    var n := DigitRun(digits, radix);
    if n == 0 then None else Some(ValueOf(digits[..n], radix))
  }

  /** `parseInt(s)` with no radix: white space, an optional sign, then the
      digits; `None` stands for `NaN`. */
  function ParseInt(s: string): Option<int>
  {
    var (sign, body) := SignAndBody(s);
    match ParseDigits(body)
    case None => None
    case Some(v) => Some(sign * v)
  }

  /** `parseInt` yields `NaN` when no digit follows the sign. */
  lemma ParseIntNaN(s: string)
    requires var b := SignAndBody(s).1; |b| == 0 || !('0' <= b[0] <= '9')
    ensures ParseInt(s) == None
  {
  }

  lemma TrimStartNoSpace(s: string)
    requires |s| == 0 || !IsSpace(s[0])
    ensures TrimStart(s) == s
  {
  }

  /** A run of decimal digits followed by anything that is not a digit
      parses to its decimal value. */
  lemma ParseIntDecimal(ds: string, rest: string)
    requires |ds| > 0 && forall i :: 0 <= i < |ds| ==> '0' <= ds[i] <= '9'
    requires |rest| == 0 || !('0' <= rest[0] <= '9')
    requires ds == "0" && |rest| > 0 ==> rest[0] != 'x' && rest[0] != 'X'
    ensures ParseInt(ds + rest) == Some(ValueOf(ds, 10))
  {
    var s := ds + rest;
    assert s[0] == ds[0];
    TrimStartNoSpace(s);
    assert SignAndBody(s) == (1, s);
    ParseDigitsDecimal(ds, rest);
  }

  lemma ParseDigitsDecimal(ds: string, rest: string)
    requires |ds| > 0 && forall i :: 0 <= i < |ds| ==> '0' <= ds[i] <= '9'
    requires |rest| == 0 || !('0' <= rest[0] <= '9')
    requires ds == "0" && |rest| > 0 ==> rest[0] != 'x' && rest[0] != 'X'
    ensures ParseDigits(ds + rest) == Some(ValueOf(ds, 10))
  {
    var s := ds + rest;
    assert !(|s| >= 2 && s[0] == '0' && (s[1] == 'x' || s[1] == 'X')) by {
      if |ds| == 1 && |s| >= 2 { assert s[1] == rest[0]; }
      else if |s| >= 2 { assert s[1] == ds[1]; assert '0' <= ds[1] <= '9'; }
    }
    DigitRunExact(s, ds, rest, 10);
    assert s[..|ds|] == ds;
  }

  lemma {:induction false} DigitRunExact(s: string, ds: string, rest: string, radix: nat)
    requires s == ds + rest
    requires forall i :: 0 <= i < |ds| ==> DigitValue(ds[i]) < radix
    requires |rest| == 0 || DigitValue(rest[0]) >= radix
    ensures DigitRun(s, radix) == |ds|
    decreases |ds|
  {
    if |ds| > 0 {
      assert s[1..] == ds[1..] + rest;
      DigitRunExact(s[1..], ds[1..], rest, radix);
    } else if |rest| > 0 {
      assert s[0] == rest[0];
    }
  }

  function DigitChar(d: nat): (c: char)
    requires d < 10
    ensures '0' <= c <= '9' && DigitValue(c) == d
  {
    ('0' as nat + d) as char
  }

  /** `String(n)` for a natural number: decimal, no leading zeros. */
  function NatToString(n: nat): (s: string)
    ensures |s| > 0 && forall i :: 0 <= i < |s| ==> '0' <= s[i] <= '9'
    ensures s[0] == '0' ==> s == "0"
  {
    if n < 10 then [DigitChar(n)]
    else NatToString(n / 10) + [DigitChar(n % 10)]
  }

  lemma {:induction false} NatToStringValue(n: nat)
    ensures ValueOf(NatToString(n), 10) == n
    decreases n
  {
    var s := NatToString(n);
    if n < 10 {
      assert s[..0] == [];
    } else {
      NatToStringValue(n / 10);
      assert s[..|s| - 1] == NatToString(n / 10);
    }
  }

  /** `String(n)` for an integer. */
  function IntToString(n: int): (s: string)
    ensures |s| > 0
    ensures n < 0 <==> s[0] == '-'
  {
    if n < 0 then "-" + NatToString(-n) else NatToString(n)
  }

  /** `parseInt` reads back what `String` writes: the decimal form of an
      integer identifies it. */
  lemma ParseIntToString(n: int)
    ensures ParseInt(IntToString(n)) == Some(n)
  {
    var m: nat := if n < 0 then -n else n;
    var ds := NatToString(m);
    NatToStringValue(m);
    assert ds + "" == ds;
    if n < 0 {
      var s := IntToString(n);
      TrimStartNoSpace(s);
      assert SignAndBody(s) == (-1, ds);
      ParseDigitsDecimal(ds, "");
    } else {
      ParseIntDecimal(ds, "");
    }
  }

  lemma IntToStringInjective(a: int, b: int)
    ensures IntToString(a) == IntToString(b) ==> a == b
  {
    ParseIntToString(a);
    ParseIntToString(b);
  }

  /** `s.split(sep)[0]` for a one-character separator: everything before the
      first `sep`, or all of `s` when there is none. */
  function BeforeFirst(s: string, sep: char): (r: string)
    ensures |r| <= |s| && r == s[..|r|]
    ensures sep !in r
    ensures |r| < |s| ==> s[|r|] == sep
  {
    if |s| == 0 || s[0] == sep then ""
    else [s[0]] + BeforeFirst(s[1..], sep)
  }

  /** `xs.join(sep)` */
  function Join(xs: seq<string>, sep: string): (r: string)
    ensures |xs| == 0 ==> r == ""
    ensures |xs| == 1 ==> r == xs[0]
  {
    if |xs| == 0 then ""
    else if |xs| == 1 then xs[0]
    else Join(xs[..|xs| - 1], sep) + sep + xs[|xs| - 1]
  }

  function SumLengths(xs: seq<string>): nat
  {
    if |xs| == 0 then 0 else SumLengths(xs[..|xs| - 1]) + |xs[|xs| - 1]|
  }

  /** The joined string holds every part and one separator between each
      neighbouring pair, and nothing else. */
  lemma {:induction false} JoinLength(xs: seq<string>, sep: string)
    requires |xs| > 0
    ensures |Join(xs, sep)| == SumLengths(xs) + (|xs| - 1) * |sep|
    decreases |xs|
  {
    if |xs| == 1 {
      assert xs[..0] == [];
    } else {
      JoinLength(xs[..|xs| - 1], sep);
    }
  }

  /** Read from the front: the first part, one separator, then the rest
      joined the same way. */
  lemma {:induction false} JoinCons(x: string, xs: seq<string>, sep: string)
    requires |xs| > 0
    ensures Join([x] + xs, sep) == x + sep + Join(xs, sep)
    decreases |xs|
  {
    var ys := [x] + xs;
    if |xs| == 1 {
      assert ys[..1] == [x];
    } else {
      assert ys[..|ys| - 1] == [x] + xs[..|xs| - 1];
      JoinCons(x, xs[..|xs| - 1], sep);
    }
  }

  /** `c.toUpperCase()` on the ASCII letters. */
  function UpperAscii(c: char): (u: char)
    ensures 'a' <= c <= 'z' ==> 'A' <= u <= 'Z' && u as int - 'A' as int == c as int - 'a' as int
    ensures !('a' <= c <= 'z') ==> u == c
  {
    if 'a' <= c <= 'z' then (c as int - 'a' as int + 'A' as int) as char else c
  }
}

=== FILE: tv_page.dfy ===
/** The series detail page: its year, the seasons label, the creators and
    its watchlist button, which works on the movie list. */
module TvPage {
  import opened Base
  import opened Text
  import opened Storage
  import opened Details

  /** `(first_air_date || "").slice(0, 4)` */
  function TvYear(d: Detail): (y: string)
    ensures |y| <= 4
    ensures Truthy(d.firstAirDate) ==> y == Take(d.firstAirDate.value, 4)
    ensures !Truthy(d.firstAirDate) ==> y == ""
  {
    Take(FirstTruthy([d.firstAirDate], ""), 4)
  }

  /** For a date written `YYYY-MM-DD` the year is its first four characters. */
  lemma TvYearOfIsoDate(d: Detail, date: string)
    requires d.firstAirDate == Some(date) && |date| == 10 && date[4] == '-' && date[7] == '-'
    ensures TvYear(d) == date[..4]
  {
  }

  /** The seasons label, drawn only when `number_of_seasons` is present and
      not 0: "temporada" for one season and "temporadas" otherwise. */
  function SeasonsLabel(seasons: Option<int>): (r: Option<string>)
    ensures r.None? <==> seasons.None? || seasons.value == 0
    ensures r.Some? ==> (r.value == "temporada" <==> seasons.value == 1)
    ensures r.Some? ==> r.value == "temporada" || r.value == "temporadas"
  {
    match seasons
    case None => None
    case Some(n) =>
      if n == 0 then None
      else if n == 1 then Some("temporada")
      else Some("temporadas")
  }

  /** `created_by ?? []` as text: the names joined by ", ", or "—". */
  function CreatorsText(d: Detail): (t: string)
    ensures d.createdBy.None? || |d.createdBy.value| == 0 ==> t == "—"
    ensures d.createdBy.Some? && |d.createdBy.value| == 1 ==> t == d.createdBy.value[0].name
    ensures d.createdBy.Some? && |d.createdBy.value| > 1 ==>
      t == d.createdBy.value[0].name + ", " + NamesText(d.createdBy.value[1..], ", ")
  {
    var v := d.createdBy.GetOr([]);
    if |v| > 1 then
      NamesTextCons(v, ", ");
      NamesText(v, ", ")
    else NamesText(v, ", ")
  }

  /** The page's watchlist button toggles the series id on the user's
      MOVIE list: every series list stays as it was, and the movie list is
      the one that flips. */
  lemma TvButtonUsesMovieList(st: Store, uid: string, tid: int, inWatchlist: bool, v: string)
    ensures var r := WatchButton(st, Some(uid), tid, inWatchlist);
      GetWatchlistSeries(r.0, v) == GetWatchlistSeries(st, v)
      && (tid in GetWatchlist(r.0, uid) <==> tid !in GetWatchlist(st, uid))
  {
    WatchlistsIndependent(st, uid, tid, v);
  }
}

=== FILE: watchlist_docs.dfy ===
/** The shared `watchlist` collection: one document per (user, kind, title)
    that the user has saved. The collection is a sequence of documents;
    queries are filters over it and writes are sequential transitions. */
module WatchlistDocs {
  import opened Base
  import opened Sorting
  import opened Catalog

  /** A stored document. `createdAt` is a server timestamp in milliseconds
      since the epoch, `None` while the server has not filled it in. */
  datatype WatchDoc = WatchDoc(docId: string, userId: string, kind: Kind, refId: int, createdAt: Option<nat>)

  /** A document as `listenWatchlist` hands it to the page. */
  datatype WatchItem = WatchItem(docId: string, userId: string, kind: Kind, refId: int, createdAt: nat)

  /** `where userId == … && kind == … && refId == …` */
  predicate Matches(d: WatchDoc, userId: string, kind: Kind, refId: int)
  {
    d.userId == userId && d.kind == kind && d.refId == refId
  }

  function MatchesTriple(userId: string, kind: Kind, refId: int): WatchDoc -> bool
  {
    d => Matches(d, userId, kind, refId)
  }

  function NotMatchesTriple(userId: string, kind: Kind, refId: int): WatchDoc -> bool
  {
    d => !Matches(d, userId, kind, refId)
  }

  /** Number of documents for the triple. */
  function MatchCount(docs: seq<WatchDoc>, userId: string, kind: Kind, refId: int): nat
  {
    CountWhere(MatchesTriple(userId, kind, refId), docs)
  }

  /** `listenWatchStatus`: the query snapshot is non-empty. */
  function InWatchlist(docs: seq<WatchDoc>, userId: string, kind: Kind, refId: int): (r: bool)
    ensures r <==> exists i :: 0 <= i < |docs| && Matches(docs[i], userId, kind, refId)
  {
    var m := Filter(MatchesTriple(userId, kind, refId), docs);
    if |m| > 0 then
      assert m[0] in multiset(docs);
      true
    else
      assert forall i :: 0 <= i < |docs| && Matches(docs[i], userId, kind, refId) ==> docs[i] in m by {
        FilterKeeps(MatchesTriple(userId, kind, refId), docs);
        forall i | 0 <= i < |docs| && Matches(docs[i], userId, kind, refId) ensures docs[i] in m {
          assert MatchesTriple(userId, kind, refId)(docs[i]);
        }
      }
      false
  }

  /** `toggleWatchItem`: deletes every document for the triple when there is
      one; otherwise adds one, with the server's auto-generated id `newId`
      and its time `now`. */
  function Toggle(docs: seq<WatchDoc>, userId: string, kind: Kind, refId: int, newId: string, now: nat): (r: seq<WatchDoc>)
    ensures MatchCount(docs, userId, kind, refId) > 0 ==> MatchCount(r, userId, kind, refId) == 0
    ensures MatchCount(docs, userId, kind, refId) == 0 ==> MatchCount(r, userId, kind, refId) == 1
    ensures Filter(NotMatchesTriple(userId, kind, refId), r) == Filter(NotMatchesTriple(userId, kind, refId), docs)
  {
    var p := MatchesTriple(userId, kind, refId);
    var q := NotMatchesTriple(userId, kind, refId);
    if MatchCount(docs, userId, kind, refId) > 0 then
      var r := Filter(q, docs);
      FilterDisjoint(p, q, docs);
      FilterIdempotent(q, docs);
      r
    else
      var d := WatchDoc(newId, userId, kind, refId, Some(now));
      FilterSnoc(p, docs, d);
      FilterSnoc(q, docs, d);
      docs + [d]
  }

  /** Filtering with `p` what was filtered with a predicate excluding it
      leaves nothing. */
  lemma FilterDisjoint(p: WatchDoc -> bool, q: WatchDoc -> bool, s: seq<WatchDoc>)
    requires forall d :: q(d) ==> !p(d)
    ensures Filter(p, Filter(q, s)) == []
  {
    FilterNone(p, Filter(q, s));
  }

  /** Toggling turns "in the list" into "not in the list" and back. */
  lemma ToggleFlipsStatus(docs: seq<WatchDoc>, userId: string, kind: Kind, refId: int, newId: string, now: nat)
    ensures InWatchlist(Toggle(docs, userId, kind, refId, newId, now), userId, kind, refId)
        <==> !InWatchlist(docs, userId, kind, refId)
  {
  }

  /** Two toggles starting from no document for the triple end with the
      original collection. */
  lemma ToggleTwice(docs: seq<WatchDoc>, userId: string, kind: Kind, refId: int, id1: string, t1: nat, id2: string, t2: nat)
    requires MatchCount(docs, userId, kind, refId) == 0
    ensures Toggle(Toggle(docs, userId, kind, refId, id1, t1), userId, kind, refId, id2, t2) == docs
  {
    var q := NotMatchesTriple(userId, kind, refId);
    var d := WatchDoc(id1, userId, kind, refId, Some(t1));
    FilterSnoc(q, docs, d);
    NoMatchKeepsAll(docs, userId, kind, refId);
  }

  lemma NoMatchKeepsAll(docs: seq<WatchDoc>, userId: string, kind: Kind, refId: int)
    requires MatchCount(docs, userId, kind, refId) == 0
    ensures Filter(NotMatchesTriple(userId, kind, refId), docs) == docs
  {
    var p := MatchesTriple(userId, kind, refId);
    FilterEmptyNone(p, docs);
    assert forall i :: 0 <= i < |docs| ==> NotMatchesTriple(userId, kind, refId)(docs[i]);
    FilterKeepsAll(NotMatchesTriple(userId, kind, refId), docs);
  }

  /** At most one document per (user, kind, title). */
  ghost predicate AtMostOnePerTriple(docs: seq<WatchDoc>)
  {
    forall i, j :: 0 <= i < j < |docs| ==> !Matches(docs[j], docs[i].userId, docs[i].kind, docs[i].refId)
  }

  /** Toggles keep the collection free of duplicate entries. */
  lemma ToggleKeepsAtMostOne(docs: seq<WatchDoc>, userId: string, kind: Kind, refId: int, newId: string, now: nat)
    requires AtMostOnePerTriple(docs)
    ensures AtMostOnePerTriple(Toggle(docs, userId, kind, refId, newId, now))
  {
    var r := Toggle(docs, userId, kind, refId, newId, now);
    if MatchCount(docs, userId, kind, refId) > 0 {
      FilterSubsequence(NotMatchesTriple(userId, kind, refId), docs);
    } else {
      forall i, j | 0 <= i < j < |r|
        ensures !Matches(r[j], r[i].userId, r[i].kind, r[i].refId)
      {
        if j == |docs| {
          assert r[i] == docs[i];
          FilterEmptyNone(MatchesTriple(userId, kind, refId), docs);
          assert !MatchesTriple(userId, kind, refId)(docs[i]);
        }
      }
    }
  }

  /** Filtering keeps a collection free of duplicate entries: the kept
      documents stand in the same order as in the original. */
  lemma {:induction false} FilterSubsequence(p: WatchDoc -> bool, s: seq<WatchDoc>)
    requires AtMostOnePerTriple(s)
    ensures AtMostOnePerTriple(Filter(p, s))
    decreases |s|
  {
    if |s| > 0 {
      var s' := s[..|s| - 1];
      var x := s[|s| - 1];
      assert s == s' + [x];
      InitAtMostOne(s, s', x);
      FilterSubsequence(p, s');
      FilterSnoc(p, s', x);
      var f := Filter(p, s');
      if p(x) {
        UnmatchedWithin(f, s', x);
        SnocAtMostOne(f, x);
      }
    }
  }

  lemma InitAtMostOne(s: seq<WatchDoc>, s': seq<WatchDoc>, x: WatchDoc)
    requires s == s' + [x] && AtMostOnePerTriple(s)
    ensures AtMostOnePerTriple(s')
    ensures forall k :: 0 <= k < |s'| ==> !Matches(x, s'[k].userId, s'[k].kind, s'[k].refId)
  {
    forall i, j | 0 <= i < j < |s'| ensures !Matches(s'[j], s'[i].userId, s'[i].kind, s'[i].refId) {
      assert s'[i] == s[i] && s'[j] == s[j];
    }
    forall k | 0 <= k < |s'| ensures !Matches(x, s'[k].userId, s'[k].kind, s'[k].refId) {
      assert s'[k] == s[k] && x == s[|s'|];
    }
  }

  lemma UnmatchedWithin(f: seq<WatchDoc>, s: seq<WatchDoc>, x: WatchDoc)
    requires multiset(f) <= multiset(s)
    requires forall k :: 0 <= k < |s| ==> !Matches(x, s[k].userId, s[k].kind, s[k].refId)
    ensures forall i :: 0 <= i < |f| ==> !Matches(x, f[i].userId, f[i].kind, f[i].refId)
  {
    forall i | 0 <= i < |f| ensures !Matches(x, f[i].userId, f[i].kind, f[i].refId) {
      assert f[i] in multiset(s);
      var k :| 0 <= k < |s| && s[k] == f[i];
    }
  }

  lemma SnocAtMostOne(f: seq<WatchDoc>, x: WatchDoc)
    requires AtMostOnePerTriple(f)
    requires forall i :: 0 <= i < |f| ==> !Matches(x, f[i].userId, f[i].kind, f[i].refId)
    ensures AtMostOnePerTriple(f + [x])
  {
    var r := f + [x];
    forall i, j | 0 <= i < j < |r| ensures !Matches(r[j], r[i].userId, r[i].kind, r[i].refId) {
      assert r[i] == f[i];
    }
  }

  /** `data.createdAt?.toDate?.() ?? new Date(0)` */
  function ToItem(d: WatchDoc): (w: WatchItem)
    ensures w.createdAt == if d.createdAt.Some? then d.createdAt.value else 0
  {
    WatchItem(d.docId, d.userId, d.kind, d.refId, d.createdAt.GetOr(0))
  }

  /** A document whose `serverTimestamp()` the server has not filled in
      yet: the write is still pending on this client. */
  predicate Pending(d: WatchDoc)
  {
    d.createdAt.None?
  }

  predicate Stamped(d: WatchDoc)
  {
    d.createdAt.Some?
  }

  /** The key of `orderBy("createdAt", "desc")` among stamped documents. */
  function DocTime(d: WatchDoc): real
  {
    d.createdAt.GetOr(0) as real
  }

  function OfUser(userId: string): WatchDoc -> bool
  {
    (d: WatchDoc) => d.userId == userId
  }

  /** The documents of `query(where("userId", "==", userId),
      orderBy("createdAt", "desc"))` as a listener sees them: a pending
      timestamp counts as the newest, so pending documents come first, then
      the stamped ones, newest first. */
  function ListenDocs(docs: seq<WatchDoc>, userId: string): (r: seq<WatchDoc>)
    ensures multiset(r) == multiset(Filter(OfUser(userId), docs))
    ensures var np := CountWhere(Pending, Filter(OfUser(userId), docs));
      && np <= |r|
      && (forall i :: 0 <= i < np ==> Pending(r[i]))
      && (forall i :: np <= i < |r| ==> Stamped(r[i]))
      && (forall i, j :: np <= i < j < |r| ==> r[j].createdAt.value <= r[i].createdAt.value)
  {
    var mine := Filter(OfUser(userId), docs);
    var pending := Filter(Pending, mine);
    var stamped := SortDesc(Filter(Stamped, mine), DocTime);
    FilterSplit(Pending, Stamped, mine);
    SubMultisetAll(stamped, Filter(Stamped, mine), Stamped);
    StampedTail(pending, stamped);
    pending + stamped
  }

  /** Pending documents followed by stamped ones sorted by time. */
  lemma StampedTail(pending: seq<WatchDoc>, stamped: seq<WatchDoc>)
    requires forall i :: 0 <= i < |pending| ==> Pending(pending[i])
    requires forall i :: 0 <= i < |stamped| ==> Stamped(stamped[i])
    requires SortedDesc(stamped, DocTime)
    ensures var r := pending + stamped;
      && (forall i :: 0 <= i < |pending| ==> Pending(r[i]))
      && (forall i :: |pending| <= i < |r| ==> Stamped(r[i]))
      && (forall i, j :: |pending| <= i < j < |r| ==> r[j].createdAt.value <= r[i].createdAt.value)
  {
    var r := pending + stamped;
    forall i, j | |pending| <= i < j < |r| ensures r[j].createdAt.value <= r[i].createdAt.value {
      assert r[i] == stamped[i - |pending|] && r[j] == stamped[j - |pending|];
      assert DocTime(stamped[i - |pending|]) >= DocTime(stamped[j - |pending|]);
    }
  }

  /** `listenWatchlist(userId)`: the user's documents of both kinds in the
      listener's order, with a pending timestamp read as the epoch: the
      pending ones first, then the rest newest first. */
  function ListenWatchlist(docs: seq<WatchDoc>, userId: string): (r: seq<WatchItem>)
    ensures |r| == CountWhere(OfUser(userId), docs)
    ensures forall i :: 0 <= i < |r| ==> r[i].userId == userId
    ensures var np := CountWhere(Pending, Filter(OfUser(userId), docs));
      && np <= |r|
      && (forall i :: 0 <= i < np ==> r[i].createdAt == 0)
      && (forall i, j :: np <= i < j < |r| ==> r[i].createdAt >= r[j].createdAt)
  {
    var mine := Filter(OfUser(userId), docs);
    var ld := ListenDocs(docs, userId);
    SubMultisetAll(ld, mine, OfUser(userId));
    MapSeq(ToItem, ld)
  }

  /** The item read from some stored document. */
  ghost predicate FromStore(w: WatchItem, docs: seq<WatchDoc>)
  {
    exists j :: 0 <= j < |docs| && w == ToItem(docs[j])
  }

  /** The listed items are exactly the user's documents. */
  lemma ListenWatchlistComplete(docs: seq<WatchDoc>, userId: string, d: WatchDoc)
    ensures ToItem(d) in ListenWatchlist(docs, userId) <== d in docs && d.userId == userId
    ensures forall i :: 0 <= i < |ListenWatchlist(docs, userId)| ==> FromStore(ListenWatchlist(docs, userId)[i], docs)
  {
    var mine := Filter(OfUser(userId), docs);
    var ld := ListenDocs(docs, userId);
    FilterExact(OfUser(userId), docs);
    if d in docs && d.userId == userId {
      assert OfUser(userId)(d);
      assert d in multiset(ld);
      ItemListed(ld, d);
    }
    SubMultisetAll(ld, mine, (x: WatchDoc) => x in docs);
    ItemsFromDocs(ld, docs, ListenWatchlist(docs, userId));
  }

  lemma ItemListed(ld: seq<WatchDoc>, d: WatchDoc)
    requires d in multiset(ld)
    ensures ToItem(d) in MapSeq(ToItem, ld)
  {
    var k :| 0 <= k < |ld| && ld[k] == d;
    assert MapSeq(ToItem, ld)[k] == ToItem(d);
  }

  lemma ItemsFromDocs(ld: seq<WatchDoc>, docs: seq<WatchDoc>, r: seq<WatchItem>)
    requires r == MapSeq(ToItem, ld)
    requires forall i :: 0 <= i < |ld| ==> ld[i] in docs
    ensures forall i :: 0 <= i < |r| ==> FromStore(r[i], docs)
  {
    forall i | 0 <= i < |r| ensures FromStore(r[i], docs) {
      var j :| 0 <= j < |docs| && docs[j] == ld[i];
      assert r[i] == ToItem(docs[j]);
    }
  }
}

=== FILE: watchlist_page.dfy ===
/** The watchlist page: the saved movies and series combined into one list
    of items, then filtered by kind and sorted by the chosen order; and the
    two drop-down selects that choose them. */
module WatchlistPage {
  import opened Base
  import opened Sorting
  import opened Text
  import opened Catalog
  import opened ProfileReviews

  /** A saved title with its position in the combined id lists. */
  datatype Item = Item(id: int, kind: Kind, addedIndex: nat, data: Media)

  /** `ids.forEach((id, index) => …)`: one item per id whose record was
      fetched, numbered from `base` by its position in `ids`. */
  function ItemsFor(ids: seq<int>, byId: map<int, Media>, base: nat, kind: Kind): (r: seq<Item>)
    ensures |r| <= |ids|
    ensures forall i :: 0 <= i < |r| ==> r[i].kind == kind && base <= r[i].addedIndex < base + |ids|
    ensures forall i :: 0 <= i < |r| ==> ids[r[i].addedIndex - base] == r[i].id
    ensures forall i :: 0 <= i < |r| ==> r[i].id in byId && r[i].data == byId[r[i].id]
    ensures forall i, j :: 0 <= i < j < |r| ==> r[i].addedIndex < r[j].addedIndex
  {
    if |ids| == 0 then []
    else
      var ids' := ids[..|ids| - 1];
      var p := ItemsFor(ids', byId, base, kind);
      var id := ids[|ids| - 1];
      assert forall i :: 0 <= i < |p| ==> ids[p[i].addedIndex - base] == ids'[p[i].addedIndex - base];
      if id in byId then p + [Item(id, kind, base + |ids| - 1, byId[id])] else p
  }

  /** Every id whose record was fetched gets an item; the rest are skipped. */
  lemma ItemsForComplete(ids: seq<int>, byId: map<int, Media>, base: nat, kind: Kind, j: int)
    requires 0 <= j < |ids|
    ensures ids[j] in byId <==> exists i :: 0 <= i < |ItemsFor(ids, byId, base, kind)| && ItemsFor(ids, byId, base, kind)[i].addedIndex == base + j
  {
    var r := ItemsFor(ids, byId, base, kind);
    if ids[j] in byId {
      var i := ItemsForHas(ids, byId, base, kind, j);
    }
  }

  lemma {:induction false} ItemsForHas(ids: seq<int>, byId: map<int, Media>, base: nat, kind: Kind, j: int) returns (i: nat)
    requires 0 <= j < |ids| && ids[j] in byId
    ensures i < |ItemsFor(ids, byId, base, kind)| && ItemsFor(ids, byId, base, kind)[i].addedIndex == base + j
    decreases |ids|
  {
    var ids' := ids[..|ids| - 1];
    var p := ItemsFor(ids', byId, base, kind);
    ItemsForSnoc(ids, byId, base, kind);
    if j < |ids| - 1 {
      assert ids'[j] == ids[j];
      i := ItemsForHas(ids', byId, base, kind, j);
    } else {
      i := |p|;
    }
  }

  lemma ItemsForSnoc(ids: seq<int>, byId: map<int, Media>, base: nat, kind: Kind)
    requires |ids| > 0
    ensures var id := ids[|ids| - 1]; var p := ItemsFor(ids[..|ids| - 1], byId, base, kind);
      ItemsFor(ids, byId, base, kind) == if id in byId then p + [Item(id, kind, base + |ids| - 1, byId[id])] else p
  {
  }

  /** The combined list: the movies in `movieIds` order, then the series in
      `seriesIds` order numbered after every movie. `moviesData` and
      `seriesData` are what `getManyMovies` and `getManySeries` returned. */
  function Combine(movieIds: seq<int>, seriesIds: seq<int>, moviesData: seq<Media>, seriesData: seq<Media>): (r: seq<Item>)
    ensures forall i, j :: 0 <= i < j < |r| ==> r[i].addedIndex < r[j].addedIndex
    ensures forall i, j :: 0 <= i < j < |r| && r[i].kind == TvKind ==> r[j].kind == TvKind
    ensures forall i :: 0 <= i < |r| && r[i].kind == MovieKind ==> r[i].addedIndex < |movieIds| && movieIds[r[i].addedIndex] == r[i].id
    ensures forall i :: 0 <= i < |r| && r[i].kind == TvKind ==>
      |movieIds| <= r[i].addedIndex < |movieIds| + |seriesIds| && seriesIds[r[i].addedIndex - |movieIds|] == r[i].id
  {
    var ms := ItemsFor(movieIds, IndexBy(moviesData, MediaId), 0, MovieKind);
    var ss := ItemsFor(seriesIds, IndexBy(seriesData, MediaId), |movieIds|, TvKind);
    ms + ss
  }

  /** The items once loading has finished: none without a user or without
      any saved id. */
  function LoadedItems(signedIn: bool, movieIds: seq<int>, seriesIds: seq<int>, moviesData: seq<Media>, seriesData: seq<Media>): (r: seq<Item>)
    ensures !signedIn || (|movieIds| == 0 && |seriesIds| == 0) ==> r == []
    ensures signedIn && (|movieIds| > 0 || |seriesIds| > 0) ==> r == Combine(movieIds, seriesIds, moviesData, seriesData)
  {
    if !signedIn || (|movieIds| == 0 && |seriesIds| == 0) then []
    else Combine(movieIds, seriesIds, moviesData, seriesData)
  }

  /** With no saved id the combined list would be empty anyway. */
  lemma CombineEmpty(moviesData: seq<Media>, seriesData: seq<Media>)
    ensures Combine([], [], moviesData, seriesData) == []
  {
  }

  /* ---------- filter and sort ---------- */

  datatype FilterMode = All | OnlyMovies | OnlySeries

  function ModeKeeps(mode: FilterMode): Item -> bool
  {
    (it: Item) => mode == All || (mode == OnlyMovies && it.kind == MovieKind) || (mode == OnlySeries && it.kind == TvKind)
  }

  /** `list.filter(it => it.kind === filterMode)` unless the mode is "all". */
  function FilterItems(mode: FilterMode, items: seq<Item>): (r: seq<Item>)
    ensures mode == All ==> r == items
    ensures mode == OnlyMovies ==> forall x :: multiset(r)[x] == if x.kind == MovieKind then multiset(items)[x] else 0
    ensures mode == OnlySeries ==> forall x :: multiset(r)[x] == if x.kind == TvKind then multiset(items)[x] else 0
  {
    if mode == All then items
    else
      var r := Filter(ModeKeeps(mode), items);
      forall x ensures multiset(r)[x] == if ModeKeeps(mode)(x) then multiset(items)[x] else 0 {
        FilterCount(ModeKeeps(mode), items, x);
      }
      r
  }

  /** The kind filter keeps the items of the mode in the order of the
      list, and every one of them. */
  lemma FilterItemsOrder(mode: FilterMode, items: seq<Item>) returns (idx: seq<int>)
    ensures Picks(items, FilterItems(mode, items), idx)
    ensures forall j :: 0 <= j < |items| && ModeKeeps(mode)(items[j]) ==> exists k :: 0 <= k < |idx| && idx[k] == j
  {
    if mode == All {
      idx := seq(|items|, i => i);
      assert forall j :: 0 <= j < |items| ==> idx[j] == j;
    } else {
      idx := FilterPositions(ModeKeeps(mode), items);
    }
  }

  datatype SortMode = Added | ByTitle | ByYear

  /** `a.addedIndex - b.addedIndex` as a descending key. */
  function AddedKey(it: Item): real { -(it.addedIndex as real) }

  /** `title || name || ""`, the text the title order compares. */
  function TitleText(it: Item): string
  {
    FirstTruthy([it.data.title, it.data.name], "")
  }

  /** `parseInt((release_date || first_air_date || "").slice(0, 4)) || 0` */
  function YearNumber(it: Item): (y: int)
    ensures ParseInt(MediaYear(Some(it.data))).None? ==> y == 0
    ensures ParseInt(MediaYear(Some(it.data))).Some? ==> y == ParseInt(MediaYear(Some(it.data))).value
  {
    ParseInt(MediaYear(Some(it.data))).GetOr(0)
  }

  function YearKey(it: Item): real { YearNumber(it) as real }

  /** The title order: ascending by `rank` of the title text, `rank`
      standing for the Spanish collation of `localeCompare`. */
  function TitleKey(rank: string -> real): Item -> real
  {
    (it: Item) => -rank(TitleText(it))
  }

  function SortItems(sort: SortMode, list: seq<Item>, rank: string -> real): (r: seq<Item>)
    ensures multiset(r) == multiset(list)
    ensures sort == Added ==> forall i, j :: 0 <= i < j < |r| ==> r[i].addedIndex <= r[j].addedIndex
    ensures sort == ByYear ==> forall i, j :: 0 <= i < j < |r| ==> YearNumber(r[i]) >= YearNumber(r[j])
    ensures sort == ByTitle ==> forall i, j :: 0 <= i < j < |r| ==> rank(TitleText(r[i])) <= rank(TitleText(r[j]))
  {
    match sort
    case ByTitle =>
      var r := SortDesc(list, TitleKey(rank));
      assert forall i, j :: 0 <= i < j < |r| ==> TitleKey(rank)(r[i]) >= TitleKey(rank)(r[j]);
      r
    case ByYear =>
      var r := SortDesc(list, YearKey);
      assert forall i, j :: 0 <= i < j < |r| ==> YearKey(r[i]) >= YearKey(r[j]);
      r
    case Added =>
      var r := SortDesc(list, AddedKey);
      assert forall i, j :: 0 <= i < j < |r| ==> AddedKey(r[i]) >= AddedKey(r[j]);
      r
  }

  /** `Array.prototype.sort` is stable: items with the same year, or with
      titles of the same rank, keep their order in the list. */
  lemma SortItemsStable(list: seq<Item>, rank: string -> real, k: real)
    ensures TieClass(SortItems(ByYear, list, rank), YearKey, k) == TieClass(list, YearKey, k)
    ensures TieClass(SortItems(ByTitle, list, rank), TitleKey(rank), k) == TieClass(list, TitleKey(rank), k)
    ensures TieClass(SortItems(Added, list, rank), AddedKey, k) == TieClass(list, AddedKey, k)
  {
    SortDescStable(list, YearKey, k);
    SortDescStable(list, TitleKey(rank), k);
    SortDescStable(list, AddedKey, k);
  }

  /** `processedItems`: nothing while loading; otherwise the filtered items
      in the chosen order. */
  function Processed(items: Option<seq<Item>>, mode: FilterMode, sort: SortMode, rank: string -> real): (r: Option<seq<Item>>)
    ensures r.None? <==> items.None?
    ensures r.Some? ==> multiset(r.value) == multiset(FilterItems(mode, items.value))
  {
    match items
    case None => None
    case Some(list) => Some(SortItems(sort, FilterItems(mode, list), rank))
  }

  /** The "added" order leaves the loaded list as it is, whatever the
      filter: the items already come in increasing `addedIndex`. */
  lemma AddedOrderIsIdentity(items: seq<Item>, mode: FilterMode, rank: string -> real)
    requires AddedAscending(items)
    ensures Processed(Some(items), mode, Added, rank) == Some(FilterItems(mode, items))
  {
    var f := FilterItems(mode, items);
    if mode != All {
      FilterOrdered(ModeKeeps(mode), items);
    }
    forall i, j | 0 <= i < j < |f| ensures AddedKey(f[i]) >= AddedKey(f[j]) {
      assert f[i].addedIndex < f[j].addedIndex;
    }
    SortDescOfSorted(f, AddedKey);
  }

  /** Strictly increasing `addedIndex`. */
  ghost predicate AddedAscending(s: seq<Item>)
  {
    forall i, j :: 0 <= i < j < |s| ==> s[i].addedIndex < s[j].addedIndex
  }

  lemma {:induction false} FilterOrdered(p: Item -> bool, s: seq<Item>)
    requires AddedAscending(s)
    ensures AddedAscending(Filter(p, s))
    decreases |s|
  {
    if |s| > 0 {
      var s' := s[..|s| - 1];
      var x := s[|s| - 1];
      assert s == s' + [x];
      AscendingInit(s, s', x);
      FilterOrdered(p, s');
      FilterSnoc(p, s', x);
      var f' := Filter(p, s');
      BelowLast(f', s', x);
      SnocAscending(f', x);
    }
  }

  /** Dropping the last item keeps the order, and the last item comes after
      all the others. */
  lemma AscendingInit(s: seq<Item>, s': seq<Item>, x: Item)
    requires AddedAscending(s) && s == s' + [x]
    ensures AddedAscending(s')
    ensures forall k :: 0 <= k < |s'| ==> s'[k].addedIndex < x.addedIndex
  {
    forall k | 0 <= k < |s'| ensures s'[k].addedIndex < x.addedIndex {
      assert s'[k] == s[k] && x == s[|s'|];
    }
    forall i, j | 0 <= i < j < |s'| ensures s'[i].addedIndex < s'[j].addedIndex {
      assert s'[i] == s[i] && s'[j] == s[j];
    }
  }

  /** Items drawn from `s` all come before `x` when every item of `s` does. */
  lemma BelowLast(f: seq<Item>, s: seq<Item>, x: Item)
    requires multiset(f) <= multiset(s)
    requires forall k :: 0 <= k < |s| ==> s[k].addedIndex < x.addedIndex
    ensures forall i :: 0 <= i < |f| ==> f[i].addedIndex < x.addedIndex
  {
    forall i | 0 <= i < |f| ensures f[i].addedIndex < x.addedIndex {
      assert f[i] in multiset(s);
    }
  }

  lemma SnocAscending(f: seq<Item>, x: Item)
    requires AddedAscending(f)
    requires forall i :: 0 <= i < |f| ==> f[i].addedIndex < x.addedIndex
    ensures AddedAscending(f + [x])
  {
  }

  /* ---------- the drop-down selects ---------- */

  datatype OpenSelect = NoneOpen | FilterOpen | SortOpen

  /** The state of the two selects. */
  datatype Selects = Selects(sortMode: SortMode, filterMode: FilterMode, open: OpenSelect)

  /** `toggle(which)`: clicking a select's button closes it when it is the
      open one and opens it (closing the other) otherwise. */
  function Toggle(s: Selects, which: OpenSelect): (r: Selects)
    ensures r.sortMode == s.sortMode && r.filterMode == s.filterMode
    ensures s.open == which ==> r.open == NoneOpen
    ensures s.open != which ==> r.open == which
  {
    s.(open := if s.open == which then NoneOpen else which)
  }

  /** Clicking the same button twice, when no other select was open,
      restores the state: from closed it opens and closes again, and from
      open it closes and opens again. */
  lemma ToggleTwice(s: Selects, which: OpenSelect)
    requires which != NoneOpen && (s.open == NoneOpen || s.open == which)
    ensures Toggle(Toggle(s, which), which) == s
  {
  }

  /** With another select open, two clicks on this one leave every select
      closed. */
  lemma ToggleTwiceFromOther(s: Selects, which: OpenSelect)
    requires which != NoneOpen && s.open != NoneOpen && s.open != which
    ensures Toggle(Toggle(s, which), which) == s.(open := NoneOpen)
  {
  }

  /** Picking a filter sets it and closes the menu. */
  function PickFilter(s: Selects, mode: FilterMode): (r: Selects)
    ensures r.filterMode == mode && r.sortMode == s.sortMode && r.open == NoneOpen
  {
    Selects(s.sortMode, mode, NoneOpen)
  }

  /** Picking an order sets it and closes the menu. */
  function PickSort(s: Selects, mode: SortMode): (r: Selects)
    ensures r.sortMode == mode && r.filterMode == s.filterMode && r.open == NoneOpen
  {
    Selects(mode, s.filterMode, NoneOpen)
  }
}
